=== FILE: README.md ===
# SelfDrivingCar simulation core in Dafny

This project models the simulation engine of SelfDrivingCar, a 2-D car
simulator. Cars are driven by a keyboard or by a small perceptron
network, and they sense the road and other cars with ranging sensors.
The model is written over Dafny `real` arithmetic and has four layers.

- **Geometry kernel** (`Geometry`, from `CarMath`):
  - linear interpolation, clamping and angle units;
  - the determinant-based line/line intersection, where each line may be finite or infinite;
  - the polygon/polygon and polygon/line tests and the ray/polygon hits, all over cyclic edges.
- **Colliders and sensors** (`Colliders`, `Sensors`, `Parameters`, the road part of `Controllers`):
  - a collider is its geometry, a list of lines and a list of polygons;
  - the car collider is one four-corner rectangle around the car;
  - the road collider is two infinite vertical borders;
  - the distance sensor reduces the hits along its ray to the nearest one.
- **Decision and dynamics units** (`NeuronalNetwork`, `Controllers`, `Physics`):
  - the binary-threshold perceptron, with feed-forward and lerp-based mutation;
  - the keyboard and network input controllers, which collapse four intents into throttle and steering in {-1, 0, 1};
  - the cruise controller;
  - the car physics step: clamping, piecewise acceleration with drag, speed saturation, snap-to-zero, angle wrap, distance bookkeeping, and one-way death on collision.
- **Entity and graph bookkeeping** (`Entities`, `Simulation`, `EntityGraphs`):
  - an entity holds ordered component lists with first-match lookup;
  - a pass runs each entity in insertion order, sensors before controllers;
  - a frame advances the counter and the clock, runs one pass, and reports the fault that stopped it, if any.

**Modelling conventions**
- Objects become immutable datatypes, and every `Simulate` becomes a pure function from the world to the next world.
- An entity is identified by its index in the graph, and a component by its index in its entity's list.
- A component's owner is the entity whose list holds it.
- C# `null` is `Option.None`.
- The trigonometric functions, `sqrt` and `atan2` are fields of a `Trig` record passed as a parameter. Three named identities are the only facts assumed about them, each by the lemmas that need it: `Geometry.HalfTurnLaw` (`sin` and `cos` of `x + π`), `Geometry.PythagorasLaw` (sin² + cos² = 1) and `Geometry.SqrtLaw` (`sqrt` of a non-negative number squares back to it). `Geometry.Lawful` is all three.
- Random draws (`Random.NextDouble`) are caller-supplied sequences of values in [0, 1).
- The keyboard callback is the frame's `KeyState`, read once per frame.
- The one exception a frame can raise is `First()` on an empty polygon list inside the physics step. It is `Fault`, and the pass stops with the earlier changes in place.

## Model

| member | source | states |
|---|---|---|
| Geometry.Lerp | source/SelfDrivingCar.Core/Utils/CarMath.cs:9-17 | t = 0 gives a, t = 1 gives b, and for t in [0, 1] the result lies between a and b |
| Geometry.Bound | source/SelfDrivingCar.Core/Utils/CarMath.cs:26-29 | the result is at least the minimum. When minimum ≤ maximum it is at most the maximum. A value in range is returned unchanged, and a value outside is clamped to the nearer end |
| Geometry.BoundIdempotent | source/SelfDrivingCar.Core/Utils/CarMath.cs:26-29 | clamping twice is clamping once |
| Geometry.AngleUnitsRoundTrip | source/SelfDrivingCar.Core/Utils/CarMath.cs:39-48 | degrees→radians→degrees and radians→degrees→radians are both the identity |
| Geometry.CirclePointLength | source/SelfDrivingCar.Core/Utils/CarMath.cs:20-23 | the point at `radius` on the circle has length abs(radius), given sin² + cos² = 1 and sqrt of a square |
| Geometry.IntersectLines | source/SelfDrivingCar.Core/Utils/CarMath.cs:55-98 | bottom = 0 gives no point and both positions 0, whatever the flags. With no point, both positions are 0. Otherwise each position is tTop/bottom and uTop/bottom, and a point exists iff each finite line has its position in [0, 1]. The point is the lerp along line A |
| Geometry.IntersectLinesComplete | source/SelfDrivingCar.Core/Utils/CarMath.cs:55-98 | conversely, when bottom ≠ 0 and the lerp along A at t equals the lerp along B at u, with t in [0, 1] unless A is infinite and u in [0, 1] unless B is infinite, the point is found there and the positions are exactly t and u |
| Geometry.SegmentsAreFiniteLines | source/SelfDrivingCar.Core/Utils/CarMath.cs:50-53 | the 4-argument overload is the 8-argument one with both lines finite |
| Geometry.CrossingOnBothLines | source/SelfDrivingCar.Core/Utils/CarMath.cs:79-91 | a returned point lies on both lines: it is the lerp along A at positionA and the lerp along B at positionB |
| Geometry.IntersectLinesSwap | source/SelfDrivingCar.Core/Utils/CarMath.cs:79-97 | swapping the two lines negates bottom and swaps the two positions. A point is found in one order iff it is found in the other |
| Geometry.CheckPolygonIntersection | source/SelfDrivingCar.Core/Utils/CarMath.cs:100-140 | true iff some cyclic edge of A crosses some cyclic edge of B as finite segments |
| Geometry.PolygonsIntersectSymmetric | source/SelfDrivingCar.Core/Utils/CarMath.cs:124-139 | the polygon/polygon test is symmetric in its two polygons |
| Geometry.LinePolygonIntersections | source/SelfDrivingCar.Core/Utils/CarMath.cs:142-158 | at most one hit per edge. Every hit lies on the finite query line at a position in [0, 1] and is the hit of some edge. Every edge that the line crosses contributes its hit |
| Geometry.LinePolygonIntersectionsInEdgeOrder | source/SelfDrivingCar.Core/Utils/CarMath.cs:142-158 | the hits are exactly the crossed edges' hits, each listed once, in the order of the edges 0, 1, …, n − 1 (the closing edge last) |
| Geometry.CheckPolygonLineIntersection | source/SelfDrivingCar.Core/Utils/CarMath.cs:160-174 | true iff some cyclic edge crosses the line, honouring the line's infinite flag |
| Geometry.PolygonStraddlingVerticalCrossesIt | source/SelfDrivingCar.Core/Utils/CarMath.cs:160-174 | a polygon with one vertex strictly left and one strictly right of x = x0 crosses the infinite vertical line x = x0 |
| Colliders.LineHit | source/SelfDrivingCar.Core/Colliders/BaseCollider.cs:34-41 | the finite query ray meets a collider line, honouring that line's own infinite flag. The hit position is in [0, 1], and the point lies on both the ray and the line |
| Colliders.LineHits | source/SelfDrivingCar.Core/Colliders/BaseCollider.cs:34-41 | at most one hit per line. Every hit lies on the ray in [0, 1]. Every line the ray meets contributes its hit, and every hit comes from some line |
| Colliders.LineHitsInLineOrder | source/SelfDrivingCar.Core/Colliders/BaseCollider.cs:34-41 | the hits are exactly the met lines' hits, each listed once, in the order of the lines |
| Colliders.PolygonHits | source/SelfDrivingCar.Core/Colliders/BaseCollider.cs:43-49 | every hit lies on the ray in [0, 1], and every crossed edge of every polygon contributes its hit. Where the hits come from is stated by `PolygonHitsInOrder` |
| Colliders.PolygonHitsInOrder | source/SelfDrivingCar.Core/Colliders/BaseCollider.cs:43-49 | every hit is the hit of some edge of some polygon. Each crossed edge is listed exactly once, polygon by polygon and edge by edge within a polygon |
| Colliders.CollisionPoints | source/SelfDrivingCar.Core/Colliders/BaseCollider.cs:32-50 | every collision point lies on the ray at a position in [0, 1]. Every line hit and every polygon edge hit is reported. Empty geometry yields no points |
| Colliders.CollisionPointsInOrder | source/SelfDrivingCar.Core/Colliders/BaseCollider.cs:32-50 | the points split into a prefix and a suffix. The prefix is the line hits in line order, and the suffix is the polygon edge hits in polygon and edge order, so every line hit comes before every polygon hit and nothing else is reported |
| Colliders.CheckPolygonCollision | source/SelfDrivingCar.Core/Colliders/BaseCollider.cs:57-70 | true iff the polygon crosses some collider line or edge-crosses some collider polygon |
| Colliders.EmptyShapeIsInert | source/SelfDrivingCar.Core/Colliders/BaseCollider.cs:32-70 | a collider with no lines and no polygons yields no points and never collides |
| Colliders.CarParametersOf | source/SelfDrivingCar.Core/Colliders/CarCollider.cs:23-25 | no owner gives none. Otherwise there is a result iff the owner has a car parameter set, and the result is the owner's first car parameter set, with no car parameter set before it |
| Colliders.CarPolygons | source/SelfDrivingCar.Core/Colliders/CarCollider.cs:21-39 | at most one polygon. Exactly one iff there is an owner with car parameters, and then it is the 4-corner rectangle around the owner's pose |
| Colliders.CarCornersPointSymmetric | source/SelfDrivingCar.Core/Colliders/CarCollider.cs:27-38 | corners 1 and 3, and corners 2 and 4, are point-symmetric about the car's position, given sin(x+π) = −sin x and cos(x+π) = −cos x |
| Colliders.CacheAgreesWithLookup | source/SelfDrivingCar.Core/Colliders/CarCollider.cs:12-24 | a coherent cache answers like a fresh first-match lookup and stays coherent after another parameter set is attached |
| Colliders.RoadLines | source/SelfDrivingCar.Core/Colliders/RoadCollider.cs:8-16 | no owner gives no lines. Otherwise there are two lines iff the owner has a road controller: first x = LeftBorder, then x = RightBorder of the first road controller, both infinite and vertical |
| Colliders.ShapeOf | source/SelfDrivingCar.Core/Colliders/RoadCollider.cs:8-21 | a car collider has no lines and the car polygons; a road collider has the border lines and no polygons |
| Colliders.RoadHitsLieOnBorders | source/SelfDrivingCar.Core/Colliders/RoadCollider.cs:14-15 | every point where a ray meets the road collider has x equal to the left or the right border |
| Colliders.StraddlingPolygonHitsRoad | source/SelfDrivingCar.Core/Colliders/RoadCollider.cs:14-15 | a polygon with a vertex strictly on each side of a road border collides with the road |
| Parameters.DefaultCarParameterSet | source/SelfDrivingCar.Core/Parameters/CarParameterSet.cs:15-20 | the default car is 1.8 wide and 4 long |
| Parameters.RoadBordersSymmetric | source/SelfDrivingCar.Core/Parameters/RoadParameterSet.cs:38-44 | LeftBorder = −RightBorder and RightBorder = laneWidth·laneCount/2 |
| Parameters.LanePositionsSpacing | source/SelfDrivingCar.Core/Parameters/RoadParameterSet.cs:51-54 | lane 0 is centred half a lane right of the left border, and the last lane half a lane left of the right border. Consecutive lanes are one lane width apart |
| Controllers.RoadControllerAgreesWithParameterSet | source/SelfDrivingCar.Core/Controller/RoadController.cs:7-26 | for the same lane count and width, the controller's borders and lane positions equal the parameter set's |
| Controllers.RoadControllerLanes | source/SelfDrivingCar.Core/Controller/RoadController.cs:11-25 | the borders are symmetric about 0, and the first lane, the last lane and the lane spacing are as for the parameter set |
| Controllers.Cruise | source/SelfDrivingCar.Core/Controller/CarCruiseController.cs:27-32 | without an owner nothing changes. Otherwise Y grows by speed·dt, and X and the angle stay |
| Controllers.CruiseStepsDistance | source/SelfDrivingCar.Core/Controller/CarCruiseController.cs:27-32 | n steps with a fixed dt raise Y by n·speed·dt and keep X and the angle |
| Controllers.Collapse | source/SelfDrivingCar.Core/Controller/KeyboardCarInputController.cs:46-70 | 0 iff both or neither intent is set, 1 iff only the positive one is, and −1 iff only the negative one is |
| Controllers.KeyboardStep | source/SelfDrivingCar.Core/Controller/KeyboardCarInputController.cs:39-71 | throttle and steering end in {−1, 0, 1}. Accelerate alone gives 1, decelerate alone gives −1, and both or neither give 0. The same holds for steer right and steer left |
| Controllers.KeyboardStepDependencies | source/SelfDrivingCar.Core/Controller/KeyboardCarInputController.cs:41-70 | the result ignores the previous values. Throttle depends only on the accelerate and decelerate keys, and steering only on the steer keys |
| Controllers.NewNetworkController | source/SelfDrivingCar.Core/Controller/NeuronalNetworkRaduInputController.cs:30-38 | the network has two levels of shape sensorCount×6 and 6×4, and throttle and steering start at 0 |
| Controllers.Intents | source/SelfDrivingCar.Core/Controller/NeuronalNetworkRaduInputController.cs:49-52 | output 0 is accelerate, 1 steer left, 2 steer right and 3 decelerate, each set iff its output is > 0 |
| Controllers.NetworkStep | source/SelfDrivingCar.Core/Controller/NeuronalNetworkRaduInputController.cs:41-80 | without an owner nothing changes. Otherwise the network is fed the sensor values. With at least 4 outputs, throttle and steering are the collapsed intents; with fewer they are kept |
| Controllers.NetworkCollapsesLikeKeyboard | source/SelfDrivingCar.Core/Controller/NeuronalNetworkRaduInputController.cs:54-78 | the network controller's throttle and steering equal a keyboard step on the intents it read |
| Controllers.NetworkStepAlwaysDecides | source/SelfDrivingCar.Core/Controller/NeuronalNetworkRaduInputController.cs:47-78 | a network whose last level has 4 outputs always yields 4 outputs, so the controller ends in {−1, 0, 1} |
| Controllers.NetworkStepKeepsTernary | source/SelfDrivingCar.Core/Controller/NeuronalNetworkRaduInputController.cs:47-78 | throttle and steering in {−1, 0, 1} stay there, whether or not the network decided |
| Sensors.NewDistanceSensor | source/SelfDrivingCar.Core/Sensors/DistanceSensor.cs:41-49 | the constructor stores position, angle and range, with value = range and normalised value 0. Value = range·(1 − normalised value) holds |
| Sensors.NewDefaultDistanceSensor | source/SelfDrivingCar.Core/Sensors/DistanceSensor.cs:41-49 | without a range argument the range is 10, the value is 10 and the normalised value is 0 |
| Sensors.EndIsStartPlusVector | source/SelfDrivingCar.Core/Sensors/DistanceSensor.cs:85-109 | the end point is the start point plus the sensor vector |
| Sensors.Sense | source/SelfDrivingCar.Core/Sensors/DistanceSensor.cs:59-78 | with no hit, the normalised value is 0 and the value is the range. Otherwise the nearest hit position p gives normalised value 1 − p and value range·p. Value = range·(1 − normalised value) holds |
| Sensors.SenseNearestHit | source/SelfDrivingCar.Core/Sensors/DistanceSensor.cs:59-78 | a scan of a hit list reads its nearest hit: the normalised value is at least 1 − p for every hit and equals 1 − p for one of them, or reads the full range with no hit |
| Sensors.SenseInRange | source/SelfDrivingCar.Core/Sensors/DistanceSensor.cs:66-78 | positions in [0, 1] and a non-negative range give a normalised value in [0, 1] and a value within the range |
| NeuronalNetwork.NewLevel | source/SelfDrivingCar.Core/NeuronalNetwork/NeuronalNetworkRadu.cs:95-108 | the level has n inputs and m outputs at 0, m biases and an n×m weight matrix. Each weight and bias is its draw spread to [−1, 1) |
| NeuronalNetwork.NewLevelSigned | source/SelfDrivingCar.Core/NeuronalNetwork/NeuronalNetworkRadu.cs:164-180 | every initial weight and bias lies in [−1, 1] |
| NeuronalNetwork.NewNetwork | source/SelfDrivingCar.Core/NeuronalNetwork/NeuronalNetworkRadu.cs:24-31 | there are counts−1 levels, and level l maps counts[l] inputs to counts[l+1] outputs |
| NeuronalNetwork.Overwrite | source/SelfDrivingCar.Core/NeuronalNetwork/NeuronalNetworkRadu.cs:117-120 | only the first min(given, inputs) inputs are replaced. Extra given values are ignored, and missing ones keep their old values |
| NeuronalNetwork.Fire | source/SelfDrivingCar.Core/NeuronalNetwork/NeuronalNetworkRadu.cs:131-138 | 1 iff the sum exceeds the bias, else 0 |
| NeuronalNetwork.FeedLevel | source/SelfDrivingCar.Core/NeuronalNetwork/NeuronalNetworkRadu.cs:115-141 | the shape, biases and weights are kept and the inputs are overwritten. Each output fires iff its weighted input sum exceeds its bias, so the outputs are binary |
| NeuronalNetwork.LevelFeedForward | source/SelfDrivingCar.Core/NeuronalNetwork/NeuronalNetworkRadu.cs:115-141 | the loop computes exactly `FeedLevel`, and the returned array is the level's outputs |
| NeuronalNetwork.FeedForward | source/SelfDrivingCar.Core/NeuronalNetwork/NeuronalNetworkRadu.cs:38-48 | the shapes are kept. The result has the last level's width and is binary |
| NeuronalNetwork.FeedForwardChains | source/SelfDrivingCar.Core/NeuronalNetwork/NeuronalNetworkRadu.cs:41-47 | level 0 is fed the given inputs, and every later level is fed the previous level's outputs |
| NeuronalNetwork.MutateLevel | source/SelfDrivingCar.Core/NeuronalNetwork/NeuronalNetworkRadu.cs:147-162 | every bias and weight becomes lerp(old, draw, amount), and the shapes, inputs and outputs are kept |
| NeuronalNetwork.MutateLevelByNothing | source/SelfDrivingCar.Core/NeuronalNetwork/NeuronalNetworkRadu.cs:147-162 | amount 0 leaves the level unchanged |
| NeuronalNetwork.MutateLevelFully | source/SelfDrivingCar.Core/NeuronalNetwork/NeuronalNetworkRadu.cs:147-162 | amount 1 replaces every bias and weight by its draw |
| NeuronalNetwork.MutateLevelStaysSigned | source/SelfDrivingCar.Core/NeuronalNetwork/NeuronalNetworkRadu.cs:153-159 | values in [−1, 1] and an amount in [0, 1] keep every weight and bias in [−1, 1] |
| NeuronalNetwork.Mutate | source/SelfDrivingCar.Core/NeuronalNetwork/NeuronalNetworkRadu.cs:54-60 | every level is mutated with its own draws, and no dimension changes |
| NeuronalNetwork.MutateByNothing | source/SelfDrivingCar.Core/NeuronalNetwork/NeuronalNetworkRadu.cs:54-60 | amount 0 leaves the network unchanged |
| NeuronalNetwork.MutateKeepsSigned | source/SelfDrivingCar.Core/NeuronalNetwork/NeuronalNetworkRadu.cs:54-60 | a signed network stays signed under any amount in [0, 1] |
| Physics.NewCarPhysics | source/SelfDrivingCar.Core/Controller/CarPhysicsController.cs:29-82 | the default limits (accelerations 20, 10 and 30, drag 1 + 0.02·v², top speeds 15 and 5, steering 5°). A new car is at rest with no input and alive |
| Physics.ThrottleAcceleration | source/SelfDrivingCar.Core/Controller/CarPhysicsController.cs:126-139 | zero throttle gives 0. A throttle whose sign differs from the speed's, including from rest, uses the braking acceleration. Otherwise the forward or the reverse acceleration is used |
| Physics.Drag | source/SelfDrivingCar.Core/Controller/CarPhysicsController.cs:141-148 | no drag at rest; otherwise drag of size factor·v² + base against the motion |
| Physics.NextSpeed | source/SelfDrivingCar.Core/Controller/CarPhysicsController.cs:150-155 | the speed is clamped to [−maxReverse, maxForward] and snaps to 0 when |throttle| < 0.01 and |speed| < 0.5 |
| Physics.WrapAngle | source/SelfDrivingCar.Core/Controller/CarPhysicsController.cs:157-166 | the angle moves by at most one full turn. An angle in [−3π, 3π] ends in [−π, π], and an angle in [−π, π] is kept |
| Physics.Moved | source/SelfDrivingCar.Core/Controller/CarPhysicsController.cs:173-180 | the distance moved grows by the step's length going forward and shrinks by it in reverse |
| Physics.AverageSpeed | source/SelfDrivingCar.Core/Controller/CarPhysicsController.cs:184 | average speed × simulation time = distance moved |
| Physics.Step | source/SelfDrivingCar.Core/Controller/CarPhysicsController.cs:117-184 | the step adopts the clamped input if one is offered, then computes acceleration, speed, heading, pose, distances and average speed. It never kills the car. Every tuning field (the three accelerations, both drag terms, the steering factor and both top speeds) and the time of death are kept |
| Physics.StepInputsInRange | source/SelfDrivingCar.Core/Controller/CarPhysicsController.cs:119-124 | adopted throttle and steering lie in [−1, 1] |
| Physics.StepSpeedWithinLimits | source/SelfDrivingCar.Core/Controller/CarPhysicsController.cs:150-155 | the new speed lies within the speed limits |
| Physics.DistanceMovedIntegratesSpeed | source/SelfDrivingCar.Core/Controller/CarPhysicsController.cs:168-180 | the distance moved changes by exactly new speed × dt, given that a circle point's length is its radius |
| Physics.RestIsStable | source/SelfDrivingCar.Core/Controller/CarPhysicsController.cs:126-166 | a car at rest with no throttle and no input stays at rest, with no acceleration, at its position |
| Physics.RestMovesNothing | source/SelfDrivingCar.Core/Controller/CarPhysicsController.cs:168-180 | a car at rest adds nothing to its distance moved |
| Entities.NewEntity | source/SelfDrivingCar.Core/Entity.cs:37-74 | the constructor sets position and angle, and all component lists start empty outside any graph |
| Entities.WithParameterSet | source/SelfDrivingCar.Core/Entity.cs:103-108 | the parameter set is appended, and nothing else changes |
| Entities.WithController | source/SelfDrivingCar.Core/Entity.cs:136-141 | the controller is appended, and nothing else changes |
| Entities.WithSensor | source/SelfDrivingCar.Core/Entity.cs:202-207 | the sensor is appended, and nothing else changes |
| Entities.WithCollider | source/SelfDrivingCar.Core/Entity.cs:235-240 | the collider is appended, and nothing else changes |
| Entities.WithParameterSetLookups | source/SelfDrivingCar.Core/Entity.cs:103-129 | attaching keeps an existing first match of any kind, or becomes the first match if it matches. It joins the end of the plural lookup iff it matches |
| Entities.WithControllerLookups | source/SelfDrivingCar.Core/Entity.cs:136-162 | the same for controllers |
| Entities.WithSensorLookups | source/SelfDrivingCar.Core/Entity.cs:202-228 | the same for sensors |
| Entities.WithColliderLookups | source/SelfDrivingCar.Core/Entity.cs:235-261 | the same for colliders |
| Entities.WithControllerKeepsOtherLookups | source/SelfDrivingCar.Core/Entity.cs:136-141 | attaching a controller changes no parameter, sensor or collider lookup, and not the pose |
| Entities.GetControllerIsFirstOfGetControllers | source/SelfDrivingCar.Core/Entity.cs:149-162 | the single lookup is the head of the plural lookup, or null when that is empty |
| Collections.FirstMatch | source/SelfDrivingCar.Core/Entity.cs:116-119 | the result is an element of the list that matches with no match before it, or none iff nothing matches |
| Collections.Filter | source/SelfDrivingCar.Core/Entity.cs:126-129 | exactly the matching elements are kept |
| Collections.FilterAppend | source/SelfDrivingCar.Core/Entity.cs:126-129 | appending one element extends the filtered list by it at the end iff it matches, so the insertion order is kept |
| Simulation.Reading | source/SelfDrivingCar.Core/Sensors/DistanceSensor.cs:52-79 | outside a graph the sensor is unchanged. Inside one it reads the nearest hit of its ray on the colliders of every other entity. Which hits those are is stated by `OtherHitsAreOthersColliderHits` |
| Simulation.OtherHitsAreOthersColliderHits | source/SelfDrivingCar.Core/Sensors/DistanceSensor.cs:59-63 | a hit is among those a sensor of entity i sees iff it is a collision point of some collider of some other entity: none is missed and none is made up |
| Simulation.ReadingSeesNearest | source/SelfDrivingCar.Core/Sensors/DistanceSensor.cs:52-78 | in a graph, the normalised value is at least 1 − p for every collision point at position p on another entity's collider and equals 1 − p for one of them; with none it is 0 and the value is the range. Value = range·(1 − normalised value) |
| Simulation.SensorUpdate | source/SelfDrivingCar.Core/Sensors/DistanceSensor.cs:52-79 | only that sensor of that entity changes, to its reading. Outside a graph nothing changes |
| Simulation.SensorUpdateInRange | source/SelfDrivingCar.Core/Sensors/DistanceSensor.cs:59-78 | after a scan, the normalised value lies in [0, 1] and the value lies in [0, range] |
| Simulation.OwnCollidersIgnored | source/SelfDrivingCar.Core/Sensors/DistanceSensor.cs:59-63 | the hits do not depend on the scanning entity's own colliders |
| Simulation.InputFor | source/SelfDrivingCar.Core/Controller/CarPhysicsController.cs:119-124 | the offer of the entity's first input controller, or none iff it has no input controller |
| Simulation.Collide | source/SelfDrivingCar.Core/Controller/CarPhysicsController.cs:186-199 | faults iff the car has a car collider, a candidate exists and there is no car polygon. A crash marks the car dead at the current time; otherwise nothing changes |
| Simulation.PhysicsUpdate | source/SelfDrivingCar.Core/Controller/CarPhysicsController.cs:115-201 | a dead car, or one outside a graph, changes nothing. Otherwise the step moves the car and then the collision check runs |
| Simulation.DeathIsFinalAndCaused | source/SelfDrivingCar.Core/Controller/CarPhysicsController.cs:117-199 | a dead car's state never changes. A live car dies only by crashing into another entity without a physics controller, and then its time of death is the current time |
| Simulation.FaultAfterMove | source/SelfDrivingCar.Core/Controller/CarPhysicsController.cs:168-193 | the step faults exactly when the car is live and in a graph and, after moving, is exposed to a candidate collider while its own collider yields no polygon. A fault leaves the moved car in place |
| Simulation.PhysicsUpdateScope | source/SelfDrivingCar.Core/Controller/CarPhysicsController.cs:115-201 | the physics step changes no sensor and no other controller. It faults exactly when the car is alive and the collision check would fault: the entity is in a graph, has a car collider, a candidate exists and no car parameter set gives it a polygon |
| Simulation.ControllerUpdate | source/SelfDrivingCar.Core/Entity.cs:275-278 | the virtual `controller.Simulate` call dispatched on the controller's kind: the road controller changes nothing (Controller/RoadController.cs:28-29); the cruise (Controller/CarCruiseController.cs:27-32), keyboard (Controller/KeyboardCarInputController.cs:39-71) and network (Controller/NeuronalNetworkRaduInputController.cs:41-80) controllers step as `Cruise`, `KeyboardStep` and `NetworkStep` state, changing only that controller or the pose, and only a physics controller (Controller/CarPhysicsController.cs:115-201) can fault; a physics controller runs `PhysicsUpdate` |
| Simulation.ControllerStep | source/SelfDrivingCar.Core/Entity.cs:275-278 | one controller's step changes only this entity, no sensor and no other controller, keeps the layout and faults exactly when it is a live physics controller whose collision check would fault. What it does to controller c and to the pose is stated by `ControllerStepIsUpdate` |
| Simulation.ControllerStepIsUpdate | source/SelfDrivingCar.Core/Entity.cs:275-278 | the step of controller c is that controller's `Simulate` (`ControllerUpdate`), and for a physics controller it is `PhysicsUpdate`: the driven pose and physics state, then the collision check |
| Simulation.RunSensors | source/SelfDrivingCar.Core/Entity.cs:270-273 | every sensor runs once, in order, with the same time arguments, and never faults. Only the sensors change, and each sensor ends with its reading of the world as it was before any sensor ran |
| Simulation.RunControllers | source/SelfDrivingCar.Core/Entity.cs:275-278 | the controllers run in order. A fault stops the run right after the physics controller that raised it |
| Simulation.ControllersBeginWithStep | source/SelfDrivingCar.Core/Entity.cs:275-278 | controller `from` runs first. If it faults, the run ends with its world, its one event and its fault; otherwise the rest of the run, on the world it left, gives the world, the following events and the fault |
| Simulation.RunControllersCause | source/SelfDrivingCar.Core/Entity.cs:275-278 | running the controllers from index `from` faults iff the entity's collision check would fault and some physics controller at or after `from` is alive |
| Simulation.SimulateEntity | source/SelfDrivingCar.Core/Entity.cs:268-279 | all sensors run before any controller, and only this entity changes. A fault cuts the event list short |
| Simulation.EntitySensesThenDrives | source/SelfDrivingCar.Core/Entity.cs:268-279 | the entity's step is its sensor run followed by its controller run on the world the sensors left: its world, events and fault are those of that composition |
| Simulation.LoneCarDrives | source/SelfDrivingCar.Core/Entity.cs:268-279 | a live car in a graph whose only controller is its physics controller, with no candidate to crash into, ends the step at the physics step's pose with that step's state, its sensors read before the move, no fault and every other entity unchanged |
| Simulation.EntityFaultCause | source/SelfDrivingCar.Core/Entity.cs:268-279 | an entity's step faults iff its collision check would fault and it has a live physics controller |
| Simulation.SensorsReadBeforeMoving | source/SelfDrivingCar.Core/Entity.cs:268-279 | after the step, every sensor holds its reading of the world before the step, since the sensors run before any controller moves |
| Simulation.SimulateEntities | source/SelfDrivingCar.Core/EntityGraph.cs:105-117 | the entities run in insertion order with one layout kept. Without a fault every component runs. A fault leaves a prefix of the events, and the entities after the faulting one untouched |
| Simulation.PassBeginsWithEntity | source/SelfDrivingCar.Core/EntityGraph.cs:105-117 | the pass from `from` begins with that entity's step. If it faults, the pass is that step. Otherwise the pass's world, events and fault are those of the rest of the pass run from `from + 1` on the world the step left, after the step's events |
| Simulation.PassFaultCause | source/SelfDrivingCar.Core/EntityGraph.cs:105-117 | the pass from `from` faults iff the step of some entity at or after `from` would fault on the world as it was when the pass began. No entity's step changes whether another entity's step faults |
| EntityGraphs.NewEntityGraph | source/SelfDrivingCar.Core/EntityGraph.cs:12-28 | an empty graph at frame 0 and time 0, running at 60 Hz and scale 1 |
| EntityGraphs.Add | source/SelfDrivingCar.Core/EntityGraph.cs:89-93 | the entity joins the graph at the end, and nothing else changes |
| EntityGraphs.SimulateFrame | source/SelfDrivingCar.Core/EntityGraph.cs:98-118 | the count rises by 1 and the time by 1/frequency, even on a fault. The entities run with the new time. Exactly one notification carries the new time and the new count. The entities are those the pass leaves, the notification's exception is the pass's fault, and no fault means every component ran. The time is positive after a frame when it was non-negative before and the frequency is positive |
| EntityGraphs.FrameFaultCause | source/SelfDrivingCar.Core/EntityGraph.cs:98-118 | the frame's notification carries an exception iff the step of some entity of the graph, as it was before the frame, would fault |
| EntityGraphs.StartSimulation | source/SelfDrivingCar.Core/EntityGraph.cs:124-130 | a reset zeroes the count and the time; no reset leaves them |
| EntityGraphs.FramesAdvanceClock | source/SelfDrivingCar.Core/EntityGraph.cs:100-103 | n frames raise the count by n and the time by n/frequency |
| EntityGraphs.FramesAfterReset | source/SelfDrivingCar.Core/EntityGraph.cs:100-130 | after a reset, n frames leave the count at n and the time at n/frequency |

## Left out

- Rendering (the renderers, `RenderContext`, `Entity.Render`, `EntityGraph.Render`) and the WPF shell: drawing and UI only.
- Timer scheduling in `EntityGraph` (`StopSimulation`, `UpdateSimulationTimer`, the timer part of `StartSimulation`, the time scale's effect on the timer): asynchronous cadence only. A run of frames is a sequence of `SimulateFrame` calls.
- Floating point: all arithmetic is on reals. There is no float rounding, NaN, infinity or `int` overflow of the frame count, and the exact float test `bottom != 0` is the real test.
- Trigonometry, `sqrt` and `atan2` are uninterpreted function values. Only `Geometry.HalfTurnLaw`, `Geometry.PythagorasLaw` and `Geometry.SqrtLaw` are assumed, by the lemmas that require them.
- Randomness: `System.Random` is replaced by caller-supplied draws in [0, 1).
- `CarScoreController` (an empty stub), `EntityExtensions` (sensor presets) and the marker interfaces. The interfaces become the component datatypes.
- Only the distance sensor and the car and road colliders exist. Those are the only kinds the core defines.
- `Entity.WithRenderer` and the renderer lookups: renderers are left out.
- The road collider overrides `GetPolyGeometry` rather than the base's `GetPolygonGeometry`. It is modelled as the evident intent, with no polygons.
- An entity in two graphs, or a sensor whose entity's graph is not the one being simulated: entities are identified by their index in the one simulated graph, and `inGraph` stands for `Graph != null`.
- Exceptions thrown by `FrameSimulated` event handlers: handlers are outside the core.
- Setters that change a component's fields after it is attached are not modelled.
- Colliders.CachedCarParameters: the simulation uses the fresh first-match lookup. `CacheAgreesWithLookup` shows that the cache gives the same answer because parameter lists only grow at the end.
- Parameters.RoadParameterSet.LanePosition and Controllers.RoadController.LanePosition: require laneCount ≠ 0, because the source divides by the lane count.
- EntityGraphs.SimulateFrame: requires simulationFrequency ≠ 0, because 1/0 is infinite in floating point.
- EntityGraphs.SimulateFrame: the frequency setter accepts any value, and with a negative frequency the clock runs backwards; the model allows that, and promises a positive time after a frame only for a non-negative time and a positive frequency.
- Physics.AverageSpeed: at simulation time 0 the source divides by zero. The model gives 0, and frames always run with a positive time.
- NeuronalNetwork.NewNetwork: requires at least one neuron count, because the source allocates an array of length count − 1. `FeedForward` requires at least one level, because the source indexes level 0 unconditionally.
- Controllers.NewNetworkController: neuron counts are natural numbers. A negative count, which makes the source throw, is not representable.
- Simulation.Env: the keyboard callback is read once per frame, so every keyboard controller in a frame sees the same keys.

=== FILE: collections.dfy ===
/** Sequence helpers shared by the model: the optional value that stands in
    for a C# null, first-match lookup and filtering in insertion order (the
    LINQ `OfType<T>().FirstOrDefault()` / `OfType<T>()` pair), collecting the
    present values of a sequence of options, and the minimum of a sequence. */
module Collections {

  datatype Option<+T> = None | Some(value: T)

  /** Index of the first element satisfying `p`, if any. */
  function FirstIndex<T>(s: seq<T>, p: T -> bool): (r: Option<nat>)
    ensures r.Some? ==> r.value < |s| && p(s[r.value])
    ensures r.Some? ==> forall j :: 0 <= j < r.value ==> !p(s[j])
    ensures r.None? <==> forall j :: 0 <= j < |s| ==> !p(s[j])
  {
    if |s| == 0 then None
    else if p(s[0]) then Some(0)
    else
      match FirstIndex(s[1..], p)
      case None => assert forall j :: 1 <= j < |s| ==> s[j] == s[1..][j - 1]; None
      case Some(k) => assert forall j :: 1 <= j < k + 1 ==> s[j] == s[1..][j - 1]; Some(k + 1)
  }

  /** Appending cannot move an existing first match. */
  lemma {:induction false} FirstIndexAppend<T>(s: seq<T>, x: T, p: T -> bool)
    requires FirstIndex(s, p).Some?
    ensures FirstIndex(s + [x], p) == FirstIndex(s, p)
  {
    var k := FirstIndex(s, p).value;
    var t := s + [x];
    assert t[k] == s[k];
    assert forall j :: 0 <= j < k ==> t[j] == s[j];
    FirstIndexUnique(t, p, k);
  }

  /** An index holding a match with no match before it is the first index. */
  lemma {:induction false} FirstIndexUnique<T>(s: seq<T>, p: T -> bool, k: nat)
    requires k < |s| && p(s[k])
    requires forall j :: 0 <= j < k ==> !p(s[j])
    ensures FirstIndex(s, p) == Some(k)
  {
  }

  /** The first element satisfying `p`, or None (C#: `FirstOrDefault`). */
  function FirstMatch<T>(s: seq<T>, p: T -> bool): (r: Option<T>)
    ensures r.Some? ==> exists k :: 0 <= k < |s| && s[k] == r.value && p(s[k]) && forall j :: 0 <= j < k ==> !p(s[j])
    ensures r.None? <==> forall j :: 0 <= j < |s| ==> !p(s[j])
  {
    match FirstIndex(s, p)
    case None => None
    case Some(k) => Some(s[k])
  }

  /** Every element satisfying `p`, in the order of `s`. */
  function Filter<T>(s: seq<T>, p: T -> bool): (r: seq<T>)
    ensures |r| <= |s|
    ensures forall x :: x in r ==> x in s && p(x)
    ensures forall x :: x in s && p(x) ==> x in r
  {
    if |s| == 0 then []
    else (if p(s[0]) then [s[0]] else []) + Filter(s[1..], p)
  }

  /** Filtering distributes over appending one element: the elements
      already present keep their order, and the new one goes last. */
  lemma {:induction false} FilterAppend<T>(s: seq<T>, x: T, p: T -> bool)
    ensures Filter(s + [x], p) == Filter(s, p) + (if p(x) then [x] else [])
  {
    if |s| == 0 {
      assert s + [x] == [x];
      assert [x][1..] == [];
    } else {
      assert (s + [x])[0] == s[0];
      assert (s + [x])[1..] == s[1..] + [x];
      FilterAppend(s[1..], x, p);
    }
  }

  /** Appending leaves an existing first match in place; otherwise the new
      element is the first match exactly when it matches. */
  lemma FirstMatchAppend<T>(s: seq<T>, x: T, p: T -> bool)
    ensures FirstMatch(s + [x], p) ==
      if FirstMatch(s, p).Some? then FirstMatch(s, p) else if p(x) then Some(x) else None
  {
    if FirstIndex(s, p).Some? {
      FirstIndexAppend(s, x, p);
      assert (s + [x])[FirstIndex(s, p).value] == s[FirstIndex(s, p).value];
    } else if p(x) {
      FirstIndexUnique(s + [x], p, |s|);
    } else {
      assert forall j :: 0 <= j < |s| + 1 ==> (s + [x])[j] == if j < |s| then s[j] else x;
    }
  }

  /** The first match is the head of the filtered sequence. */
  lemma {:induction false} FirstMatchIsFilterHead<T>(s: seq<T>, p: T -> bool)
    ensures FirstMatch(s, p) == if |Filter(s, p)| > 0 then Some(Filter(s, p)[0]) else None
  {
    if |s| > 0 && !p(s[0]) {
      FirstMatchIsFilterHead(s[1..], p);
      match FirstIndex(s[1..], p)
      case None =>
      case Some(k) => assert s[k + 1] == s[1..][k];
    }
  }

  /** The present values of a sequence of options, in order. */
  function Somes<T>(s: seq<Option<T>>): (r: seq<T>)
    ensures |r| <= |s|
    ensures forall k :: 0 <= k < |r| ==> Some(r[k]) in s
    ensures forall k :: 0 <= k < |s| && s[k].Some? ==> s[k].value in r
  {
    if |s| == 0 then []
    else
      var rest := Somes(s[1..]);
      assert forall k :: 1 <= k < |s| ==> s[k] == s[1..][k - 1];
      if s[0].Some? then [s[0].value] + rest else rest
  }

  /** `idx` picks out `r` from the positions of `s` at or after `from`:
      `r[k]` is present at position `idx[k]`, each position comes after the
      previous one, and every present value there is picked. So `r` lists
      those present values, each once, in the order of `s`, and nothing
      else. */
  predicate PresentInOrder<T(==)>(s: seq<Option<T>>, from: nat, r: seq<T>, idx: seq<nat>)
  {
    && |idx| == |r|
    && (forall k :: 0 <= k < |idx| ==> from <= idx[k] < |s| && s[idx[k]] == Some(r[k]))
    && (forall k :: 0 < k < |idx| ==> idx[k - 1] < idx[k])
    && (forall j :: from <= j < |s| && s[j].Some? ==> j in idx)
  }

  /** The positions of the present values of `s` from position `from` on. */
  function PresentPositions<T>(s: seq<Option<T>>, from: nat): (idx: seq<nat>)
    requires from <= |s|
    decreases |s| - from
  {
    if from == |s| then []
    else (if s[from].Some? then [from] else []) + PresentPositions(s, from + 1)
  }

  /** `Somes` keeps exactly the present values, in order. */
  lemma SomesInOrder<T>(s: seq<Option<T>>)
    ensures PresentInOrder(s, 0, Somes(s), PresentPositions(s, 0))
  {
    SomesInOrderFrom(s, 0);
    assert s[0..] == s;
  }

  /** The same, with the positions left implicit. */
  lemma SomesListedInOrder<T>(s: seq<Option<T>>, r: seq<T>)
    requires r == Somes(s)
    ensures exists idx :: PresentInOrder(s, 0, r, idx)
  {
    SomesInOrder(s);
  }

  lemma {:induction false} SomesInOrderFrom<T>(s: seq<Option<T>>, from: nat)
    requires from <= |s|
    ensures PresentInOrder(s, from, Somes(s[from..]), PresentPositions(s, from))
    decreases |s| - from
  {
    if from < |s| {
      SomesInOrderFrom(s, from + 1);
      SomesFirst(s, from);
      PresentPrepend(s, from, Somes(s[from + 1..]), PresentPositions(s, from + 1));
    }
  }

  /** One step of `Somes` on a suffix. */
  lemma SomesFirst<T>(s: seq<Option<T>>, from: nat)
    requires from < |s|
    ensures Somes(s[from..]) == (if s[from].Some? then [s[from].value] else []) + Somes(s[from + 1..])
  {
    assert s[from..][0] == s[from];
    assert s[from..][1..] == s[from + 1..];
  }

  /** Position `from`, if present, goes in front of the later ones. */
  lemma PresentPrepend<T>(s: seq<Option<T>>, from: nat, rest: seq<T>, restIdx: seq<nat>)
    requires from < |s|
    requires PresentInOrder(s, from + 1, rest, restIdx)
    ensures PresentInOrder(s, from,
      (if s[from].Some? then [s[from].value] else []) + rest,
      (if s[from].Some? then [from] else []) + restIdx)
  {
    if s[from].Some? {
      PresentPrependSome(s, from, rest, restIdx);
    } else {
      assert [] + rest == rest && [] + restIdx == restIdx;
      forall j | from <= j < |s| && s[j].Some?
        ensures j in restIdx
      {
        assert from + 1 <= j;
      }
    }
  }

  lemma PresentPrependSome<T>(s: seq<Option<T>>, from: nat, rest: seq<T>, restIdx: seq<nat>)
    requires from < |s| && s[from].Some?
    requires PresentInOrder(s, from + 1, rest, restIdx)
    ensures PresentInOrder(s, from, [s[from].value] + rest, [from] + restIdx)
  {
    var r, idx := [s[from].value] + rest, [from] + restIdx;
    assert forall k :: 1 <= k < |idx| ==> idx[k] == restIdx[k - 1] && r[k] == rest[k - 1];
    assert forall j :: from < j < |s| && s[j].Some? ==> j in restIdx;
  }

  /** The present values of a concatenation are those of each part. */
  lemma {:induction false} SomesAppend<T>(a: seq<Option<T>>, b: seq<Option<T>>)
    ensures Somes(a + b) == Somes(a) + Somes(b)
  {
    if |a| > 0 {
      assert (a + b)[0] == a[0];
      assert (a + b)[1..] == a[1..] + b;
      SomesAppend(a[1..], b);
    } else {
      assert a + b == b;
    }
  }

  /** The least element of a non-empty sequence (LINQ `Min`). */
  function SeqMin(xs: seq<real>): (r: real)
    requires |xs| > 0
    ensures r in xs
    ensures forall x :: x in xs ==> r <= x
    ensures forall k :: 0 <= k < |xs| ==> r <= xs[k]
  {
    if |xs| == 1 then xs[0]
    else
      var m := SeqMin(xs[1..]);
      assert forall x :: x in xs ==> x == xs[0] || x in xs[1..];
      if xs[0] <= m then xs[0] else m
  }
}

=== FILE: colliders.dfy ===
/** Colliders: what an entity offers to rays and to other polygons. A
    collider is described by its geometry, a list of lines (each possibly
    infinite) and a list of polygons, derived from its owner; the ray and
    polygon queries of `BaseCollider` work on that geometry alone. */
module Colliders {
  import opened Collections
  import opened Geometry
  import opened Parameters
  import opened Controllers

  /** A collider's geometry. */
  datatype Shape = Shape(lines: seq<Line>, polygons: seq<Polygon>)

  // ---------------------------------------------------------------------
  // BaseCollider.

  /** The hit of the finite query ray on one collider line, if any; the
      line keeps its own infinite flag. */
  function LineHit(start: Vec2, end: Vec2, line: Line): (r: Option<Hit>)
    ensures r.Some? <==> IntersectLines(start, end, false, line.start, line.end, line.infinite).point.Some?
    ensures r.Some? ==> InUnit(r.value.position) && r.value.point == LerpPoint(start, end, r.value.position)
    ensures r.Some? ==> r.value.point == LerpPoint(line.start, line.end,
      IntersectLines(start, end, false, line.start, line.end, line.infinite).positionB)
  {
    CrossingOnBothLines(start, end, false, line.start, line.end, line.infinite);
    var c := IntersectLines(start, end, false, line.start, line.end, line.infinite);
    if c.point.Some? then Some(Hit(c.point.value, c.positionA)) else None
  }

  /** The hit lies on the query ray, inside its [0, 1] stretch. */
  predicate OnRay(start: Vec2, end: Vec2, h: Hit)
  {
    InUnit(h.position) && h.point == LerpPoint(start, end, h.position)
  }

  /** The hits on the collider lines, in line order. */
  function LineHits(start: Vec2, end: Vec2, lines: seq<Line>): (hits: seq<Hit>)
    ensures |hits| <= |lines|
    ensures forall k :: 0 <= k < |hits| ==> OnRay(start, end, hits[k])
    ensures forall l :: 0 <= l < |lines| && LineHit(start, end, lines[l]).Some? ==> LineHit(start, end, lines[l]).value in hits
    ensures forall k :: 0 <= k < |hits| ==> exists l :: 0 <= l < |lines| && LineHit(start, end, lines[l]) == Some(hits[k])
  {
    var each := LineHitList(start, end, lines, 0);
    assert forall l :: 0 <= l < |lines| ==> each[l] == LineHit(start, end, lines[l]);
    var hits := Somes(each);
    forall k | 0 <= k < |hits|
      ensures exists l :: 0 <= l < |lines| && LineHit(start, end, lines[l]) == Some(hits[k])
    {
      var l :| 0 <= l < |each| && each[l] == Some(hits[k]);
    }
    hits
  }

  /** The hit or miss of each line from line `from` on. */
  function LineHitList(start: Vec2, end: Vec2, lines: seq<Line>, from: nat): (r: seq<Option<Hit>>)
    requires from <= |lines|
    ensures |r| == |lines| - from
    ensures forall l :: 0 <= l < |r| ==> r[l] == LineHit(start, end, lines[from + l])
    decreases |lines| - from
  {
    if from == |lines| then []
    else [LineHit(start, end, lines[from])] + LineHitList(start, end, lines, from + 1)
  }

  /** The hits on the collider polygons from polygon `from` on, polygon by
      polygon and edge by edge. */
  function PolygonHits(start: Vec2, end: Vec2, polygons: seq<Polygon>, from: nat): (hits: seq<Hit>)
    requires from <= |polygons|
    ensures forall k :: 0 <= k < |hits| ==> OnRay(start, end, hits[k])
    ensures forall g, a :: from <= g < |polygons| && 0 <= a < |polygons[g]| && EdgeHit(start, end, polygons[g], a).Some? ==>
      EdgeHit(start, end, polygons[g], a).value in hits
    decreases |polygons| - from
  {
    if from == |polygons| then []
    else LinePolygonIntersections(start, end, polygons[from]) + PolygonHits(start, end, polygons, from + 1)
  }

  /** `GetCollisionPoints(start, end)`: the line hits first, then the
      polygon hits. */
  function CollisionPoints(shape: Shape, start: Vec2, end: Vec2): (hits: seq<Hit>)
    ensures forall k :: 0 <= k < |hits| ==> OnRay(start, end, hits[k])
    ensures |shape.lines| == 0 && |shape.polygons| == 0 ==> hits == []
    ensures forall l :: 0 <= l < |shape.lines| && LineHit(start, end, shape.lines[l]).Some? ==>
      LineHit(start, end, shape.lines[l]).value in hits
    ensures forall g, a :: 0 <= g < |shape.polygons| && 0 <= a < |shape.polygons[g]| && EdgeHit(start, end, shape.polygons[g], a).Some? ==>
      EdgeHit(start, end, shape.polygons[g], a).value in hits
  {
    LineHits(start, end, shape.lines) + PolygonHits(start, end, shape.polygons, 0)
  }

  // ---------------------------------------------------------------------
  // Where the hits come from and in what order: every hit is the hit of a
  // line or edge, listed once, in the order the source visits them.

  /** `GetCollisionPoints` keeps line order: the k-th line hit is the hit of
      line `idx[k]`, the lines increase, and every line hit is listed. */
  lemma LineHitsInLineOrder(start: Vec2, end: Vec2, lines: seq<Line>)
    ensures exists idx :: PresentInOrder(LineHitList(start, end, lines, 0), 0, LineHits(start, end, lines), idx)
  {
    SomesListedInOrder(LineHitList(start, end, lines, 0), LineHits(start, end, lines));
  }

  /** Position of edge `edge` of polygon `polygon` within a collider. */
  datatype EdgeAt = EdgeAt(polygon: nat, edge: nat)

  /** Polygon-then-edge order, the order `GetCollisionPoints` visits edges. */
  predicate EdgeBefore(x: EdgeAt, y: EdgeAt)
  {
    x.polygon < y.polygon || (x.polygon == y.polygon && x.edge < y.edge)
  }

  /** `hits` are the hits of the crossed edges of `polygons[from..]`, the
      k-th at position `pos[k]`, in strictly increasing polygon-then-edge
      order, with every crossed edge listed. */
  predicate EdgesInOrder(start: Vec2, end: Vec2, polygons: seq<Polygon>, from: nat, hits: seq<Hit>, pos: seq<EdgeAt>)
  {
    && |pos| == |hits|
    && (forall k :: 0 <= k < |pos| ==>
          && from <= pos[k].polygon < |polygons|
          && pos[k].edge < |polygons[pos[k].polygon]|
          && EdgeHit(start, end, polygons[pos[k].polygon], pos[k].edge) == Some(hits[k]))
    && (forall k :: 0 < k < |pos| ==> EdgeBefore(pos[k - 1], pos[k]))
    && (forall g, a :: from <= g < |polygons| && 0 <= a < |polygons[g]| && EdgeHit(start, end, polygons[g], a).Some? ==>
          EdgeAt(g, a) in pos)
  }

  /** Edge positions `idx` of polygon g. */
  function AtPolygon(g: nat, idx: seq<nat>): (r: seq<EdgeAt>)
    ensures |r| == |idx|
    ensures forall k :: 0 <= k < |idx| ==> r[k] == EdgeAt(g, idx[k])
  {
    seq(|idx|, k requires 0 <= k < |idx| => EdgeAt(g, idx[k]))
  }

  /** The polygon hits are the hits of every crossed edge, each once, in
      polygon-then-edge order. */
  lemma PolygonHitsInOrder(start: Vec2, end: Vec2, polygons: seq<Polygon>)
    ensures exists pos :: EdgesInOrder(start, end, polygons, 0, PolygonHits(start, end, polygons, 0), pos)
  {
    PolygonHitsInOrderFrom(start, end, polygons, 0);
  }

  lemma {:induction false} PolygonHitsInOrderFrom(start: Vec2, end: Vec2, polygons: seq<Polygon>, from: nat)
    requires from <= |polygons|
    ensures exists pos :: EdgesInOrder(start, end, polygons, from, PolygonHits(start, end, polygons, from), pos)
    decreases |polygons| - from
  {
    if from == |polygons| {
      assert PolygonHits(start, end, polygons, from) == [];
      assert EdgesInOrder(start, end, polygons, from, [], []);
    } else {
      PolygonHitsInOrderFrom(start, end, polygons, from + 1);
      var restPos :| EdgesInOrder(start, end, polygons, from + 1, PolygonHits(start, end, polygons, from + 1), restPos);
      LinePolygonIntersectionsInEdgeOrder(start, end, polygons[from]);
      var idx :| PresentInOrder(EdgeHitList(start, end, polygons[from], 0), 0, LinePolygonIntersections(start, end, polygons[from]), idx);
      PolygonPrepend(start, end, polygons, from, restPos, idx);
    }
  }

  /** One induction step: the hits of polygon `from`, at edge positions
      `idx`, go before the hits of the later polygons. */
  lemma PolygonPrepend(start: Vec2, end: Vec2, polygons: seq<Polygon>, from: nat, restPos: seq<EdgeAt>, idx: seq<nat>)
    requires from < |polygons|
    requires EdgesInOrder(start, end, polygons, from + 1, PolygonHits(start, end, polygons, from + 1), restPos)
    requires PresentInOrder(EdgeHitList(start, end, polygons[from], 0), 0, LinePolygonIntersections(start, end, polygons[from]), idx)
    ensures EdgesInOrder(start, end, polygons, from, PolygonHits(start, end, polygons, from), AtPolygon(from, idx) + restPos)
  {
    var head := LinePolygonIntersections(start, end, polygons[from]);
    var rest := PolygonHits(start, end, polygons, from + 1);
    assert PolygonHits(start, end, polygons, from) == head + rest;
    PrependedHitsSound(start, end, polygons, from, head, rest, restPos, idx);
    PrependedHitsOrdered(from, restPos, idx);
    PrependedHitsComplete(start, end, polygons, from, restPos, idx);
  }

  lemma PrependedHitsSound(start: Vec2, end: Vec2, polygons: seq<Polygon>, from: nat, head: seq<Hit>, rest: seq<Hit>, restPos: seq<EdgeAt>, idx: seq<nat>)
    requires from < |polygons|
    requires EdgesInOrder(start, end, polygons, from + 1, rest, restPos)
    requires PresentInOrder(EdgeHitList(start, end, polygons[from], 0), 0, head, idx)
    ensures forall k :: 0 <= k < |idx| + |restPos| ==>
      var p := (AtPolygon(from, idx) + restPos)[k];
      && from <= p.polygon < |polygons|
      && p.edge < |polygons[p.polygon]|
      && EdgeHit(start, end, polygons[p.polygon], p.edge) == Some((head + rest)[k])
  {
    var list := EdgeHitList(start, end, polygons[from], 0);
    var pos := AtPolygon(from, idx) + restPos;
    forall k | 0 <= k < |pos|
      ensures from <= pos[k].polygon < |polygons| && pos[k].edge < |polygons[pos[k].polygon]|
      ensures EdgeHit(start, end, polygons[pos[k].polygon], pos[k].edge) == Some((head + rest)[k])
    {
      if k < |idx| {
        assert list[idx[k]] == Some(head[k]);
      } else {
        assert pos[k] == restPos[k - |idx|];
      }
    }
  }

  lemma PrependedHitsOrdered(from: nat, restPos: seq<EdgeAt>, idx: seq<nat>)
    requires forall k :: 0 <= k < |restPos| ==> from < restPos[k].polygon
    requires forall k :: 0 < k < |restPos| ==> EdgeBefore(restPos[k - 1], restPos[k])
    requires forall k :: 0 < k < |idx| ==> idx[k - 1] < idx[k]
    ensures forall k :: 0 < k < |idx| + |restPos| ==>
      EdgeBefore((AtPolygon(from, idx) + restPos)[k - 1], (AtPolygon(from, idx) + restPos)[k])
  {
    var pos := AtPolygon(from, idx) + restPos;
    forall k | 0 < k < |pos| ensures EdgeBefore(pos[k - 1], pos[k]) {
      if k > |idx| {
        assert pos[k - 1] == restPos[k - 1 - |idx|];
        assert pos[k] == restPos[k - |idx|];
      } else if k == |idx| {
        assert pos[k] == restPos[0];
      }
    }
  }

  lemma PrependedHitsComplete(start: Vec2, end: Vec2, polygons: seq<Polygon>, from: nat, restPos: seq<EdgeAt>, idx: seq<nat>)
    requires from < |polygons|
    requires forall g, a :: from + 1 <= g < |polygons| && 0 <= a < |polygons[g]| && EdgeHit(start, end, polygons[g], a).Some? ==>
      EdgeAt(g, a) in restPos
    requires forall j :: 0 <= j < |EdgeHitList(start, end, polygons[from], 0)| && EdgeHitList(start, end, polygons[from], 0)[j].Some? ==> j in idx
    ensures forall g, a :: from <= g < |polygons| && 0 <= a < |polygons[g]| && EdgeHit(start, end, polygons[g], a).Some? ==>
      EdgeAt(g, a) in AtPolygon(from, idx) + restPos
  {
    var list := EdgeHitList(start, end, polygons[from], 0);
    var pos := AtPolygon(from, idx) + restPos;
    forall g, a | from <= g < |polygons| && 0 <= a < |polygons[g]| && EdgeHit(start, end, polygons[g], a).Some?
      ensures EdgeAt(g, a) in pos
    {
      if g == from {
        assert list[a].Some?;
        var k :| 0 <= k < |idx| && idx[k] == a;
        assert pos[k] == EdgeAt(g, a);
      } else {
        var k :| 0 <= k < |restPos| && restPos[k] == EdgeAt(g, a);
        assert pos[|idx| + k] == EdgeAt(g, a);
      }
    }
  }

  /** `GetCollisionPoints` lists the hit of every line the ray crosses, in
      line order, then the hit of every polygon edge it crosses, in
      polygon-then-edge order, each once and nothing else. */
  lemma CollisionPointsInOrder(shape: Shape, start: Vec2, end: Vec2)
    ensures exists lineIdx, pos ::
      && |lineIdx| <= |CollisionPoints(shape, start, end)|
      && PresentInOrder(LineHitList(start, end, shape.lines, 0), 0, CollisionPoints(shape, start, end)[..|lineIdx|], lineIdx)
      && EdgesInOrder(start, end, shape.polygons, 0, CollisionPoints(shape, start, end)[|lineIdx|..], pos)
  {
    var lineHits := LineHits(start, end, shape.lines);
    var hits := CollisionPoints(shape, start, end);
    LineHitsInLineOrder(start, end, shape.lines);
    var lineIdx :| PresentInOrder(LineHitList(start, end, shape.lines, 0), 0, lineHits, lineIdx);
    PolygonHitsInOrder(start, end, shape.polygons);
    var pos :| EdgesInOrder(start, end, shape.polygons, 0, PolygonHits(start, end, shape.polygons, 0), pos);
    assert hits[..|lineIdx|] == lineHits;
    assert hits[|lineIdx|..] == PolygonHits(start, end, shape.polygons, 0);
  }

  /** `CheckPolygonCollision(polygon)`, as a property: the polygon crosses
      some collider line or edge-crosses some collider polygon. */
  predicate Collides(shape: Shape, polygon: Polygon)
  {
    || (exists l :: 0 <= l < |shape.lines| && PolygonIntersectsLine(polygon, shape.lines[l]))
    || (exists g :: 0 <= g < |shape.polygons| && PolygonsIntersect(polygon, shape.polygons[g]))
  }

  /** `CheckPolygonCollision(polygon)`: lines first, then polygons, stopping
      at the first collision. */
  method CheckPolygonCollision(shape: Shape, polygon: Polygon) returns (hit: bool)
    ensures hit <==> Collides(shape, polygon)
  {
    var l := 0;
    while l < |shape.lines|
      invariant 0 <= l <= |shape.lines|
      invariant forall j :: 0 <= j < l ==> !PolygonIntersectsLine(polygon, shape.lines[j])
    {
      var line := shape.lines[l];
      hit := CheckPolygonLineIntersection(polygon, line.start, line.end, line.infinite);
      if hit {
        assert line == Line(line.start, line.end, line.infinite);
        return;
      }
      l := l + 1;
    }
    var g := 0;
    while g < |shape.polygons|
      invariant 0 <= g <= |shape.polygons|
      invariant forall j :: 0 <= j < g ==> !PolygonsIntersect(polygon, shape.polygons[j])
    {
      hit := CheckPolygonIntersection(polygon, shape.polygons[g]);
      if hit {
        return;
      }
      g := g + 1;
    }
    return false;
  }

  /** A collider without geometry reports no hits and no collisions. */
  lemma EmptyShapeIsInert(start: Vec2, end: Vec2, polygon: Polygon)
    ensures CollisionPoints(Shape([], []), start, end) == []
    ensures !Collides(Shape([], []), polygon)
  {
  }

  // ---------------------------------------------------------------------
  // The owner's view and the two collider kinds.

  /** What a collider reads from the entity that owns it. */
  datatype Owner = Owner(pose: Pose, parameters: seq<ParameterSet>, controllers: seq<Controller>)

  datatype Collider = CarCollider | RoadCollider

  predicate IsCarParameters(p: ParameterSet) { p.CarParameters? }

  predicate IsRoadController(c: Controller) { c.RoadControl? }

  /** The owner's car dimensions: its first car parameter set, if any. */
  function CarParametersOf(owner: Option<Owner>): (r: Option<CarParameterSet>)
    ensures owner.None? ==> r.None?
    ensures owner.Some? ==> (r.Some? <==> exists k :: 0 <= k < |owner.value.parameters| && owner.value.parameters[k].CarParameters?)
    ensures r.Some? ==> exists k ::
      && 0 <= k < |owner.value.parameters|
      && owner.value.parameters[k] == CarParameters(r.value)
      && forall j :: 0 <= j < k ==> !owner.value.parameters[j].CarParameters?
  {
    match owner
    case None => None
    case Some(o) =>
      match FirstIndex(o.parameters, IsCarParameters)
      case None => None
      case Some(k) =>
        assert forall j :: 0 <= j < k ==> !IsCarParameters(o.parameters[j]);
        Some(o.parameters[k].car)
  }

  /** The four corners of a car rectangle around `pose`: the half diagonal
      `r` at the angles ±a and π±a from the heading, a = atan2(w/2, l/2). */
  function CarCorners(t: Trig, pose: Pose, car: CarParameterSet): (corners: Polygon)
    ensures |corners| == 4
  {
    var w2 := car.width / 2.0;
    var l2 := car.length / 2.0;
    var r := t.sqrt(w2 * w2 + l2 * l2);
    var a := t.atan2(w2, l2);
    [ pose.position.Plus(CirclePoint(t, r, pose.angle + a)),
      pose.position.Plus(CirclePoint(t, r, pose.angle + Pi - a)),
      pose.position.Plus(CirclePoint(t, r, pose.angle + Pi + a)),
      pose.position.Plus(CirclePoint(t, r, pose.angle - a)) ]
  }

  /** `CarCollider.GetPolygonGeometry`: no polygon without an owner or
      without car parameters, otherwise exactly one rectangle. */
  function CarPolygons(t: Trig, owner: Option<Owner>): (polygons: seq<Polygon>)
    ensures |polygons| <= 1
    ensures |polygons| == 1 <==> CarParametersOf(owner).Some?
    ensures |polygons| == 1 ==>
      && |polygons[0]| == 4
      && polygons[0] == CarCorners(t, owner.value.pose, CarParametersOf(owner).value)
  {
    match CarParametersOf(owner)
    case None => []
    case Some(car) => [CarCorners(t, owner.value.pose, car)]
  }

  /** Opposite corners of the car rectangle lie symmetrically about the
      car's position. */
  lemma CarCornersPointSymmetric(t: Trig, pose: Pose, car: CarParameterSet)
    requires HalfTurnLaw(t)
    ensures var c := CarCorners(t, pose, car);
      && c[0].x + c[2].x == 2.0 * pose.position.x && c[0].y + c[2].y == 2.0 * pose.position.y
      && c[1].x + c[3].x == 2.0 * pose.position.x && c[1].y + c[3].y == 2.0 * pose.position.y
  {
    var w2 := car.width / 2.0;
    var l2 := car.length / 2.0;
    var r := t.sqrt(w2 * w2 + l2 * l2);
    var a := t.atan2(w2, l2);
    OppositeCirclePoints(t, r, pose.angle + a);
    assert pose.angle + Pi + a == HalfTurn(pose.angle + a);
    OppositeCirclePoints(t, r, pose.angle - a);
    assert pose.angle + Pi - a == HalfTurn(pose.angle - a);
  }

  /** Half a turn further round the circle is the opposite point. */
  lemma OppositeCirclePoints(t: Trig, r: real, angle: real)
    requires HalfTurnLaw(t)
    ensures CirclePoint(t, r, HalfTurn(angle)).x == -CirclePoint(t, r, angle).x
    ensures CirclePoint(t, r, HalfTurn(angle)).y == -CirclePoint(t, r, angle).y
  {
    assert t.sin(HalfTurn(angle)) == -t.sin(angle);
    assert t.cos(HalfTurn(angle)) == -t.cos(angle);
  }

  /** The car collider's parameter cache: the index of the owner's car
      parameter set once one has been found. The lookup keeps a found index
      and retries while there is none. */
  function CachedCarParameters(cache: Option<nat>, parameters: seq<ParameterSet>): (r: Option<nat>)
    ensures cache.Some? ==> r == cache
  {
    if cache.Some? then cache else FirstIndex(parameters, IsCarParameters)
  }

  /** A cache is coherent when it is empty or holds the current first
      match. */
  predicate CacheCoherent(cache: Option<nat>, parameters: seq<ParameterSet>)
  {
    cache.None? || cache == FirstIndex(parameters, IsCarParameters)
  }

  /** A coherent cache answers like a fresh lookup and stays coherent, also
      once more parameter sets are attached: parameter lists only grow at
      the end, so the first car parameter set never changes once found. */
  lemma CacheAgreesWithLookup(cache: Option<nat>, parameters: seq<ParameterSet>, added: ParameterSet)
    requires CacheCoherent(cache, parameters)
    ensures CachedCarParameters(cache, parameters) == FirstIndex(parameters, IsCarParameters)
    ensures CacheCoherent(CachedCarParameters(cache, parameters), parameters)
    ensures CacheCoherent(CachedCarParameters(cache, parameters), parameters + [added])
  {
    if FirstIndex(parameters, IsCarParameters).Some? {
      FirstIndexAppend(parameters, added, IsCarParameters);
    }
  }

  /** `RoadCollider.GetLineGeometry`: the left and then the right border of
      the owner's first road controller, as infinite vertical lines. */
  function RoadLines(owner: Option<Owner>): (lines: seq<Line>)
    ensures |lines| == 0 || |lines| == 2
    ensures owner.None? ==> lines == []
    ensures owner.Some? ==> (|lines| == 2 <==> exists k :: 0 <= k < |owner.value.controllers| && owner.value.controllers[k].RoadControl?)
    ensures |lines| == 2 ==>
      var road := FirstMatch(owner.value.controllers, IsRoadController).value.road;
      lines == [VerticalLine(road.LeftBorder()), VerticalLine(road.RightBorder())]
  {
    match owner
    case None => []
    case Some(o) =>
      match FirstMatch(o.controllers, IsRoadController)
      case None => []
      case Some(c) => [VerticalLine(c.road.LeftBorder()), VerticalLine(c.road.RightBorder())]
  }

  /** The geometry of a collider for its owner. The road has no polygons. */
  function ShapeOf(t: Trig, c: Collider, owner: Option<Owner>): (s: Shape)
    ensures c.CarCollider? ==> s.lines == [] && s.polygons == CarPolygons(t, owner)
    ensures c.RoadCollider? ==> s.lines == RoadLines(owner) && s.polygons == []
  {
    match c
    case CarCollider => Shape([], CarPolygons(t, owner))
    case RoadCollider => Shape(RoadLines(owner), [])
  }

  /** Every point where a ray meets a road collider lies on one of the two
      borders. */
  lemma RoadHitsLieOnBorders(t: Trig, owner: Option<Owner>, start: Vec2, end: Vec2)
    ensures var lines := RoadLines(owner);
      var hits := CollisionPoints(ShapeOf(t, RoadCollider, owner), start, end);
      forall k :: 0 <= k < |hits| ==> hits[k].point.x == lines[0].start.x || hits[k].point.x == lines[1].start.x
  {
    var lines := RoadLines(owner);
    var shape := ShapeOf(t, RoadCollider, owner);
    LineShapeHits(shape, start, end);
    if |lines| == 2 {
      HitsOnTwoVerticals(start, end, lines[0].start.x, lines[1].start.x);
    }
  }

  /** A shape without polygons is hit only by its lines. */
  lemma LineShapeHits(shape: Shape, start: Vec2, end: Vec2)
    requires shape.polygons == []
    ensures CollisionPoints(shape, start, end) == LineHits(start, end, shape.lines)
  {
    assert PolygonHits(start, end, [], 0) == [];
  }

  /** Every hit on two vertical lines lies on one of them. */
  lemma HitsOnTwoVerticals(start: Vec2, end: Vec2, a: real, b: real)
    ensures var hits := LineHits(start, end, [VerticalLine(a), VerticalLine(b)]);
      forall k :: 0 <= k < |hits| ==> hits[k].point.x == a || hits[k].point.x == b
  {
    var lines := [VerticalLine(a), VerticalLine(b)];
    HitsOnVerticalLines(start, end, lines);
    var hits := LineHits(start, end, lines);
    forall k | 0 <= k < |hits|
      ensures hits[k].point.x == a || hits[k].point.x == b
    {
      var l :| 0 <= l < |lines| && hits[k].point.x == lines[l].start.x;
      assert l == 0 || l == 1;
    }
  }

  /** Every hit on a set of vertical lines lies on one of them. */
  lemma HitsOnVerticalLines(start: Vec2, end: Vec2, lines: seq<Line>)
    requires forall l :: 0 <= l < |lines| ==> lines[l].start.x == lines[l].end.x
    ensures var hits := LineHits(start, end, lines);
      forall k :: 0 <= k < |hits| ==> exists l :: 0 <= l < |lines| && hits[k].point.x == lines[l].start.x
  {
    var hits := LineHits(start, end, lines);
    forall k | 0 <= k < |hits|
      ensures exists l :: 0 <= l < |lines| && hits[k].point.x == lines[l].start.x
    {
      var l :| 0 <= l < |lines| && Some(hits[k]) == LineHit(start, end, lines[l]);
      VerticalHit(start, end, lines[l]);
    }
  }

  /** A hit on a vertical line x = x0 has x = x0. */
  lemma VerticalHit(start: Vec2, end: Vec2, line: Line)
    requires line.start.x == line.end.x
    ensures LineHit(start, end, line).Some? ==> LineHit(start, end, line).value.point.x == line.start.x
  {
  }

  /** A polygon with a vertex strictly left and one strictly right of a
      road border collides with the road. */
  lemma StraddlingPolygonHitsRoad(t: Trig, owner: Option<Owner>, polygon: Polygon, i: nat, j: nat, border: nat)
    requires border < |RoadLines(owner)|
    requires i < |polygon| && j < |polygon|
    requires polygon[i].x < RoadLines(owner)[border].start.x < polygon[j].x
    ensures Collides(ShapeOf(t, RoadCollider, owner), polygon)
  {
    var lines := RoadLines(owner);
    var x0 := lines[border].start.x;
    assert lines[border] == VerticalLine(x0);
    PolygonStraddlingVerticalCrossesIt(polygon, x0, i, j);
  }
}

=== FILE: controllers.dfy ===
/** The controllers an entity can carry: the road layout, the constant-speed
    cruiser, the two driver-input controllers (keyboard and neural network)
    that collapse four intents into throttle and steering, and the car
    physics. */
module Controllers {
  import opened Collections
  import opened Geometry
  import opened Parameters
  import opened NeuronalNetwork
  import opened Physics

  // ---------------------------------------------------------------------
  // Road.

  /** `RoadController(laneCount, laneWidth)`: the same layout arithmetic as
      the road parameter set, kept on a controller. The layout is defined
      once, on `RoadParameterSet`. */
  datatype RoadController = RoadController(laneCount: int, laneWidth: real)
  {
    function Layout(): RoadParameterSet { RoadParameterSet(laneCount, laneWidth) }

    function RightBorder(): (x: real)
      ensures x * 2.0 == laneWidth * laneCount as real
    {
      Layout().RightBorder()
    }

    function LeftBorder(): (x: real)
      ensures x == -RightBorder()
      ensures RightBorder() - x == laneWidth * laneCount as real
    {
      Layout().LeftBorder()
    }

    /** `GetLanePosition(index)`. */
    function LanePosition(index: int): (x: real)
      requires laneCount != 0
      ensures x == LeftBorder() + (index as real + 0.5) * laneWidth
    {
      Layout().LanePosition(index)
    }
  }

  /** The controller and the parameter set built from the same lane count
      and width agree on both borders and on every lane position. */
  lemma RoadControllerAgreesWithParameterSet(laneCount: int, laneWidth: real, index: int)
    ensures RoadController(laneCount, laneWidth).LeftBorder() == RoadParameterSet(laneCount, laneWidth).LeftBorder()
    ensures RoadController(laneCount, laneWidth).RightBorder() == RoadParameterSet(laneCount, laneWidth).RightBorder()
    ensures laneCount != 0 ==>
      RoadController(laneCount, laneWidth).LanePosition(index) == RoadParameterSet(laneCount, laneWidth).LanePosition(index)
  {
  }

  /** Lane positions on the controller: first, last and adjacent lanes. */
  lemma RoadControllerLanes(road: RoadController, index: int)
    requires road.laneCount != 0
    ensures road.LanePosition(0) == road.LeftBorder() + road.laneWidth / 2.0
    ensures road.LanePosition(road.laneCount - 1) == road.RightBorder() - road.laneWidth / 2.0
    ensures road.LanePosition(index + 1) - road.LanePosition(index) == road.laneWidth
    ensures road.LeftBorder() + road.RightBorder() == 0.0
  {
  }

  // ---------------------------------------------------------------------
  // Cruise.

  /** `CarCruiseController(speed)`: drives straight along +Y. */
  datatype CruiseController = CruiseController(speed: real)

  /** `CarCruiseController.Simulate`: the owner's pose after one step, or
      nothing when there is no owner. */
  function Cruise(c: CruiseController, owner: Option<Pose>, timeDelta: real): (r: Option<Pose>)
    ensures r.Some? <==> owner.Some?
    ensures owner.Some? ==>
      && r.value.position.x == owner.value.position.x
      && r.value.angle == owner.value.angle
      && r.value.position.y - owner.value.position.y == c.speed * timeDelta
  {
    match owner
    case None => None
    case Some(pose) => Some(Pose(pose.position.Plus(Vec2(0.0, c.speed * timeDelta)), pose.angle))
  }

  /** `n` cruise steps of the same length. */
  function CruiseSteps(c: CruiseController, pose: Pose, timeDelta: real, n: nat): Pose
  {
    if n == 0 then pose else Cruise(c, Some(CruiseSteps(c, pose, timeDelta, n - 1)), timeDelta).value
  }

  /** After n steps the car has moved n·speed·dt along Y and nothing else. */
  lemma {:induction false} CruiseStepsDistance(c: CruiseController, pose: Pose, timeDelta: real, n: nat)
    ensures var r := CruiseSteps(c, pose, timeDelta, n);
      && r.position.x == pose.position.x
      && r.angle == pose.angle
      && r.position.y == pose.position.y + n as real * c.speed * timeDelta
  {
    if n > 0 {
      CruiseStepsDistance(c, pose, timeDelta, n - 1);
      var before := CruiseSteps(c, pose, timeDelta, n - 1);
      calc {
        CruiseSteps(c, pose, timeDelta, n).position.y;
      ==
        before.position.y + c.speed * timeDelta;
      ==
        pose.position.y + (n - 1) as real * c.speed * timeDelta + c.speed * timeDelta;
      ==
        pose.position.y + n as real * c.speed * timeDelta;
      }
    }
  }

  // ---------------------------------------------------------------------
  // Driver input.

  /** The four driving intents: which keys are down, or which network
      outputs fired. */
  datatype KeyState = KeyState(accelerate: bool, decelerate: bool, steerLeft: bool, steerRight: bool)

  /** Two opposing intents collapsed to one axis: both or neither give 0,
      the positive one alone 1, the negative one alone -1. */
  function Collapse(positive: bool, negative: bool): (r: real)
    ensures r == 0.0 <==> positive == negative
    ensures r == 1.0 <==> positive && !negative
    ensures r == -1.0 <==> !positive && negative
  {
    if positive == negative then 0.0
    else if positive then 1.0
    else -1.0
  }

  /** A value in {-1, 0, 1}. */
  predicate Ternary(x: real) { x == -1.0 || x == 0.0 || x == 1.0 }

  /** `KeyboardCarInputController`: the throttle and steering it offers. */
  datatype KeyboardController = KeyboardController(throttle: real, steeringInput: real)

  /** `KeyboardCarInputController.Simulate`, with the keyboard callback's
      answer as `keys`. */
  function KeyboardStep(c: KeyboardController, keys: KeyState): (r: KeyboardController)
    ensures Ternary(r.throttle) && Ternary(r.steeringInput)
    ensures keys.accelerate == keys.decelerate ==> r.throttle == 0.0
    ensures keys.accelerate && !keys.decelerate ==> r.throttle == 1.0
    ensures !keys.accelerate && keys.decelerate ==> r.throttle == -1.0
    ensures keys.steerLeft == keys.steerRight ==> r.steeringInput == 0.0
    ensures keys.steerRight && !keys.steerLeft ==> r.steeringInput == 1.0
    ensures !keys.steerRight && keys.steerLeft ==> r.steeringInput == -1.0
  {
    KeyboardController(Collapse(keys.accelerate, keys.decelerate), Collapse(keys.steerRight, keys.steerLeft))
  }

  /** The step forgets the previous values, throttle depends only on the
      accelerate/decelerate keys and steering only on the steering keys. */
  lemma KeyboardStepDependencies(c: KeyboardController, d: KeyboardController, keys: KeyState, other: KeyState)
    ensures KeyboardStep(c, keys) == KeyboardStep(d, keys)
    ensures keys.accelerate == other.accelerate && keys.decelerate == other.decelerate ==>
      KeyboardStep(c, keys).throttle == KeyboardStep(c, other).throttle
    ensures keys.steerLeft == other.steerLeft && keys.steerRight == other.steerRight ==>
      KeyboardStep(c, keys).steeringInput == KeyboardStep(c, other).steeringInput
  {
  }

  /** A network that satisfies the shape invariant. */
  type ValidNetwork = n: Network | Valid(n) witness Network([Level([], [], [], [])])

  /** `NeuronalNetworkRaduInputController`: throttle, steering and its
      network. */
  datatype NetworkController = NetworkController(throttle: real, steeringInput: real, network: ValidNetwork)

  /** The layer sizes of the controller's network. */
  function ControllerShape(sensorCount: nat): seq<nat> { [sensorCount, 6, 4] }

  /** `new NeuronalNetworkRaduInputController(sensorCount)`: a network with
      sensorCount inputs, a hidden level of 6 and 4 outputs. */
  function NewNetworkController(sensorCount: nat, rnds: seq<seq<real>>): (c: NetworkController)
    requires EnoughDraws(ControllerShape(sensorCount), rnds)
    ensures c.throttle == 0.0 && c.steeringInput == 0.0
    ensures |c.network.levels| == 2
    ensures HasShape(c.network.levels[0], sensorCount, 6)
    ensures HasShape(c.network.levels[1], 6, 4)
  {
    NetworkController(0.0, 0.0, NewNetwork(ControllerShape(sensorCount), rnds))
  }

  /** The intents read off the network outputs: index 0 accelerate, 1 steer
      left, 2 steer right, 3 decelerate, each firing when positive. */
  function Intents(outputs: seq<real>): (k: KeyState)
    requires |outputs| >= 4
    ensures k.accelerate <==> outputs[0] > 0.0
    ensures k.steerLeft <==> outputs[1] > 0.0
    ensures k.steerRight <==> outputs[2] > 0.0
    ensures k.decelerate <==> outputs[3] > 0.0
  {
    KeyState(outputs[0] > 0.0, outputs[3] > 0.0, outputs[1] > 0.0, outputs[2] > 0.0)
  }

  /** `NeuronalNetworkRaduInputController.Simulate`. `sensorValues` are the
      owner's sensors' normalised values in insertion order, or None when
      there is no owner. The network keeps the pass's inputs and outputs;
      fewer than 4 outputs leave throttle and steering as they were. */
  function NetworkStep(c: NetworkController, sensorValues: Option<seq<real>>): (r: NetworkController)
    ensures sensorValues.None? ==> r == c
    ensures sensorValues.Some? ==>
      var fed := FeedForward(c.network, sensorValues.value);
      && r.network == fed.network
      && (|fed.outputs| < 4 ==> r.throttle == c.throttle && r.steeringInput == c.steeringInput)
      && (|fed.outputs| >= 4 ==>
           var keys := Intents(fed.outputs);
           r.throttle == Collapse(keys.accelerate, keys.decelerate)
           && r.steeringInput == Collapse(keys.steerRight, keys.steerLeft))
  {
    match sensorValues
    case None => c
    case Some(values) =>
      var fed := FeedForward(c.network, values);
      if |fed.outputs| >= 4 then
        var keys := Intents(fed.outputs);
        NetworkController(Collapse(keys.accelerate, keys.decelerate), Collapse(keys.steerRight, keys.steerLeft), fed.network)
      else
        c.(network := fed.network)
  }

  /** With four or more outputs the network controller collapses its
      intents exactly as the keyboard controller collapses keys. */
  lemma NetworkCollapsesLikeKeyboard(c: NetworkController, values: seq<real>, k: KeyboardController)
    requires |FeedForward(c.network, values).outputs| >= 4
    ensures var r := NetworkStep(c, Some(values));
      var keyboard := KeyboardStep(k, Intents(FeedForward(c.network, values).outputs));
      r.throttle == keyboard.throttle && r.steeringInput == keyboard.steeringInput
  {
  }

  /** A controller built with the standard shape keeps four outputs, so
      every step sets throttle and steering from the network. */
  lemma NetworkStepAlwaysDecides(c: NetworkController, values: seq<real>)
    requires |c.network.levels| == 2 && |c.network.levels[1].outputs| == 4
    ensures |FeedForward(c.network, values).outputs| == 4
    ensures var r := NetworkStep(c, Some(values));
      && |r.network.levels| == 2 && |r.network.levels[1].outputs| == 4
      && Ternary(r.throttle) && Ternary(r.steeringInput)
  {
  }

  /** Throttle and steering stay in {-1, 0, 1} across steps. */
  lemma NetworkStepKeepsTernary(c: NetworkController, sensorValues: Option<seq<real>>)
    requires Ternary(c.throttle) && Ternary(c.steeringInput)
    ensures Ternary(NetworkStep(c, sensorValues).throttle) && Ternary(NetworkStep(c, sensorValues).steeringInput)
  {
  }

  // ---------------------------------------------------------------------
  // The controller union.

  datatype Controller =
    | RoadControl(road: RoadController)
    | CruiseControl(cruise: CruiseController)
    | KeyboardInput(keyboard: KeyboardController)
    | NetworkInput(network: NetworkController)
    | PhysicsControl(physics: CarPhysics)

  /** The controller implements `ICarInputController`. */
  predicate IsInputController(c: Controller)
  {
    c.KeyboardInput? || c.NetworkInput?
  }

  /** The controller's last decision is a full-or-nothing choice on both
      axes, as `KeyboardStep` and `NetworkStep` keep it. */
  predicate Decided(c: Controller)
    requires IsInputController(c)
  {
    match c
    case KeyboardInput(k) => Ternary(k.throttle) && Ternary(k.steeringInput)
    case NetworkInput(n) => Ternary(n.throttle) && Ternary(n.steeringInput)
  }

  /** What an input controller offers the physics: a decided controller
      offers a full-or-nothing throttle and steering, so the physics'
      clamp to [-1, 1] leaves them as they are. */
  function InputOf(c: Controller): (d: DriverInput)
    requires IsInputController(c)
    ensures Decided(c) ==> Ternary(d.throttle) && Ternary(d.steering)
    ensures Decided(c) ==> -1.0 <= d.throttle <= 1.0 && -1.0 <= d.steering <= 1.0
  {
    match c
    case KeyboardInput(k) => DriverInput(k.throttle, k.steeringInput)
    case NetworkInput(n) => DriverInput(n.throttle, n.steeringInput)
  }
}

=== FILE: entities.dfy ===
/** Entities: a position and an angle plus four ordered component lists
    (parameter sets, controllers, sensors, colliders). Components are
    attached at the end of their list and looked up by kind in insertion
    order. A kind is a predicate on the component datatype, standing for
    the C# type argument of `Get...<T>`. */
module Entities {
  import opened Collections
  import opened Geometry
  import opened Parameters
  import opened Controllers
  import opened Sensors
  import opened Colliders

  /** `inGraph` records whether the entity's `Graph` reference is set. */
  datatype Entity = Entity(
    inGraph: bool,
    position: Vec2,
    angle: real,
    parameters: seq<ParameterSet>,
    controllers: seq<Controller>,
    sensors: seq<DistanceSensor>,
    colliders: seq<Collider>)
  {
    function Pose(): Pose { Geometry.Pose(position, angle) }
  }

  /** `new Entity(position, angle)`: no graph and no components. */
  function NewEntity(position: Vec2, angle: real): (e: Entity)
    ensures e.position == position && e.angle == angle && !e.inGraph
    ensures e.parameters == [] && e.controllers == [] && e.sensors == [] && e.colliders == []
  {
    Entity(false, position, angle, [], [], [], [])
  }

  /** What the entity's colliders read from it. */
  function OwnerView(e: Entity): (o: Owner)
    ensures o.pose == e.Pose() && o.parameters == e.parameters && o.controllers == e.controllers
  {
    Owner(e.Pose(), e.parameters, e.controllers)
  }

  // ---------------------------------------------------------------------
  // Attaching components. Ownership is implicit: a component belongs to
  // the entity whose list holds it.

  function WithParameterSet(e: Entity, p: ParameterSet): (r: Entity)
    ensures r.parameters == e.parameters + [p]
    ensures r.(parameters := e.parameters) == e
  {
    e.(parameters := e.parameters + [p])
  }

  function WithController(e: Entity, c: Controller): (r: Entity)
    ensures r.controllers == e.controllers + [c]
    ensures r.(controllers := e.controllers) == e
  {
    e.(controllers := e.controllers + [c])
  }

  function WithSensor(e: Entity, s: DistanceSensor): (r: Entity)
    ensures r.sensors == e.sensors + [s]
    ensures r.(sensors := e.sensors) == e
  {
    e.(sensors := e.sensors + [s])
  }

  function WithCollider(e: Entity, c: Collider): (r: Entity)
    ensures r.colliders == e.colliders + [c]
    ensures r.(colliders := e.colliders) == e
  {
    e.(colliders := e.colliders + [c])
  }

  // ---------------------------------------------------------------------
  // Lookup by kind: the single lookups are `FirstMatch` (the first match
  // in insertion order, or None) and the plural ones are `Filter` (every
  // match, in insertion order).

  function GetParameterSet(e: Entity, kind: ParameterSet -> bool): Option<ParameterSet>
  {
    FirstMatch(e.parameters, kind)
  }

  function GetParameterSets(e: Entity, kind: ParameterSet -> bool): seq<ParameterSet>
  {
    Filter(e.parameters, kind)
  }

  function GetController(e: Entity, kind: Controller -> bool): Option<Controller>
  {
    FirstMatch(e.controllers, kind)
  }

  function GetControllers(e: Entity, kind: Controller -> bool): seq<Controller>
  {
    Filter(e.controllers, kind)
  }

  function GetSensor(e: Entity, kind: DistanceSensor -> bool): Option<DistanceSensor>
  {
    FirstMatch(e.sensors, kind)
  }

  function GetSensors(e: Entity, kind: DistanceSensor -> bool): seq<DistanceSensor>
  {
    Filter(e.sensors, kind)
  }

  function GetCollider(e: Entity, kind: Collider -> bool): Option<Collider>
  {
    FirstMatch(e.colliders, kind)
  }

  function GetColliders(e: Entity, kind: Collider -> bool): seq<Collider>
  {
    Filter(e.colliders, kind)
  }

  /** Attaching a parameter set never displaces the first match of a kind,
      becomes it when there was none and it matches, and joins the end of
      the plural lookup when it matches. */
  lemma WithParameterSetLookups(e: Entity, p: ParameterSet, kind: ParameterSet -> bool)
    ensures GetParameterSet(WithParameterSet(e, p), kind)
      == if GetParameterSet(e, kind).Some? then GetParameterSet(e, kind) else if kind(p) then Some(p) else None
    ensures GetParameterSets(WithParameterSet(e, p), kind)
      == GetParameterSets(e, kind) + (if kind(p) then [p] else [])
  {
    FirstMatchAppend(e.parameters, p, kind);
    FilterAppend(e.parameters, p, kind);
  }

  /** The same for controllers. */
  lemma WithControllerLookups(e: Entity, c: Controller, kind: Controller -> bool)
    ensures GetController(WithController(e, c), kind)
      == if GetController(e, kind).Some? then GetController(e, kind) else if kind(c) then Some(c) else None
    ensures GetControllers(WithController(e, c), kind)
      == GetControllers(e, kind) + (if kind(c) then [c] else [])
  {
    FirstMatchAppend(e.controllers, c, kind);
    FilterAppend(e.controllers, c, kind);
  }

  /** The same for sensors. */
  lemma WithSensorLookups(e: Entity, s: DistanceSensor, kind: DistanceSensor -> bool)
    ensures GetSensor(WithSensor(e, s), kind)
      == if GetSensor(e, kind).Some? then GetSensor(e, kind) else if kind(s) then Some(s) else None
    ensures GetSensors(WithSensor(e, s), kind)
      == GetSensors(e, kind) + (if kind(s) then [s] else [])
  {
    FirstMatchAppend(e.sensors, s, kind);
    FilterAppend(e.sensors, s, kind);
  }

  /** The same for colliders. */
  lemma WithColliderLookups(e: Entity, c: Collider, kind: Collider -> bool)
    ensures GetCollider(WithCollider(e, c), kind)
      == if GetCollider(e, kind).Some? then GetCollider(e, kind) else if kind(c) then Some(c) else None
    ensures GetColliders(WithCollider(e, c), kind)
      == GetColliders(e, kind) + (if kind(c) then [c] else [])
  {
    FirstMatchAppend(e.colliders, c, kind);
    FilterAppend(e.colliders, c, kind);
  }

  /** Attaching a component of one kind is invisible to the lookups of the
      other component lists. */
  lemma WithControllerKeepsOtherLookups(e: Entity, c: Controller, pk: ParameterSet -> bool, sk: DistanceSensor -> bool, ck: Collider -> bool)
    ensures GetParameterSet(WithController(e, c), pk) == GetParameterSet(e, pk)
    ensures GetSensors(WithController(e, c), sk) == GetSensors(e, sk)
    ensures GetCollider(WithController(e, c), ck) == GetCollider(e, ck)
    ensures WithController(e, c).Pose() == e.Pose()
  {
  }

  /** The single lookup is the head of the plural one. */
  lemma GetControllerIsFirstOfGetControllers(e: Entity, kind: Controller -> bool)
    ensures GetController(e, kind) == if |GetControllers(e, kind)| > 0 then Some(GetControllers(e, kind)[0]) else None
  {
    FirstMatchIsFilterHead(e.controllers, kind);
  }
}

=== FILE: geometry.dfy ===
/** The geometry kernel (`CarMath`): interpolation, clamping, angle units,
    parametric line/line intersection and the edge-wise polygon tests that
    both collision detection and the ranging sensor are built on.

    Arithmetic is over `real`. Trigonometry and square roots are not
    interpreted: they are supplied as a `Trig` record, and the identities a
    proof needs are collected in `Lawful`. */
module Geometry {
  import opened Collections

  datatype Vec2 = Vec2(x: real, y: real) {
    function Plus(o: Vec2): Vec2 { Vec2(x + o.x, y + o.y) }
  }

  /** A position and a heading (radians, 0 = facing +Y, positive = clockwise). */
  datatype Pose = Pose(position: Vec2, angle: real)

  /** `Math.PI` */
  const Pi: real := 3.141592653589793

  function Min(a: real, b: real): real { if a <= b then a else b }
  function Max(a: real, b: real): real { if a >= b then a else b }
  function Abs(a: real): real { if a >= 0.0 then a else -a }

  predicate InUnit(t: real) { 0.0 <= t <= 1.0 }

  /** Linear interpolation from `a` (t = 0) to `b` (t = 1). */
  function Lerp(a: real, b: real, t: real): (r: real)
    ensures t == 0.0 ==> r == a
    ensures t == 1.0 ==> r == b
    ensures InUnit(t) ==> Min(a, b) <= r <= Max(a, b)
  {
    LerpWithin(a, b, t);
    a + (b - a) * t
  }

  lemma LerpWithin(a: real, b: real, t: real)
    ensures InUnit(t) ==> Min(a, b) <= a + (b - a) * t <= Max(a, b)
  {
    if InUnit(t) {
      var d := b - a;
      ScaleWithinUnit(d, t);
      var p := d * t;
      assert a + (b - a) * t == a + p;
      if a <= b {
        assert a <= a + p <= a + d == b;
      } else {
        assert b == a + d <= a + p <= a;
      }
    }
  }

  /** Scaling by a factor in [0, 1] moves a value towards 0. */
  lemma ScaleWithinUnit(d: real, t: real)
    requires InUnit(t)
    ensures 0.0 <= d ==> 0.0 <= d * t <= d
    ensures d <= 0.0 ==> d <= d * t <= 0.0
  {
    if 0.0 <= d {
      ProductNonNegative(d, 1.0 - t);
      ProductNonNegative(d, t);
    } else {
      ProductNonNegative(-d, 1.0 - t);
      ProductNonNegative(-d, t);
    }
  }

  lemma ProductNonNegative(a: real, b: real)
    requires 0.0 <= a && 0.0 <= b
    ensures 0.0 <= a * b
  {
  }

  function LerpPoint(a: Vec2, b: Vec2, t: real): Vec2
  {
    Vec2(Lerp(a.x, b.x, t), Lerp(a.y, b.y, t))
  }

  /** Clamps `value` into [minimum, maximum]; the minimum wins when the
      bounds are crossed. */
  function Bound(value: real, minimum: real, maximum: real): (r: real)
    ensures minimum <= r
    ensures minimum <= maximum ==> r <= maximum
    ensures minimum <= value <= maximum ==> r == value
    ensures value < minimum ==> r == minimum
    ensures minimum <= maximum < value ==> r == maximum
  {
    Max(minimum, Min(value, maximum))
  }

  /** Clamping twice is clamping once. */
  lemma BoundIdempotent(value: real, minimum: real, maximum: real)
    ensures Bound(Bound(value, minimum, maximum), minimum, maximum) == Bound(value, minimum, maximum)
  {
  }

  function DegToRad(deg: real): real { deg / 180.0 * Pi }

  function RadToDeg(rad: real): real { rad / Pi * 180.0 }

  /** Converting degrees to radians and back is the identity, both ways. */
  lemma AngleUnitsRoundTrip(d: real)
    ensures RadToDeg(DegToRad(d)) == d
    ensures DegToRad(RadToDeg(d)) == d
  {
  }

  // ---------------------------------------------------------------------
  // Trigonometry, supplied from outside.

  datatype Trig = Trig(sin: real -> real, cos: real -> real, sqrt: real -> real, atan2: (real, real) -> real)

  /** Half a turn added to an angle. */
  function HalfTurn(x: real): real { x + Pi }

  /** The identities of sine, cosine and square root the proofs rely on,
      one predicate per identity so that a lemma assumes only what it
      uses. */
  ghost predicate Lawful(t: Trig)
  {
    HalfTurnLaw(t) && PythagorasLaw(t) && SqrtLaw(t)
  }

  /** sin(x + π) = -sin x and cos(x + π) = -cos x. */
  ghost predicate HalfTurnLaw(t: Trig)
  {
    forall x {:trigger HalfTurn(x)} :: t.sin(HalfTurn(x)) == -t.sin(x) && t.cos(HalfTurn(x)) == -t.cos(x)
  }

  /** sin² x + cos² x = 1. The law is used one angle at a time, by naming
      `PythagorasAt`. */
  ghost predicate PythagorasLaw(t: Trig)
  {
    forall x {:trigger PythagorasAt(t, x)} :: PythagorasAt(t, x)
  }

  ghost predicate PythagorasAt(t: Trig, x: real)
  {
    t.sin(x) * t.sin(x) + t.cos(x) * t.cos(x) == 1.0
  }

  /** The square root of a non-negative number is the non-negative number
      whose square it is. The law is used one number at a time, by naming
      `SqrtAt`. */
  ghost predicate SqrtLaw(t: Trig)
  {
    forall y {:trigger SqrtAt(t, y)} :: SqrtAt(t, y)
  }

  ghost predicate SqrtAt(t: Trig, y: real)
  {
    0.0 <= y ==> 0.0 <= t.sqrt(y) && t.sqrt(y) * t.sqrt(y) == y
  }

  /** The point at `radius` in direction `angle` (clockwise from +Y). */
  function CirclePoint(t: Trig, radius: real, angle: real): Vec2
  {
    Vec2(t.sin(angle) * radius, t.cos(angle) * radius)
  }

  /** Clockwise rotation of `v` by `angle`. */
  function Rotate(t: Trig, v: Vec2, angle: real): Vec2
  {
    Vec2(t.cos(-angle) * v.x - t.sin(-angle) * v.y, t.sin(-angle) * v.x + t.cos(-angle) * v.y)
  }

  function NormSquared(v: Vec2): real
  {
    v.x * v.x + v.y * v.y
  }

  function Length(t: Trig, v: Vec2): real
  {
    t.sqrt(NormSquared(v))
  }

  /** A circle point is as long as the absolute radius. */
  lemma CirclePointLength(t: Trig, radius: real, angle: real)
    requires PythagorasLaw(t) && SqrtLaw(t)
    ensures Length(t, CirclePoint(t, radius, angle)) == Abs(radius)
  {
    var v := CirclePoint(t, radius, angle);
    CirclePointSquare(t, radius, angle);
    assert NormSquared(v) == radius * radius;
    SqrtOfSquare(t, radius);
  }


  lemma SqrtOfSquare(t: Trig, a: real)
    requires SqrtLaw(t)
    ensures t.sqrt(a * a) == Abs(a)
  {
    var q := t.sqrt(a * a);
    assert SqrtAt(t, a * a);
    AbsSquare(a);
    assert 0.0 <= a * a;
    assert 0.0 <= q && q * q == a * a;
    SquareRootUnique(q, Abs(a));
  }

  lemma CirclePointSquare(t: Trig, radius: real, angle: real)
    requires PythagorasLaw(t)
    ensures NormSquared(CirclePoint(t, radius, angle)) == radius * radius
  {
    var s, c := t.sin(angle), t.cos(angle);
    assert PythagorasAt(t, angle);
    calc {
      (s * radius) * (s * radius) + (c * radius) * (c * radius);
    ==
      (s * s + c * c) * (radius * radius);
    ==
      radius * radius;
    }
  }

  lemma AbsSquare(a: real)
    ensures Abs(a) * Abs(a) == a * a
  {
  }

  lemma SquareRootUnique(a: real, b: real)
    requires 0.0 <= a && 0.0 <= b && a * a == b * b
    ensures a == b
  {
    if a < b {
      ProductStrictlyMonotone(a, b);
    } else if b < a {
      ProductStrictlyMonotone(b, a);
    }
  }

  lemma ProductStrictlyMonotone(a: real, b: real)
    requires 0.0 <= a < b
    ensures a * a < b * b
  {
    ProductNonNegative(a, b - a);
    ProductPositive(b - a, b);
    calc {
      a * a;
    <= a * a + a * (b - a);
    == a * b;
    < a * b + (b - a) * b;
    == b * b;
    }
  }

  lemma ProductPositive(a: real, b: real)
    requires 0.0 < a && 0.0 < b
    ensures 0.0 < a * b
  {
  }

  // ---------------------------------------------------------------------
  // Line/line intersection.

  /** A line through `start` and `end`; an infinite line extends beyond both. */
  datatype Line = Line(start: Vec2, end: Vec2, infinite: bool)

  /** An intersection point and its position along the query line. */
  datatype Hit = Hit(point: Vec2, position: real)

  /** Result of `IntersectLines`: the point, if any, and the two positions
      (both 0 when there is no point). */
  datatype Crossing = Crossing(point: Option<Vec2>, positionA: real, positionB: real)

  /** Determinant of the two direction vectors; 0 when they are parallel. */
  function Bottom(startA: Vec2, endA: Vec2, startB: Vec2, endB: Vec2): real
  {
    (endB.y - startB.y) * (endA.x - startA.x) - (endB.x - startB.x) * (endA.y - startA.y)
  }

  function TTop(startA: Vec2, endA: Vec2, startB: Vec2, endB: Vec2): real
  {
    (endB.x - startB.x) * (startA.y - startB.y) - (endB.y - startB.y) * (startA.x - startB.x)
  }

  function UTop(startA: Vec2, endA: Vec2, startB: Vec2, endB: Vec2): real
  {
    (startB.y - startA.y) * (startA.x - endA.x) - (startB.x - startA.x) * (startA.y - endA.y)
  }

  /** Intersection of line A with line B; a finite line only accepts
      positions in [0, 1]. */
  function IntersectLines(startA: Vec2, endA: Vec2, infiniteA: bool, startB: Vec2, endB: Vec2, infiniteB: bool): (r: Crossing)
    ensures Bottom(startA, endA, startB, endB) == 0.0 ==> r == Crossing(None, 0.0, 0.0)
    ensures r.point.None? ==> r.positionA == 0.0 && r.positionB == 0.0
    ensures r.point.Some? ==>
      && Bottom(startA, endA, startB, endB) != 0.0
      && r.positionA * Bottom(startA, endA, startB, endB) == TTop(startA, endA, startB, endB)
      && r.positionB * Bottom(startA, endA, startB, endB) == UTop(startA, endA, startB, endB)
      && (infiniteA || InUnit(r.positionA))
      && (infiniteB || InUnit(r.positionB))
      && r.point.value == LerpPoint(startA, endA, r.positionA)
    ensures Bottom(startA, endA, startB, endB) != 0.0 ==>
      (r.point.Some? <==>
        && (infiniteA || InUnit(TTop(startA, endA, startB, endB) / Bottom(startA, endA, startB, endB)))
        && (infiniteB || InUnit(UTop(startA, endA, startB, endB) / Bottom(startA, endA, startB, endB))))
  {
    var tTop := TTop(startA, endA, startB, endB);
    var uTop := UTop(startA, endA, startB, endB);
    var bottom := Bottom(startA, endA, startB, endB);
    if bottom != 0.0 then
      var positionA := tTop / bottom;
      var positionB := uTop / bottom;
      if (infiniteA || InUnit(positionA)) && (infiniteB || InUnit(positionB)) then
        Crossing(Some(LerpPoint(startA, endA, positionA)), positionA, positionB)
      else
        Crossing(None, 0.0, 0.0)
    else
      Crossing(None, 0.0, 0.0)
  }

  /** Completeness of `IntersectLines`: when the lines are not parallel and
      they meet at position t of A and u of B, each within its segment
      unless that line is infinite, the intersection reports that point
      and those positions. */
  lemma IntersectLinesComplete(startA: Vec2, endA: Vec2, infiniteA: bool, startB: Vec2, endB: Vec2, infiniteB: bool, t: real, u: real)
    requires Bottom(startA, endA, startB, endB) != 0.0
    requires (infiniteA || InUnit(t)) && (infiniteB || InUnit(u))
    requires LerpPoint(startA, endA, t) == LerpPoint(startB, endB, u)
    ensures var r := IntersectLines(startA, endA, infiniteA, startB, endB, infiniteB);
      && r.point == Some(LerpPoint(startA, endA, t))
      && r.positionA == t
      && r.positionB == u
  {
    MeetingPositions(startA, endA, startB, endB, t, u);
  }

  /** Where the lines meet at positions t and u, those are the quotients
      `IntersectLines` computes. */
  lemma MeetingPositions(startA: Vec2, endA: Vec2, startB: Vec2, endB: Vec2, t: real, u: real)
    requires Bottom(startA, endA, startB, endB) != 0.0
    requires LerpPoint(startA, endA, t) == LerpPoint(startB, endB, u)
    ensures TTop(startA, endA, startB, endB) / Bottom(startA, endA, startB, endB) == t
    ensures UTop(startA, endA, startB, endB) / Bottom(startA, endA, startB, endB) == u
  {
    assert startA.x + (endA.x - startA.x) * t == startB.x + (endB.x - startB.x) * u;
    assert startA.y + (endA.y - startA.y) * t == startB.y + (endB.y - startB.y) * u;
    CrossMultiplied(startA, endA, startB, endB, t, u);
    DivideBack(t, Bottom(startA, endA, startB, endB), TTop(startA, endA, startB, endB));
    DivideBack(u, Bottom(startA, endA, startB, endB), UTop(startA, endA, startB, endB));
  }

  /** Solving sA + (eA - sA) t = sB + (eB - sB) u by cross-multiplication. */
  lemma CrossMultiplied(startA: Vec2, endA: Vec2, startB: Vec2, endB: Vec2, t: real, u: real)
    requires startA.x + (endA.x - startA.x) * t == startB.x + (endB.x - startB.x) * u
    requires startA.y + (endA.y - startA.y) * t == startB.y + (endB.y - startB.y) * u
    ensures t * Bottom(startA, endA, startB, endB) == TTop(startA, endA, startB, endB)
    ensures u * Bottom(startA, endA, startB, endB) == UTop(startA, endA, startB, endB)
  {
    var wx, wy := startA.x - startB.x, startA.y - startB.y;
    var dax, day := endA.x - startA.x, endA.y - startA.y;
    var dbx, dby := endB.x - startB.x, endB.y - startB.y;
    CrossingSolves(wx, wy, dax, day, dbx, dby, t, u);
    assert (startB.y - startA.y) * (startA.x - endA.x) == wy * dax;
    assert (startB.x - startA.x) * (startA.y - endA.y) == wx * day;
  }

  lemma DivideBack(q: real, d: real, n: real)
    requires d != 0.0 && q * d == n
    ensures n / d == q
  {
  }

  /** Solving w + dA t = dB u for t and u by cross-multiplication: the
      numerators and denominator `IntersectLines` divides. */
  lemma CrossingSolves(wx: real, wy: real, dax: real, day: real, dbx: real, dby: real, t: real, u: real)
    requires wx + dax * t == dbx * u
    requires wy + day * t == dby * u
    ensures t * (dby * dax - dbx * day) == dbx * wy - dby * wx
    ensures u * (dby * dax - dbx * day) == wy * dax - wx * day
  {
    assert dby * (wx + dax * t) == dby * (dbx * u);
    assert dbx * (wy + day * t) == dbx * (dby * u);
    assert day * (wx + dax * t) == day * (dbx * u);
    assert dax * (wy + day * t) == dax * (dby * u);
  }

  /** The four-argument overload: both lines finite. */
  function IntersectSegments(startA: Vec2, endA: Vec2, startB: Vec2, endB: Vec2): (r: Option<Vec2>)
  {
    IntersectLines(startA, endA, false, startB, endB, false).point
  }

  /** The four-argument overload is the finite/finite case of the general one:
      it finds a point exactly when that one does, the same point, and the
      point lies within both segments. */
  lemma SegmentsAreFiniteLines(startA: Vec2, endA: Vec2, startB: Vec2, endB: Vec2)
    ensures IntersectSegments(startA, endA, startB, endB).Some?
      <==> IntersectLines(startA, endA, false, startB, endB, false).point.Some?
    ensures IntersectSegments(startA, endA, startB, endB).Some? ==>
      var c := IntersectLines(startA, endA, false, startB, endB, false);
      && InUnit(c.positionA) && InUnit(c.positionB)
      && IntersectSegments(startA, endA, startB, endB).value == c.point.value
  {
  }

  /** The reported point lies on line B too, at positionB. */
  lemma {:induction false} CrossingOnBothLines(startA: Vec2, endA: Vec2, infiniteA: bool, startB: Vec2, endB: Vec2, infiniteB: bool)
    ensures var c := IntersectLines(startA, endA, infiniteA, startB, endB, infiniteB);
      c.point.Some? ==> c.point.value == LerpPoint(startB, endB, c.positionB)
  {
    var c := IntersectLines(startA, endA, infiniteA, startB, endB, infiniteB);
    if c.point.Some? {
      var t, u := c.positionA, c.positionB;
      CrossingPoint(startA, endA, startB, endB, t, u);
    }
  }

  /** Positions that solve the crossing equations name the same point on
      both lines. */
  lemma CrossingPoint(startA: Vec2, endA: Vec2, startB: Vec2, endB: Vec2, t: real, u: real)
    requires Bottom(startA, endA, startB, endB) != 0.0
    requires t * Bottom(startA, endA, startB, endB) == TTop(startA, endA, startB, endB)
    requires u * Bottom(startA, endA, startB, endB) == UTop(startA, endA, startB, endB)
    ensures LerpPoint(startA, endA, t) == LerpPoint(startB, endB, u)
  {
    CrossingCoordinate(startA.x, startA.y, endA.x, endA.y, startB.x, startB.y, endB.x, endB.y, t, u);
    CrossingOtherCoordinate(startA.x, startA.y, endA.x, endA.y, startB.x, startB.y, endB.x, endB.y, t, u);
  }

  /** One coordinate of the crossing: if t and u solve the crossing
      equations, both lines reach the same value there. Exchanging the roles
      of x and y gives the other coordinate. */
  lemma CrossingCoordinate(sax: real, say: real, eax: real, eay: real, sbx: real, sby: real, ebx: real, eby: real, t: real, u: real)
    requires (eby - sby) * (eax - sax) - (ebx - sbx) * (eay - say) != 0.0
    requires t * ((eby - sby) * (eax - sax) - (ebx - sbx) * (eay - say)) == (ebx - sbx) * (say - sby) - (eby - sby) * (sax - sbx)
    requires u * ((eby - sby) * (eax - sax) - (ebx - sbx) * (eay - say)) == (sby - say) * (sax - eax) - (sbx - sax) * (say - eay)
    ensures Lerp(sax, eax, t) == Lerp(sbx, ebx, u)
  {
    var bottom := (eby - sby) * (eax - sax) - (ebx - sbx) * (eay - say);
    var tTop := (ebx - sbx) * (say - sby) - (eby - sby) * (sax - sbx);
    var uTop := (sby - say) * (sax - eax) - (sbx - sax) * (say - eay);
    ScaledCrossing(sax, say, eax, eay, sbx, sby, ebx, eby, bottom, tTop, uTop);
    LerpScaled(sax, eax, t, bottom, tTop);
    LerpScaled(sbx, ebx, u, bottom, uTop);
    CancelNonZero(Lerp(sax, eax, t), Lerp(sbx, ebx, u), bottom);
  }

  /** The y coordinate of the crossing, from the x/y exchange: exchanging
      the roles negates `bottom` and both numerators. */
  lemma CrossingOtherCoordinate(sax: real, say: real, eax: real, eay: real, sbx: real, sby: real, ebx: real, eby: real, t: real, u: real)
    requires (eby - sby) * (eax - sax) - (ebx - sbx) * (eay - say) != 0.0
    requires t * ((eby - sby) * (eax - sax) - (ebx - sbx) * (eay - say)) == (ebx - sbx) * (say - sby) - (eby - sby) * (sax - sbx)
    requires u * ((eby - sby) * (eax - sax) - (ebx - sbx) * (eay - say)) == (sby - say) * (sax - eax) - (sbx - sax) * (say - eay)
    ensures Lerp(say, eay, t) == Lerp(sby, eby, u)
  {
    var bottom := (eby - sby) * (eax - sax) - (ebx - sbx) * (eay - say);
    var tTop := (ebx - sbx) * (say - sby) - (eby - sby) * (sax - sbx);
    var uTop := (sby - say) * (sax - eax) - (sbx - sax) * (say - eay);
    assert (ebx - sbx) * (eay - say) - (eby - sby) * (eax - sax) == -bottom;
    assert (eby - sby) * (sax - sbx) - (ebx - sbx) * (say - sby) == -tTop;
    assert (sbx - sax) * (say - eay) - (sby - say) * (sax - eax) == -uTop;
    assert t * -bottom == -tTop;
    assert u * -bottom == -uTop;
    CrossingCoordinate(say, sax, eay, eax, sby, sbx, eby, ebx, t, u);
  }

  /** The crossing equations multiplied out by `bottom`. */
  lemma ScaledCrossing(sax: real, say: real, eax: real, eay: real, sbx: real, sby: real, ebx: real, eby: real, bottom: real, tTop: real, uTop: real)
    requires bottom == (eby - sby) * (eax - sax) - (ebx - sbx) * (eay - say)
    requires tTop == (ebx - sbx) * (say - sby) - (eby - sby) * (sax - sbx)
    requires uTop == (sby - say) * (sax - eax) - (sbx - sax) * (say - eay)
    ensures sax * bottom + (eax - sax) * tTop == sbx * bottom + (ebx - sbx) * uTop
  {
  }

  lemma LerpScaled(a: real, b: real, t: real, k: real, top: real)
    requires t * k == top
    ensures Lerp(a, b, t) * k == a * k + (b - a) * top
  {
    calc {
      Lerp(a, b, t) * k;
    ==
      (a + (b - a) * t) * k;
    ==
      a * k + (b - a) * (t * k);
    }
  }

  lemma CancelNonZero(a: real, b: real, k: real)
    requires k != 0.0 && a * k == b * k
    ensures a == b
  {
    assert (a - b) * k == 0.0;
  }

  /** Swapping the two lines negates `bottom` and swaps the two positions;
      whether a point is found does not change. */
  lemma {:induction false} IntersectLinesSwap(startA: Vec2, endA: Vec2, infiniteA: bool, startB: Vec2, endB: Vec2, infiniteB: bool)
    ensures Bottom(startB, endB, startA, endA) == -Bottom(startA, endA, startB, endB)
    ensures var c := IntersectLines(startA, endA, infiniteA, startB, endB, infiniteB);
      var d := IntersectLines(startB, endB, infiniteB, startA, endA, infiniteA);
      && (c.point.Some? <==> d.point.Some?)
      && d.positionA == c.positionB
      && d.positionB == c.positionA
  {
    var bottom := Bottom(startA, endA, startB, endB);
    assert TTop(startB, endB, startA, endA) == -UTop(startA, endA, startB, endB);
    assert UTop(startB, endB, startA, endA) == -TTop(startA, endA, startB, endB);
    if bottom != 0.0 {
      NegateQuotient(UTop(startA, endA, startB, endB), bottom);
      NegateQuotient(TTop(startA, endA, startB, endB), bottom);
    }
  }

  lemma NegateQuotient(a: real, b: real)
    requires b != 0.0
    ensures (-a) / (-b) == a / b
  {
  }

  // ---------------------------------------------------------------------
  // Polygons. The edges are cyclic: edge a runs from vertex a to vertex
  // (a + 1) mod n.

  type Polygon = seq<Vec2>

  function EdgeEnd(polygon: Polygon, a: nat): Vec2
    requires a < |polygon|
  {
    polygon[(a + 1) % |polygon|]
  }

  /** Edge a of A crosses edge b of B (both finite). */
  predicate EdgesCross(polygonA: Polygon, a: nat, polygonB: Polygon, b: nat)
    requires a < |polygonA| && b < |polygonB|
  {
    IntersectSegments(polygonA[a], EdgeEnd(polygonA, a), polygonB[b], EdgeEnd(polygonB, b)).Some?
  }

  /** Some edge of A crosses some edge of B. Containment without a crossing
      edge is not detected. */
  predicate PolygonsIntersect(polygonA: Polygon, polygonB: Polygon)
  {
    exists a: nat, b: nat :: a < |polygonA| && b < |polygonB| && EdgesCross(polygonA, a, polygonB, b)
  }

  /** `CheckPolygonIntersection(polygonA, polygonB)`: the nested edge loops
      with early exit. */
  method CheckPolygonIntersection(polygonA: Polygon, polygonB: Polygon) returns (hit: bool)
    ensures hit <==> PolygonsIntersect(polygonA, polygonB)
  {
    var edgeCountA := |polygonA|;
    var edgeCountB := |polygonB|;
    var a := 0;
    while a < edgeCountA
      invariant 0 <= a <= edgeCountA
      invariant forall i: nat, j: nat :: i < a && j < edgeCountB ==> !EdgesCross(polygonA, i, polygonB, j)
    {
      var b := 0;
      while b < edgeCountB
        invariant 0 <= b <= edgeCountB
        invariant forall i: nat, j: nat :: i < a && j < edgeCountB ==> !EdgesCross(polygonA, i, polygonB, j)
        invariant forall j: nat :: j < b ==> !EdgesCross(polygonA, a, polygonB, j)
      {
        if IntersectSegments(polygonA[a], polygonA[(a + 1) % edgeCountA], polygonB[b], polygonB[(b + 1) % edgeCountB]) != None {
          assert EdgesCross(polygonA, a, polygonB, b);
          return true;
        }
        b := b + 1;
      }
      a := a + 1;
    }
    return false;
  }

  /** Two edges cross regardless of which is named first. */
  lemma EdgesCrossSymmetric(polygonA: Polygon, a: nat, polygonB: Polygon, b: nat)
    requires a < |polygonA| && b < |polygonB|
    ensures EdgesCross(polygonA, a, polygonB, b) == EdgesCross(polygonB, b, polygonA, a)
  {
    IntersectLinesSwap(polygonA[a], EdgeEnd(polygonA, a), false, polygonB[b], EdgeEnd(polygonB, b), false);
  }

  /** Polygon/polygon intersection is symmetric in its arguments. */
  lemma {:induction false} PolygonsIntersectSymmetric(polygonA: Polygon, polygonB: Polygon)
    ensures PolygonsIntersect(polygonA, polygonB) == PolygonsIntersect(polygonB, polygonA)
  {
    if PolygonsIntersect(polygonA, polygonB) {
      var a: nat, b: nat :| a < |polygonA| && b < |polygonB| && EdgesCross(polygonA, a, polygonB, b);
      EdgesCrossSymmetric(polygonA, a, polygonB, b);
    }
    if PolygonsIntersect(polygonB, polygonA) {
      var b: nat, a: nat :| b < |polygonB| && a < |polygonA| && EdgesCross(polygonB, b, polygonA, a);
      EdgesCrossSymmetric(polygonA, a, polygonB, b);
    }
  }

  /** Where the finite query line crosses edge a, if it does. */
  function EdgeHit(start: Vec2, end: Vec2, polygon: Polygon, a: nat): (r: Option<Hit>)
    requires a < |polygon|
    ensures r.Some? ==> InUnit(r.value.position) && r.value.point == LerpPoint(start, end, r.value.position)
  {
    var c := IntersectLines(start, end, false, polygon[a], EdgeEnd(polygon, a), false);
    if c.point.Some? then Some(Hit(c.point.value, c.positionA)) else None
  }

  /** `GetLinePolygonIntersections`: the hits of the finite line on the
      polygon's edges, at most one per edge, in edge order. */
  function LinePolygonIntersections(start: Vec2, end: Vec2, polygon: Polygon): (hits: seq<Hit>)
    ensures |hits| <= |polygon|
    ensures forall k :: 0 <= k < |hits| ==>
      InUnit(hits[k].position) && hits[k].point == LerpPoint(start, end, hits[k].position)
    ensures forall a :: 0 <= a < |polygon| && EdgeHit(start, end, polygon, a).Some? ==>
      EdgeHit(start, end, polygon, a).value in hits
    ensures forall k :: 0 <= k < |hits| ==>
      exists a :: 0 <= a < |polygon| && EdgeHit(start, end, polygon, a) == Some(hits[k])
  {
    var hits := EdgeHits(start, end, polygon, 0);
    EdgeHitsAreSomes(start, end, polygon, 0);
    var each := EdgeHitList(start, end, polygon, 0);
    forall k | 0 <= k < |hits|
      ensures exists a :: 0 <= a < |polygon| && EdgeHit(start, end, polygon, a) == Some(hits[k])
    {
      var a :| 0 <= a < |each| && each[a] == Some(hits[k]);
    }
    hits
  }

  /** The hits on the edges from edge `from` on, in edge order. */
  function EdgeHits(start: Vec2, end: Vec2, polygon: Polygon, from: nat): (hits: seq<Hit>)
    requires from <= |polygon|
    ensures |hits| <= |polygon| - from
    ensures forall k :: 0 <= k < |hits| ==>
      InUnit(hits[k].position) && hits[k].point == LerpPoint(start, end, hits[k].position)
    ensures forall a :: from <= a < |polygon| && EdgeHit(start, end, polygon, a).Some? ==>
      EdgeHit(start, end, polygon, a).value in hits
    decreases |polygon| - from
  {
    if from == |polygon| then []
    else
      var rest := EdgeHits(start, end, polygon, from + 1);
      match EdgeHit(start, end, polygon, from)
      case None => rest
      case Some(h) => [h] + rest
  }

  /** The hit or miss of each edge from edge `from` on: position l holds
      edge `from + l`. */
  function EdgeHitList(start: Vec2, end: Vec2, polygon: Polygon, from: nat): (r: seq<Option<Hit>>)
    requires from <= |polygon|
    ensures |r| == |polygon| - from
    ensures forall l :: 0 <= l < |r| ==> r[l] == EdgeHit(start, end, polygon, from + l)
    decreases |polygon| - from
  {
    if from == |polygon| then []
    else [EdgeHit(start, end, polygon, from)] + EdgeHitList(start, end, polygon, from + 1)
  }

  /** The edge hits are the present entries of the per-edge list. */
  lemma {:induction false} EdgeHitsAreSomes(start: Vec2, end: Vec2, polygon: Polygon, from: nat)
    requires from <= |polygon|
    ensures EdgeHits(start, end, polygon, from) == Somes(EdgeHitList(start, end, polygon, from))
    decreases |polygon| - from
  {
    if from < |polygon| {
      EdgeHitsAreSomes(start, end, polygon, from + 1);
      var each := EdgeHitList(start, end, polygon, from);
      assert each[1..] == EdgeHitList(start, end, polygon, from + 1);
    }
  }

  /** `GetLinePolygonIntersections` yields the hit of every edge the line
      crosses, each once, in edge order, and nothing else: `idx[k]` is the
      edge of the k-th hit, and the edges increase. */
  lemma LinePolygonIntersectionsInEdgeOrder(start: Vec2, end: Vec2, polygon: Polygon)
    ensures exists idx :: PresentInOrder(EdgeHitList(start, end, polygon, 0), 0, LinePolygonIntersections(start, end, polygon), idx)
  {
    EdgeHitsAreSomes(start, end, polygon, 0);
    SomesListedInOrder(EdgeHitList(start, end, polygon, 0), LinePolygonIntersections(start, end, polygon));
  }

  /** Edge a of the polygon crosses the (possibly infinite) line. */
  predicate EdgeCrossesLine(polygon: Polygon, a: nat, line: Line)
    requires a < |polygon|
  {
    IntersectLines(polygon[a], EdgeEnd(polygon, a), false, line.start, line.end, line.infinite).point.Some?
  }

  /** Some edge of the polygon crosses the line. */
  predicate PolygonIntersectsLine(polygon: Polygon, line: Line)
  {
    exists a: nat :: a < |polygon| && EdgeCrossesLine(polygon, a, line)
  }

  /** `CheckPolygonIntersection(polygon, lineStart, lineEnd, lineInfinite)`. */
  method CheckPolygonLineIntersection(polygon: Polygon, lineStart: Vec2, lineEnd: Vec2, lineInfinite: bool) returns (hit: bool)
    ensures hit <==> PolygonIntersectsLine(polygon, Line(lineStart, lineEnd, lineInfinite))
  {
    var edgeCount := |polygon|;
    var a := 0;
    while a < edgeCount
      invariant 0 <= a <= edgeCount
      invariant forall i: nat :: i < a ==> !EdgeCrossesLine(polygon, i, Line(lineStart, lineEnd, lineInfinite))
    {
      var c := IntersectLines(polygon[a], polygon[(a + 1) % edgeCount], false, lineStart, lineEnd, lineInfinite);
      if c.point != None {
        assert EdgeCrossesLine(polygon, a, Line(lineStart, lineEnd, lineInfinite));
        return true;
      }
      a := a + 1;
    }
    return false;
  }

  // ---------------------------------------------------------------------
  // Crossing a vertical line.

  /** The infinite vertical line x = x0, as the road borders are given. */
  function VerticalLine(x0: real): Line
  {
    Line(Vec2(x0, 0.0), Vec2(x0, 1.0), true)
  }

  /** A segment whose end points lie on opposite sides of x = x0 (one of them
      possibly on it) crosses the vertical line. */
  lemma SegmentCrossesVertical(p: Vec2, q: Vec2, x0: real)
    requires (p.x < x0 <= q.x) || (q.x <= x0 < p.x)
    ensures IntersectLines(p, q, false, Vec2(x0, 0.0), Vec2(x0, 1.0), true).point.Some?
  {
    var s, e := Vec2(x0, 0.0), Vec2(x0, 1.0);
    assert Bottom(p, q, s, e) == q.x - p.x;
    assert TTop(p, q, s, e) == x0 - p.x;
    if p.x < x0 {
      QuotientInUnit(x0 - p.x, q.x - p.x);
    } else {
      QuotientInUnit(p.x - x0, p.x - q.x);
      NegateQuotient(p.x - x0, p.x - q.x);
    }
  }

  lemma QuotientInUnit(n: real, d: real)
    requires 0.0 <= n <= d && 0.0 < d
    ensures InUnit(n / d)
  {
    var q := n / d;
    assert q * d == n;
  }

  /** Walking from a vertex on one side of x = x0 to a vertex on the other,
      some edge in between crosses the line. */
  lemma {:induction false} StraddleCrossesVertical(polygon: Polygon, x0: real, lo: nat, hi: nat)
    requires lo < hi < |polygon|
    requires (polygon[lo].x < x0 < polygon[hi].x) || (polygon[hi].x < x0 < polygon[lo].x)
    ensures exists a: nat :: lo <= a < hi && EdgeCrossesLine(polygon, a, VerticalLine(x0))
    decreases hi - lo
  {
    NextVertex(polygon, lo);
    var p, q := polygon[lo], polygon[lo + 1];
    if (p.x < x0 <= q.x) || (q.x <= x0 < p.x) {
      EdgeCrossesVertical(polygon, lo, x0);
    } else {
      StraddleCrossesVertical(polygon, x0, lo + 1, hi);
    }
  }

  /** Before the last vertex, an edge ends at the next vertex. */
  lemma NextVertex(polygon: Polygon, a: nat)
    requires a + 1 < |polygon|
    ensures EdgeEnd(polygon, a) == polygon[a + 1]
  {
    assert (a + 1) % |polygon| == a + 1;
  }

  /** An edge whose end points lie on opposite sides of x = x0 crosses the
      vertical line. */
  lemma EdgeCrossesVertical(polygon: Polygon, a: nat, x0: real)
    requires a + 1 < |polygon|
    requires (polygon[a].x < x0 <= polygon[a + 1].x) || (polygon[a + 1].x <= x0 < polygon[a].x)
    ensures EdgeCrossesLine(polygon, a, VerticalLine(x0))
  {
    NextVertex(polygon, a);
    SegmentCrossesVertical(polygon[a], polygon[a + 1], x0);
  }

  /** A polygon with one vertex strictly left and one strictly right of
      x = x0 crosses that infinite vertical line. */
  lemma PolygonStraddlingVerticalCrossesIt(polygon: Polygon, x0: real, i: nat, j: nat)
    requires i < |polygon| && j < |polygon|
    requires polygon[i].x < x0 < polygon[j].x
    ensures PolygonIntersectsLine(polygon, VerticalLine(x0))
  {
    if i < j {
      StraddleCrossesVertical(polygon, x0, i, j);
    } else {
      StraddleCrossesVertical(polygon, x0, j, i);
    }
  }
}

=== FILE: graph.dfy ===
/** The entity graph: the entities in insertion order, the frame counter,
    the simulation clock and the notification every simulated frame
    raises. The timer that calls `SimulateFrame` is not part of this
    model: a run of frames is a sequence of calls. */
module EntityGraphs {
  import opened Collections
  import opened Entities
  import opened Simulation

  datatype EntityGraph = EntityGraph(
    entities: World,
    frameCount: int,
    simulationTime: real,
    simulationFrequency: real,
    simulationTimeScale: real)

  /** `new EntityGraph()`: no entities, clock at zero, 60 frames per second
      at normal speed. */
  function NewEntityGraph(): (g: EntityGraph)
    ensures g.entities == [] && g.frameCount == 0 && g.simulationTime == 0.0
    ensures g.simulationFrequency == 60.0 && g.simulationTimeScale == 1.0
  {
    EntityGraph([], 0, 0.0, 60.0, 1.0)
  }

  /** `Add(entity)`: the entity joins the graph and goes last. */
  function Add(g: EntityGraph, e: Entity): (r: EntityGraph)
    ensures r.entities == g.entities + [e.(inGraph := true)]
    ensures r.(entities := g.entities) == g
    ensures r.entities[|g.entities|].inGraph
  {
    g.(entities := g.entities + [e.(inGraph := true)])
  }

  /** `FrameSimulatedEventArgs`. */
  datatype FrameSimulated = FrameSimulated(simulationTime: real, frameCount: int, frameException: Option<Fault>)

  /** The graph after a frame, the components entered during it, and the
      notifications raised. */
  datatype Frame = Frame(graph: EntityGraph, trace: seq<Event>, notifications: seq<FrameSimulated>)

  /** All events carry the same time arguments. */
  predicate AllAt(events: seq<Event>, time: real, timeDelta: real)
  {
    forall k :: 0 <= k < |events| ==> events[k].time == time && events[k].delta == timeDelta
  }

  /** A complete pass hands every component the same time arguments. */
  lemma {:induction false} PassEventsAllAt(world: World, from: nat, time: real, timeDelta: real)
    requires from <= |world|
    ensures AllAt(PassEvents(world, from, time, timeDelta), time, timeDelta)
    decreases |world| - from
  {
    if from < |world| {
      PassEventsAllAt(world, from + 1, time, timeDelta);
      var head := EntityEvents(from, world[from], time, timeDelta);
      var rest := PassEvents(world, from + 1, time, timeDelta);
      assert PassEvents(world, from, time, timeDelta) == head + rest;
      assert AllAt(head, time, timeDelta);
    }
  }

  /** `SimulateFrame`: the counter and the clock advance first, so they
      advance even when an entity faults; then the entities run with the
      advanced time, and exactly one notification carries the new time,
      the new count and the fault, if any. */
  function SimulateFrame(g: EntityGraph, env: Env): (r: Frame)
    requires g.simulationFrequency != 0.0
    ensures r.graph.frameCount == g.frameCount + 1
    ensures r.graph.simulationTime == g.simulationTime + 1.0 / g.simulationFrequency
    ensures r.graph.simulationFrequency == g.simulationFrequency && r.graph.simulationTimeScale == g.simulationTimeScale
    ensures SameLayout(g.entities, r.graph.entities)
    ensures |r.notifications| == 1
    ensures r.notifications[0].simulationTime == r.graph.simulationTime
    ensures r.notifications[0].frameCount == r.graph.frameCount
    ensures r.trace <= PassEvents(g.entities, 0, r.graph.simulationTime, 1.0 / g.simulationFrequency)
    ensures r.notifications[0].frameException.None? ==>
      r.trace == PassEvents(g.entities, 0, r.graph.simulationTime, 1.0 / g.simulationFrequency)
    ensures AllAt(r.trace, r.graph.simulationTime, 1.0 / g.simulationFrequency)
    ensures g.simulationTime >= 0.0 && g.simulationFrequency > 0.0 ==> r.graph.simulationTime > 0.0
    ensures var pass := SimulateEntities(env, g.entities, 0, r.graph.simulationTime, 1.0 / g.simulationFrequency);
      r.graph.entities == pass.world && r.notifications[0].frameException == pass.fault
  {
    var timeDelta := 1.0 / g.simulationFrequency;
    var time := g.simulationTime + timeDelta;
    var pass := SimulateEntities(env, g.entities, 0, time, timeDelta);
    PassEventsAllAt(g.entities, 0, time, timeDelta);
    ClockStaysPositive(g.simulationTime, g.simulationFrequency);
    assert pass.trace == PassEvents(g.entities, 0, time, timeDelta)[..|pass.trace|];
    Frame(
      g.(entities := pass.world, frameCount := g.frameCount + 1, simulationTime := time),
      pass.trace,
      [FrameSimulated(time, g.frameCount + 1, pass.fault)])
  }

  /** The frame's notification carries a fault exactly when some entity's
      step would fault on the entities as they were when the frame began:
      it is in the graph, exposed to a candidate collider, has a live
      physics controller and no car parameter set. */
  lemma FrameFaultCause(g: EntityGraph, env: Env)
    requires g.simulationFrequency != 0.0
    ensures SimulateFrame(g, env).notifications[0].frameException.Some? <==>
      exists f :: 0 <= f < |g.entities| && EntityFaults(g.entities, f)
  {
    var r := SimulateFrame(g, env);
    PassFaultCause(env, g.entities, 0, r.graph.simulationTime, 1.0 / g.simulationFrequency);
    assert SomeFaultFrom(g.entities, 0) <==> exists f :: 0 <= f < |g.entities| && EntityFaults(g.entities, f);
  }

  /** A clock at or after zero is strictly positive one period later. */
  lemma ClockStaysPositive(start: real, f: real)
    requires f != 0.0
    ensures start >= 0.0 && f > 0.0 ==> start + 1.0 / f > 0.0
  {
    if f > 0.0 {
      assert 1.0 / f > 0.0;
    }
  }

  /** The counter-and-clock part of `StartSimulation(reset)`. What a reset
      means for the frames that follow is `FramesAfterReset`. */
  function StartSimulation(g: EntityGraph, reset: bool): (r: EntityGraph)
    ensures reset ==> r == g.(frameCount := 0, simulationTime := 0.0)
    ensures !reset ==> r == g
  {
    if reset then g.(frameCount := 0, simulationTime := 0.0) else g
  }

  /** The graph after one frame, with the clock part of the frame's
      contract. */
  function NextGraph(g: EntityGraph, env: Env): (r: EntityGraph)
    requires g.simulationFrequency != 0.0
    ensures r.frameCount == g.frameCount + 1
    ensures r.simulationTime == g.simulationTime + 1.0 / g.simulationFrequency
    ensures r.simulationFrequency == g.simulationFrequency
    ensures SameLayout(g.entities, r.entities)
  {
    SimulateFrame(g, env).graph
  }

  /** One frame per element of `envs`, in order. */
  function RunFrames(g: EntityGraph, envs: seq<Env>): (r: EntityGraph)
    requires g.simulationFrequency != 0.0
    ensures r.simulationFrequency == g.simulationFrequency
    ensures SameLayout(g.entities, r.entities)
    decreases |envs|
  {
    if |envs| == 0 then g
    else
      var next := NextGraph(g, envs[0]);
      var r := RunFrames(next, envs[1..]);
      SameLayoutTransitive(g.entities, next.entities, r.entities);
      r
  }

  lemma SameLayoutTransitive(a: World, b: World, c: World)
    requires SameLayout(a, b) && SameLayout(b, c)
    ensures SameLayout(a, c)
  {
    forall j | 0 <= j < |a|
      ensures SameEntityLayout(a[j], c[j])
    {
      assert SameEntityLayout(a[j], b[j]) && SameEntityLayout(b[j], c[j]);
    }
  }

  /** n frames advance the counter by n and the clock by n / frequency. */
  lemma {:induction false} FramesAdvanceClock(g: EntityGraph, envs: seq<Env>)
    requires g.simulationFrequency != 0.0
    ensures RunFrames(g, envs).frameCount == g.frameCount + |envs|
    ensures RunFrames(g, envs).simulationTime == g.simulationTime + |envs| as real / g.simulationFrequency
    decreases |envs|
  {
    if |envs| > 0 {
      var f := g.simulationFrequency;
      var next := NextGraph(g, envs[0]);
      var last := RunFrames(next, envs[1..]);
      assert RunFrames(g, envs) == last;
      FramesAdvanceClock(next, envs[1..]);
      assert |envs| as real == |envs[1..]| as real + 1.0;
      ClockAdds(g.simulationTime, next.simulationTime, last.simulationTime, |envs[1..]| as real, |envs| as real, f);
    }
  }

  /** One more frame adds one more period to the clock. */
  lemma ClockAdds(start: real, next: real, last: real, rest: real, n: real, f: real)
    requires f != 0.0 && n == rest + 1.0
    requires next == start + 1.0 / f && last == next + rest / f
    ensures last == start + n / f
  {
    assert 1.0 / f + rest / f == (1.0 + rest) / f;
  }

  /** After a reset, n frames at a constant frequency f leave the counter
      at n and the clock at n / f. */
  lemma FramesAfterReset(g: EntityGraph, envs: seq<Env>)
    requires g.simulationFrequency != 0.0
    ensures var r := RunFrames(StartSimulation(g, true), envs);
      r.frameCount == |envs| && r.simulationTime == |envs| as real / g.simulationFrequency
  {
    FramesAdvanceClock(StartSimulation(g, true), envs);
  }
}

=== FILE: network.dfy ===
/** The binary-threshold perceptron (`NeuronalNetworkRadu`): levels of input
    and output neurons joined by a weight matrix, feed-forward with a hard
    threshold against each output's bias, and lerp-based mutation.

    `System.Random` is replaced by caller-supplied `NextDouble` draws (each
    in [0, 1)): one sequence per level, since every level creates its own
    generator. */
module NeuronalNetwork {
  import opened Geometry

  /** One level. `weights[i][o]` connects input i to output o. */
  datatype Level = Level(inputs: seq<real>, outputs: seq<real>, biases: seq<real>, weights: seq<seq<real>>)

  /** The level has `n` inputs, `m` outputs and biases, and an n×m matrix. */
  predicate HasShape(level: Level, n: nat, m: nat)
  {
    && |level.inputs| == n
    && |level.outputs| == m
    && |level.biases| == m
    && |level.weights| == n
    && forall i :: 0 <= i < n ==> |level.weights[i]| == m
  }

  /** The shape invariant every level keeps from its construction on. */
  predicate Shaped(level: Level)
  {
    HasShape(level, |level.inputs|, |level.outputs|)
  }

  predicate SameShape(a: Level, b: Level)
  {
    HasShape(b, |a.inputs|, |a.outputs|)
  }

  /** A value a `NextDouble` call can return. */
  predicate IsDraw(r: real) { 0.0 <= r < 1.0 }

  /** A value within [-1, 1], the range of initial weights and biases. */
  predicate Signed(x: real) { -1.0 <= x <= 1.0 }

  predicate AllDraws(rnd: seq<real>)
  {
    forall k :: 0 <= k < |rnd| ==> IsDraw(rnd[k])
  }

  /** A draw stretched onto [-1, 1). */
  function Spread(r: real): (v: real)
    ensures IsDraw(r) ==> -1.0 <= v < 1.0
    ensures r == (v + 1.0) / 2.0
  {
    r * 2.0 - 1.0
  }

  /** Position of weight [i][o] in a row-major n×m traversal. */
  lemma RowMajorIndex(i: nat, o: nat, n: nat, m: nat)
    requires i < n && o < m
    ensures i * m + o < n * m
  {
    calc {
      i * m + o;
    <
      i * m + m;
    ==
      (i + 1) * m;
    <=
      { MultiplyMonotone(i + 1, n, m); }
      n * m;
    }
  }

  lemma MultiplyMonotone(a: nat, b: nat, m: nat)
    requires a <= b
    ensures a * m <= b * m
  {
    assert b * m == a * m + (b - a) * m;
  }

  // ---------------------------------------------------------------------
  // Construction.

  /** Number of `NextDouble` draws a new n×m level consumes. */
  function DrawsForLevel(n: nat, m: nat): nat { n * m + m }

  /** Index of the draw that initialises weight [i][o] of an n×m level. */
  function InitialDraw(n: nat, m: nat, i: nat, o: nat): (k: nat)
    requires i < n && o < m
    ensures k < n * m
  {
    RowMajorIndex(i, o, n, m);
    i * m + o
  }

  /** `new Level(inputCount, outputCount)`: zeroed inputs and outputs, then
      `Randomize` draws the weights row by row and then the biases. */
  function NewLevel(inputCount: nat, outputCount: nat, rnd: seq<real>): (level: Level)
    requires |rnd| >= DrawsForLevel(inputCount, outputCount)
    ensures HasShape(level, inputCount, outputCount)
    ensures forall i :: 0 <= i < inputCount ==> level.inputs[i] == 0.0
    ensures forall o :: 0 <= o < outputCount ==> level.outputs[o] == 0.0
    ensures forall i, o :: 0 <= i < inputCount && 0 <= o < outputCount ==>
      level.weights[i][o] == Spread(rnd[InitialDraw(inputCount, outputCount, i, o)])
    ensures forall b :: 0 <= b < outputCount ==> level.biases[b] == Spread(rnd[inputCount * outputCount + b])
  {
    var n, m := inputCount, outputCount;
    var weights := seq(n, i requires 0 <= i < n =>
      seq(m, o requires 0 <= o < m => Spread(rnd[InitialDraw(n, m, i, o)])));
    var biases := seq(m, b requires 0 <= b < m => Spread(rnd[n * m + b]));
    Level(seq(n, _ => 0.0), seq(m, _ => 0.0), biases, weights)
  }

  /** Initial weights and biases lie in [-1, 1]. */
  lemma NewLevelSigned(inputCount: nat, outputCount: nat, rnd: seq<real>)
    requires |rnd| >= DrawsForLevel(inputCount, outputCount) && AllDraws(rnd)
    ensures LevelSigned(NewLevel(inputCount, outputCount, rnd))
  {
    var n, m := inputCount, outputCount;
    var level := NewLevel(n, m, rnd);
    forall i, o | 0 <= i < n && 0 <= o < m
      ensures Signed(level.weights[i][o])
    {
      assert IsDraw(rnd[InitialDraw(n, m, i, o)]);
    }
    forall b | 0 <= b < m
      ensures Signed(level.biases[b])
    {
      assert IsDraw(rnd[n * m + b]);
    }
  }

  /** Every weight and bias lies in [-1, 1]. */
  predicate LevelSigned(level: Level)
  {
    && (forall b :: 0 <= b < |level.biases| ==> Signed(level.biases[b]))
    && (forall i, o :: 0 <= i < |level.weights| && 0 <= o < |level.weights[i]| ==> Signed(level.weights[i][o]))
  }

  datatype Network = Network(levels: seq<Level>)

  /** What the constructor guarantees: at least one level (the first level
      is indexed unconditionally by `FeedForward`) and every level shaped. */
  predicate Valid(net: Network)
  {
    && |net.levels| >= 1
    && forall l :: 0 <= l < |net.levels| ==> Shaped(net.levels[l])
  }

  /** The per-level draw sequences suffice for the given layer sizes. */
  predicate EnoughDraws(neuronCounts: seq<nat>, rnds: seq<seq<real>>)
    requires |neuronCounts| >= 1
  {
    && |rnds| == |neuronCounts| - 1
    && forall l :: 0 <= l < |rnds| ==> |rnds[l]| >= DrawsForLevel(neuronCounts[l], neuronCounts[l + 1])
  }

  /** `new NeuronalNetworkRadu(neuronCounts)`: one level per consecutive pair
      of layer sizes. */
  function NewNetwork(neuronCounts: seq<nat>, rnds: seq<seq<real>>): (net: Network)
    requires |neuronCounts| >= 1 && EnoughDraws(neuronCounts, rnds)
    ensures |net.levels| == |neuronCounts| - 1
    ensures forall l :: 0 <= l < |net.levels| ==>
      HasShape(net.levels[l], neuronCounts[l], neuronCounts[l + 1])
      && net.levels[l] == NewLevel(neuronCounts[l], neuronCounts[l + 1], rnds[l])
    ensures |neuronCounts| >= 2 ==> Valid(net)
  {
    Network(seq(|neuronCounts| - 1, l requires 0 <= l < |neuronCounts| - 1 =>
      NewLevel(neuronCounts[l], neuronCounts[l + 1], rnds[l])))
  }

  // ---------------------------------------------------------------------
  // Feed-forward.

  /** The given values overwrite the leading inputs; the rest keep theirs. */
  function Overwrite(inputs: seq<real>, given: seq<real>): (r: seq<real>)
    ensures |r| == |inputs|
    ensures forall i :: 0 <= i < |inputs| && i < |given| ==> r[i] == given[i]
    ensures forall i :: |given| <= i < |inputs| ==> r[i] == inputs[i]
  {
    if |given| >= |inputs| then given[..|inputs|]
    else given + inputs[|given|..]
  }

  /** Σ_{i < n} inputs[i] · weights[i][o], summed in index order. */
  function WeightedSum(inputs: seq<real>, weights: seq<seq<real>>, o: nat, n: nat): real
    requires n <= |inputs| && n <= |weights|
    requires forall i :: 0 <= i < n ==> o < |weights[i]|
  {
    if n == 0 then 0.0
    else WeightedSum(inputs, weights, o, n - 1) + inputs[n - 1] * weights[n - 1][o]
  }

  /** Every entry is 0 or 1. */
  predicate Binary(s: seq<real>)
  {
    forall k :: 0 <= k < |s| ==> s[k] == 0.0 || s[k] == 1.0
  }

  /** The output neuron fires (1) exactly when its sum exceeds its bias. */
  function Fire(sum: real, bias: real): (r: real)
    ensures r == 1.0 <==> sum > bias
    ensures r == 0.0 <==> sum <= bias
  {
    if sum > bias then 1.0 else 0.0
  }

  /** The level after `Level.FeedForward(given)`; its outputs are what the
      call returns. */
  function FeedLevel(level: Level, given: seq<real>): (r: Level)
    requires Shaped(level)
    ensures SameShape(level, r) && Shaped(r)
    ensures r.biases == level.biases && r.weights == level.weights
    ensures r.inputs == Overwrite(level.inputs, given)
    ensures forall o :: 0 <= o < |r.outputs| ==>
      (r.outputs[o] == 1.0 <==> WeightedSum(r.inputs, r.weights, o, |r.inputs|) > r.biases[o])
    ensures Binary(r.outputs)
  {
    var inputs := Overwrite(level.inputs, given);
    var outputs := seq(|level.outputs|, o requires 0 <= o < |level.outputs| =>
      Fire(WeightedSum(inputs, level.weights, o, |inputs|), level.biases[o]));
    Level(inputs, outputs, level.biases, level.weights)
  }

  /** `Level.FeedForward` as the source writes it: copy the given inputs,
      then for each output accumulate the weighted sum and threshold it. */
  method LevelFeedForward(level: Level, given: seq<real>) returns (next: Level, outputs: seq<real>)
    requires Shaped(level)
    ensures next == FeedLevel(level, given)
    ensures outputs == next.outputs
  {
    var inputs := level.inputs;
    var i := 0;
    while i < |inputs| && i < |given|
      invariant 0 <= i <= |inputs| && i <= |given|
      invariant |inputs| == |level.inputs|
      invariant forall k :: 0 <= k < i ==> inputs[k] == given[k]
      invariant forall k :: i <= k < |inputs| ==> inputs[k] == level.inputs[k]
    {
      inputs := inputs[i := given[i]];
      i := i + 1;
    }
    assert inputs == Overwrite(level.inputs, given);
    outputs := level.outputs;
    var o := 0;
    while o < |outputs|
      invariant 0 <= o <= |outputs| == |level.outputs|
      invariant forall k :: 0 <= k < o ==> outputs[k] == FeedLevel(level, given).outputs[k]
    {
      var sum := 0.0;
      var j := 0;
      while j < |inputs|
        invariant 0 <= j <= |inputs|
        invariant sum == WeightedSum(inputs, level.weights, o, j)
      {
        sum := sum + inputs[j] * level.weights[j][o];
        j := j + 1;
      }
      if sum > level.biases[o] {
        outputs := outputs[o := 1.0];
      } else {
        outputs := outputs[o := 0.0];
      }
      o := o + 1;
    }
    next := Level(inputs, outputs, level.biases, level.weights);
  }

  /** Feeds `given` through `levels` in order; returns the levels after the
      pass and the last level's outputs (or `given` when there are none). */
  function FeedLevels(levels: seq<Level>, given: seq<real>): (r: (seq<Level>, seq<real>))
    requires forall l :: 0 <= l < |levels| ==> Shaped(levels[l])
    ensures |r.0| == |levels|
    ensures forall l :: 0 <= l < |levels| ==> SameShape(levels[l], r.0[l]) && Shaped(r.0[l])
    ensures |levels| == 0 ==> r.1 == given
    ensures |levels| > 0 ==> r.1 == r.0[|levels| - 1].outputs && Binary(r.1)
    ensures |levels| > 0 ==> r.0[0] == FeedLevel(levels[0], given)
    ensures forall l :: 0 < l < |levels| ==> r.0[l] == FeedLevel(levels[l], r.0[l - 1].outputs)
  {
    if |levels| == 0 then ([], given)
    else
      var first := FeedLevel(levels[0], given);
      var rest := FeedLevels(levels[1..], first.outputs);
      var passed := [first] + rest.0;
      forall l | 1 <= l < |levels|
        ensures SameShape(levels[l], passed[l]) && Shaped(passed[l])
        ensures passed[l] == FeedLevel(levels[l], passed[l - 1].outputs)
      {
        assert levels[l] == levels[1..][l - 1] && passed[l] == rest.0[l - 1];
        if l > 1 {
          assert passed[l - 1] == rest.0[l - 2];
        }
      }
      (passed, rest.1)
  }

  /** Result of `NeuronalNetworkRadu.FeedForward`: the network after the
      pass and the outputs it returns. */
  datatype Fed = Fed(network: Network, outputs: seq<real>)

  /** `NeuronalNetworkRadu.FeedForward(givenInputs)`. */
  function FeedForward(net: Network, given: seq<real>): (r: Fed)
    requires Valid(net)
    ensures Valid(r.network)
    ensures |r.network.levels| == |net.levels|
    ensures forall l :: 0 <= l < |net.levels| ==> SameShape(net.levels[l], r.network.levels[l])
    ensures |r.outputs| == |net.levels[|net.levels| - 1].outputs|
    ensures Binary(r.outputs)
  {
    var fed := FeedLevels(net.levels, given);
    Fed(Network(fed.0), fed.1)
  }

  /** A one-level network computes exactly that level's feed-forward. */
  lemma FeedForwardSingleLevel(level: Level, given: seq<real>)
    requires Shaped(level)
    ensures FeedForward(Network([level]), given).outputs == FeedLevel(level, given).outputs
  {
  }

  /** The pass chains the levels: the first level sees the given inputs and
      every later level sees its predecessor's outputs. */
  lemma {:induction false} FeedForwardChains(net: Network, given: seq<real>)
    requires Valid(net) && |net.levels| >= 2
    ensures var r := FeedForward(net, given);
      var first := FeedLevel(net.levels[0], given);
      r == var rest := FeedForward(Network(net.levels[1..]), first.outputs);
        Fed(Network([first] + rest.network.levels), rest.outputs)
  {
  }

  // ---------------------------------------------------------------------
  // Mutation.

  /** Number of draws `Level.Mutate` consumes: biases first, then weights. */
  function DrawsForMutation(level: Level): nat
  {
    |level.outputs| + |level.inputs| * |level.outputs|
  }

  /** Index of the draw that mutates weight [i][o] of an n×m level: after
      the m bias draws, row by row. */
  function WeightDraw(n: nat, m: nat, i: nat, o: nat): (k: nat)
    requires i < n && o < m
    ensures m <= k < m + n * m
  {
    RowMajorIndex(i, o, n, m);
    m + i * m + o
  }

  /** `Level.Mutate(amount)`: every bias, then every weight row by row, is
      interpolated towards a fresh value in [-1, 1) by `amount`. */
  function MutateLevel(level: Level, amount: real, rnd: seq<real>): (r: Level)
    requires Shaped(level) && |rnd| >= DrawsForMutation(level)
    ensures SameShape(level, r) && Shaped(r)
    ensures r.inputs == level.inputs && r.outputs == level.outputs
    ensures forall b :: 0 <= b < |r.biases| ==>
      r.biases[b] == Lerp(level.biases[b], Spread(rnd[b]), amount)
    ensures forall i, o :: 0 <= i < |r.inputs| && 0 <= o < |r.outputs| ==>
      r.weights[i][o] == Lerp(level.weights[i][o], Spread(rnd[WeightDraw(|r.inputs|, |r.outputs|, i, o)]), amount)
  {
    var n, m := |level.inputs|, |level.outputs|;
    var biases := seq(m, b requires 0 <= b < m => Lerp(level.biases[b], Spread(rnd[b]), amount));
    var weights := seq(n, i requires 0 <= i < n =>
      seq(m, o requires 0 <= o < m => Lerp(level.weights[i][o], Spread(rnd[WeightDraw(n, m, i, o)]), amount)));
    Level(level.inputs, level.outputs, biases, weights)
  }

  /** Amount 0 leaves a level unchanged. */
  lemma MutateLevelByNothing(level: Level, rnd: seq<real>)
    requires Shaped(level) && |rnd| >= DrawsForMutation(level)
    ensures MutateLevel(level, 0.0, rnd) == level
  {
    var r := MutateLevel(level, 0.0, rnd);
    assert r.biases == level.biases;
    assert forall i :: 0 <= i < |level.weights| ==> r.weights[i] == level.weights[i];
  }

  /** Amount 1 replaces every bias and weight by its fresh value. */
  lemma MutateLevelFully(level: Level, rnd: seq<real>)
    requires Shaped(level) && |rnd| >= DrawsForMutation(level)
    ensures var r := MutateLevel(level, 1.0, rnd);
      && (forall b :: 0 <= b < |r.biases| ==> r.biases[b] == Spread(rnd[b]))
      && (forall i, o :: 0 <= i < |r.inputs| && 0 <= o < |r.outputs| ==>
           r.weights[i][o] == Spread(rnd[WeightDraw(|r.inputs|, |r.outputs|, i, o)]))
  {
  }

  /** Mutating a level whose values lie in [-1, 1] with draws and an amount
      in range keeps every value in [-1, 1]. */
  lemma MutateLevelStaysSigned(level: Level, amount: real, rnd: seq<real>)
    requires Shaped(level) && |rnd| >= DrawsForMutation(level)
    requires LevelSigned(level) && AllDraws(rnd) && InUnit(amount)
    ensures LevelSigned(MutateLevel(level, amount, rnd))
  {
    var n, m := |level.inputs|, |level.outputs|;
    var r := MutateLevel(level, amount, rnd);
    forall i, o | 0 <= i < n && 0 <= o < m
      ensures Signed(r.weights[i][o])
    {
      assert IsDraw(rnd[WeightDraw(n, m, i, o)]);
    }
    forall b | 0 <= b < m
      ensures Signed(r.biases[b])
    {
      assert IsDraw(rnd[b]);
    }
  }

  /** Per-level draws for a network mutation suffice. */
  predicate EnoughMutationDraws(net: Network, rnds: seq<seq<real>>)
  {
    && |rnds| == |net.levels|
    && forall l :: 0 <= l < |rnds| ==> |rnds[l]| >= DrawsForMutation(net.levels[l])
  }

  /** `NeuronalNetworkRadu.Mutate(amount)`: every level, each with its own
      generator. The source's default argument is `amount = 1`, a full
      replacement of every value by its draw (`MutateLevelFully`); here the
      amount is always passed. */
  function Mutate(net: Network, amount: real, rnds: seq<seq<real>>): (r: Network)
    requires Valid(net) && EnoughMutationDraws(net, rnds)
    ensures Valid(r)
    ensures |r.levels| == |net.levels|
    ensures forall l :: 0 <= l < |r.levels| ==>
      SameShape(net.levels[l], r.levels[l]) && r.levels[l] == MutateLevel(net.levels[l], amount, rnds[l])
  {
    Network(seq(|net.levels|, l requires 0 <= l < |net.levels| => MutateLevel(net.levels[l], amount, rnds[l])))
  }

  /** Mutation with amount 0 is the identity on networks. */
  lemma MutateByNothing(net: Network, rnds: seq<seq<real>>)
    requires Valid(net) && EnoughMutationDraws(net, rnds)
    ensures Mutate(net, 0.0, rnds) == net
  {
    forall l | 0 <= l < |net.levels|
      ensures MutateLevel(net.levels[l], 0.0, rnds[l]) == net.levels[l]
    {
      MutateLevelByNothing(net.levels[l], rnds[l]);
    }
  }

  /** A freshly built network has all weights and biases in [-1, 1], and
      mutation keeps them there. */
  lemma MutateKeepsSigned(net: Network, amount: real, rnds: seq<seq<real>>)
    requires Valid(net) && EnoughMutationDraws(net, rnds)
    requires forall l :: 0 <= l < |net.levels| ==> LevelSigned(net.levels[l]) && AllDraws(rnds[l])
    requires InUnit(amount)
    ensures forall l :: 0 <= l < |net.levels| ==> LevelSigned(Mutate(net, amount, rnds).levels[l])
  {
    forall l | 0 <= l < |net.levels|
      ensures LevelSigned(MutateLevel(net.levels[l], amount, rnds[l]))
    {
      MutateLevelStaysSigned(net.levels[l], amount, rnds[l]);
    }
  }
}

=== FILE: parameters.dfy ===
/** Parameter sets attached to entities: the car's footprint and the
    straight road's lane layout. */
module Parameters {
  import opened Geometry

  /** `CarParameterSet`: the car's footprint in metres. */
  datatype CarParameterSet = CarParameterSet(width: real, length: real)

  /** A car parameter set with its default dimensions. */
  function DefaultCarParameterSet(): (p: CarParameterSet)
    ensures p.width == 1.8 && p.length == 4.0
  {
    CarParameterSet(1.8, 4.0)
  }

  /** `RoadParameterSet(laneCount, laneWidth)`: both values are stored as
      given and never change; the borders are derived from them. */
  datatype RoadParameterSet = RoadParameterSet(laneCount: int, laneWidth: real)
  {
    /** Half the road's total width. */
    function RightBorder(): (x: real)
      ensures x * 2.0 == laneWidth * laneCount as real
    {
      laneWidth * laneCount as real / 2.0
    }

    function LeftBorder(): (x: real)
      ensures x == -RightBorder()
      ensures RightBorder() - x == laneWidth * laneCount as real
    {
      -RightBorder()
    }

    /** `GetLanePosition(index)`: the lane centres are spread evenly between
        the centre of the first lane and one lane past the right border. */
    function LanePosition(index: int): (x: real)
      requires laneCount != 0
      ensures x == LeftBorder() + (index as real + 0.5) * laneWidth
    {
      LanePositionIsCentre(LeftBorder(), RightBorder(), laneWidth, laneCount, index);
      Lerp(LeftBorder() + laneWidth / 2.0, RightBorder() + laneWidth / 2.0, index as real / laneCount as real)
    }
  }

  /** The interpolation between the first lane centre and the right border
      shifted by half a lane lands on the centre of lane `index`. */
  lemma LanePositionIsCentre(left: real, right: real, width: real, count: int, index: int)
    requires count != 0
    requires right - left == width * count as real
    ensures Lerp(left + width / 2.0, right + width / 2.0, index as real / count as real)
      == left + (index as real + 0.5) * width
  {
    var n, i := count as real, index as real;
    var q := i / n;
    assert q * n == i;
    calc {
      Lerp(left + width / 2.0, right + width / 2.0, q);
    ==
      left + width / 2.0 + (right - left) * q;
    ==
      left + width / 2.0 + (width * n) * q;
    ==
      left + width / 2.0 + width * (q * n);
    ==
      left + (i + 0.5) * width;
    }
  }

  /** The borders lie symmetrically about x = 0. */
  lemma RoadBordersSymmetric(road: RoadParameterSet)
    ensures road.LeftBorder() + road.RightBorder() == 0.0
    ensures road.RightBorder() == road.laneWidth * road.laneCount as real / 2.0
  {
  }

  /** The first lane's centre is half a lane right of the left border, the
      last lane's centre half a lane left of the right border, and adjacent
      lanes are one lane width apart. */
  lemma LanePositionsSpacing(road: RoadParameterSet, index: int)
    requires road.laneCount != 0
    ensures road.LanePosition(0) == road.LeftBorder() + road.laneWidth / 2.0
    ensures road.LanePosition(road.laneCount - 1) == road.RightBorder() - road.laneWidth / 2.0
    ensures road.LanePosition(index + 1) - road.LanePosition(index) == road.laneWidth
  {
  }

  /** The parameter sets an entity can carry. */
  datatype ParameterSet =
    | CarParameters(car: CarParameterSet)
    | RoadParameters(road: RoadParameterSet)
}

=== FILE: physics.dfy ===
/** The car dynamics of `CarPhysicsController`: throttle and steering taken
    from the driver, acceleration chosen piecewise and reduced by drag,
    speed saturated and snapped to rest, heading wrapped, and the driving
    statistics kept. This module is the pure kinematic step; the collision
    check that can kill the car needs the whole world and lives with the
    simulation. */
module Physics {
  import opened Collections
  import opened Geometry

  /** The controller's state: tuning constants, the current motion and the
      statistics. */
  datatype CarPhysics = CarPhysics(
    throttle: real,
    maxForwardAcceleration: real,
    maxReverseAcceleration: real,
    maxBreakingAcceleration: real,
    dragBase: real,
    dragFactor: real,
    acceleration: real,
    maxForwardSpeed: real,
    maxReverseSpeed: real,
    currentSpeed: real,
    steeringInput: real,
    steeringFactor: real,
    isDead: bool,
    timeOfDeath: real,
    distanceTraveled: real,
    distanceMoved: real,
    averageSpeed: real)

  /** A new controller: default tuning, at rest, alive, no statistics. */
  function NewCarPhysics(): (p: CarPhysics)
    ensures p.maxForwardAcceleration == 20.0 && p.maxReverseAcceleration == 10.0
    ensures p.maxBreakingAcceleration == 30.0
    ensures p.dragBase == 1.0 && p.dragFactor == 0.02
    ensures p.maxForwardSpeed == 15.0 && p.maxReverseSpeed == 5.0
    ensures p.steeringFactor == DegToRad(5.0)
    ensures p.currentSpeed == 0.0 && p.throttle == 0.0 && p.steeringInput == 0.0 && !p.isDead
  {
    CarPhysics(0.0, 20.0, 10.0, 30.0, 1.0, 0.02, 0.0, 15.0, 5.0, 0.0, 0.0, 5.0 / 180.0 * Pi,
      false, 0.0, 0.0, 0.0, 0.0)
  }

  /** The throttle and steering an input controller offers. */
  datatype DriverInput = DriverInput(throttle: real, steering: real)

  /** `Math.Sign`. */
  function Sign(x: real): (s: int)
    ensures s == -1 || s == 0 || s == 1
    ensures s == 0 <==> x == 0.0
    ensures s == 1 <==> x > 0.0
  {
    if x > 0.0 then 1 else if x < 0.0 then -1 else 0
  }

  /** The acceleration the throttle asks for: braking strength whenever the
      throttle's sign differs from the speed's (including pulling away from
      rest), otherwise forward or reverse strength; no throttle, none. */
  function ThrottleAcceleration(p: CarPhysics, throttle: real, speed: real): (a: real)
    ensures throttle == 0.0 ==> a == 0.0
    ensures throttle != 0.0 && Sign(throttle) != Sign(speed) ==> a == throttle * p.maxBreakingAcceleration
    ensures throttle > 0.0 && speed > 0.0 ==> a == throttle * p.maxForwardAcceleration
    ensures throttle < 0.0 && speed < 0.0 ==> a == throttle * p.maxReverseAcceleration
  {
    var isBreaking := Sign(throttle) != Sign(speed);
    if throttle > 0.0 then throttle * (if isBreaking then p.maxBreakingAcceleration else p.maxForwardAcceleration)
    else if throttle < 0.0 then throttle * (if isBreaking then p.maxBreakingAcceleration else p.maxReverseAcceleration)
    else 0.0
  }

  /** The drag term: `DragFactor·v² + DragBase` against the motion; none
      at rest. */
  function Drag(p: CarPhysics, speed: real): (d: real)
    ensures speed == 0.0 ==> d == 0.0
    ensures speed != 0.0 ==> Abs(d) == Abs(speed * speed * p.dragFactor + p.dragBase)
    ensures p.dragFactor >= 0.0 && p.dragBase >= 0.0 ==>
      (speed > 0.0 ==> d <= -p.dragBase) && (speed < 0.0 ==> d >= p.dragBase)
  {
    if speed > 0.0 then -(speed * speed * p.dragFactor + p.dragBase)
    else if speed < 0.0 then speed * speed * p.dragFactor + p.dragBase
    else 0.0
  }

  /** The speed after one step: saturated to the speed limits, then snapped
      to rest when there is (almost) no throttle and (almost) no speed. */
  function NextSpeed(p: CarPhysics, throttle: real, speed: real, acceleration: real, timeDelta: real): (v: real)
    ensures 0.0 <= p.maxReverseSpeed && 0.0 <= p.maxForwardSpeed ==> -p.maxReverseSpeed <= v <= p.maxForwardSpeed
    ensures var bounded := Bound(speed + acceleration * timeDelta, -p.maxReverseSpeed, p.maxForwardSpeed);
      v == if Abs(throttle) < 0.01 && Abs(bounded) < 0.5 then 0.0 else bounded
  {
    var bounded := Bound(speed + acceleration * timeDelta, -p.maxReverseSpeed, p.maxForwardSpeed);
    if Abs(throttle) < 0.01 && Abs(bounded) < 0.5 then 0.0 else bounded
  }

  /** Brings a heading back by one full turn when it has passed ±π. */
  function WrapAngle(angle: real): (r: real)
    ensures r == angle || r == angle - 2.0 * Pi || r == angle + 2.0 * Pi
    ensures -3.0 * Pi <= angle <= 3.0 * Pi ==> -Pi <= r <= Pi
    ensures -Pi <= angle <= Pi ==> r == angle
  {
    var a := if angle > Pi then angle - Pi * 2.0 else angle;
    if a < -Pi then a + Pi * 2.0 else a
  }

  /** The displacement over one step: `speed·timeDelta` along `angle`. */
  function Displacement(t: Trig, speed: real, timeDelta: real, angle: real): Vec2
  {
    CirclePoint(t, speed * timeDelta, angle)
  }

  /** The moved distance grows by the displacement's length going forwards
      (or standing) and shrinks by it in reverse. */
  function Moved(t: Trig, moved: real, speed: real, vector: Vec2): (r: real)
    ensures speed >= 0.0 ==> r == moved + Length(t, vector)
    ensures speed < 0.0 ==> r == moved - Length(t, vector)
  {
    if speed >= 0.0 then moved + Length(t, vector) else moved - Length(t, vector)
  }

  /** Moved distance per simulated second; 0 at simulation time 0, where the
      source divides by zero. */
  function AverageSpeed(moved: real, simulationTime: real): (r: real)
    ensures simulationTime != 0.0 ==> r * simulationTime == moved
    ensures simulationTime == 0.0 ==> r == 0.0
  {
    if simulationTime != 0.0 then moved / simulationTime else 0.0
  }

  /** The heading after steering for one step, wrapped. */
  function Heading(angle: real, steering: real, steeringFactor: real, speed: real, timeDelta: real): real
  {
    WrapAngle(angle + steering * steeringFactor * speed * timeDelta)
  }

  /** The controller state and the car's new pose after one step. */
  datatype Motion = Motion(physics: CarPhysics, pose: Pose)

  /** One step of `CarPhysicsController.Simulate` for a living car in a
      graph, up to (not including) the collision check. `input` is the
      first input controller's offer, if the car has one. */
  function Step(p: CarPhysics, input: Option<DriverInput>, pose: Pose, simulationTime: real, timeDelta: real, t: Trig): (m: Motion)
    ensures input.Some? ==>
      && m.physics.throttle == Bound(input.value.throttle, -1.0, 1.0)
      && m.physics.steeringInput == Bound(input.value.steering, -1.0, 1.0)
    ensures input.None? ==> m.physics.throttle == p.throttle && m.physics.steeringInput == p.steeringInput
    ensures m.physics.acceleration
      == ThrottleAcceleration(p, m.physics.throttle, p.currentSpeed) + Drag(p, p.currentSpeed)
    ensures m.physics.currentSpeed
      == NextSpeed(p, m.physics.throttle, p.currentSpeed, m.physics.acceleration, timeDelta)
    ensures m.pose.angle
      == Heading(pose.angle, m.physics.steeringInput, p.steeringFactor, m.physics.currentSpeed, timeDelta)
    ensures m.pose.position
      == pose.position.Plus(Displacement(t, m.physics.currentSpeed, timeDelta, m.pose.angle))
    ensures m.physics.distanceMoved
      == Moved(t, p.distanceMoved, m.physics.currentSpeed, Displacement(t, m.physics.currentSpeed, timeDelta, m.pose.angle))
    ensures m.physics.distanceTraveled == m.pose.position.y
    ensures m.physics.averageSpeed == AverageSpeed(m.physics.distanceMoved, simulationTime)
    ensures !m.physics.isDead && m.physics.timeOfDeath == p.timeOfDeath
    ensures m.physics.maxForwardSpeed == p.maxForwardSpeed && m.physics.maxReverseSpeed == p.maxReverseSpeed
    ensures && m.physics.maxForwardAcceleration == p.maxForwardAcceleration
            && m.physics.maxReverseAcceleration == p.maxReverseAcceleration
            && m.physics.maxBreakingAcceleration == p.maxBreakingAcceleration
            && m.physics.dragBase == p.dragBase && m.physics.dragFactor == p.dragFactor
            && m.physics.steeringFactor == p.steeringFactor
  {
    var throttle := if input.Some? then Bound(input.value.throttle, -1.0, 1.0) else p.throttle;
    var steering := if input.Some? then Bound(input.value.steering, -1.0, 1.0) else p.steeringInput;
    var acceleration := ThrottleAcceleration(p, throttle, p.currentSpeed) + Drag(p, p.currentSpeed);
    var speed := NextSpeed(p, throttle, p.currentSpeed, acceleration, timeDelta);
    var angle := Heading(pose.angle, steering, p.steeringFactor, speed, timeDelta);
    var vector := Displacement(t, speed, timeDelta, angle);
    var position := pose.position.Plus(vector);
    var moved := Moved(t, p.distanceMoved, speed, vector);
    Motion(
      p.(throttle := throttle, steeringInput := steering, acceleration := acceleration, currentSpeed := speed,
         distanceMoved := moved, distanceTraveled := position.y,
         averageSpeed := AverageSpeed(moved, simulationTime), isDead := false),
      Pose(position, angle))
  }

  /** The adopted throttle and steering always lie in [-1, 1]. */
  lemma StepInputsInRange(p: CarPhysics, input: DriverInput, pose: Pose, simulationTime: real, timeDelta: real, t: Trig)
    ensures var m := Step(p, Some(input), pose, simulationTime, timeDelta, t);
      -1.0 <= m.physics.throttle <= 1.0 && -1.0 <= m.physics.steeringInput <= 1.0
  {
  }

  /** With non-negative speed limits the new speed respects them. */
  lemma StepSpeedWithinLimits(p: CarPhysics, input: Option<DriverInput>, pose: Pose, simulationTime: real, timeDelta: real, t: Trig)
    requires 0.0 <= p.maxReverseSpeed && 0.0 <= p.maxForwardSpeed
    ensures -p.maxReverseSpeed <= Step(p, input, pose, simulationTime, timeDelta, t).physics.currentSpeed <= p.maxForwardSpeed
  {
  }

  /** With lawful trigonometry and a forward time step, the moved distance
      grows by exactly the signed distance covered: speed times time. */
  lemma DistanceMovedIntegratesSpeed(p: CarPhysics, input: Option<DriverInput>, pose: Pose, simulationTime: real, timeDelta: real, t: Trig)
    requires Lawful(t) && timeDelta >= 0.0
    ensures var m := Step(p, input, pose, simulationTime, timeDelta, t);
      m.physics.distanceMoved == p.distanceMoved + m.physics.currentSpeed * timeDelta
  {
    var m := Step(p, input, pose, simulationTime, timeDelta, t);
    MovedBySpeed(t, p.distanceMoved, m.physics.currentSpeed, timeDelta, m.pose.angle);
  }

  lemma MovedBySpeed(t: Trig, moved: real, speed: real, timeDelta: real, angle: real)
    requires PythagorasLaw(t) && SqrtLaw(t) && timeDelta >= 0.0
    ensures Moved(t, moved, speed, Displacement(t, speed, timeDelta, angle)) == moved + speed * timeDelta
  {
    var d := speed * timeDelta;
    CirclePointLength(t, d, angle);
    if speed >= 0.0 {
      ProductNonNegative(speed, timeDelta);
    } else {
      ProductNonNegative(-speed, timeDelta);
      assert -d == (-speed) * timeDelta;
    }
  }

  /** A car at rest with no throttle stays at rest. */
  lemma RestStaysAtRest(p: CarPhysics, timeDelta: real)
    requires p.currentSpeed == 0.0 && p.throttle == 0.0
    requires 0.0 <= p.maxReverseSpeed && 0.0 <= p.maxForwardSpeed
    ensures ThrottleAcceleration(p, p.throttle, p.currentSpeed) + Drag(p, p.currentSpeed) == 0.0
    ensures NextSpeed(p, p.throttle, p.currentSpeed, 0.0, timeDelta) == 0.0
  {
    assert p.currentSpeed + 0.0 * timeDelta == 0.0;
  }

  /** A car at rest with no throttle and no input controller stays exactly
      where it is. */
  lemma RestIsStable(p: CarPhysics, pose: Pose, simulationTime: real, timeDelta: real, t: Trig)
    requires p.currentSpeed == 0.0 && p.throttle == 0.0
    requires 0.0 <= p.maxReverseSpeed && 0.0 <= p.maxForwardSpeed
    ensures var m := Step(p, None, pose, simulationTime, timeDelta, t);
      && m.physics.currentSpeed == 0.0
      && m.physics.acceleration == 0.0
      && m.pose.position == pose.position
  {
    var m := Step(p, None, pose, simulationTime, timeDelta, t);
    RestStaysAtRest(p, timeDelta);
    assert m.physics.acceleration == 0.0;
    assert m.physics.currentSpeed == 0.0;
    StandingStill(t, timeDelta, m.pose.angle, pose.position);
  }

  /** At zero speed the displacement leaves a position where it is. */
  lemma StandingStill(t: Trig, timeDelta: real, angle: real, position: Vec2)
    ensures position.Plus(Displacement(t, 0.0, timeDelta, angle)) == position
  {
    var v := Displacement(t, 0.0, timeDelta, angle);
    assert v.x == 0.0 && v.y == 0.0;
  }

  /** ... and its moved distance does not change either. */
  lemma RestMovesNothing(p: CarPhysics, pose: Pose, simulationTime: real, timeDelta: real, t: Trig)
    requires p.currentSpeed == 0.0 && p.throttle == 0.0
    requires 0.0 <= p.maxReverseSpeed && 0.0 <= p.maxForwardSpeed
    requires Lawful(t) && timeDelta >= 0.0
    ensures Step(p, None, pose, simulationTime, timeDelta, t).physics.distanceMoved == p.distanceMoved
  {
    var m := Step(p, None, pose, simulationTime, timeDelta, t);
    RestStaysAtRest(p, timeDelta);
    assert m.physics.acceleration == 0.0;
    assert m.physics.currentSpeed == 0.0;
    MovedBySpeed(t, p.distanceMoved, 0.0, timeDelta, m.pose.angle);
  }
}

=== FILE: sensors.dfy ===
/** The ranging sensor (`DistanceSensor`): a ray from a point fixed on the
    owner, pointing along the owner's heading plus the sensor's own angle,
    that reports the nearest hit as a distance and as a normalised value. */
module Sensors {
  import opened Collections
  import opened Geometry

  /** Position and angle are relative to the owner; `value` is the distance
      to the nearest hit (the range when nothing is hit) and
      `normalizedValue` is 1 at the sensor and 0 at the end of its range. */
  datatype DistanceSensor = DistanceSensor(position: Vec2, angle: real, range: real, value: real, normalizedValue: real)

  /** The sensor range when none is given. */
  const DefaultRange: real := 10.0

  /** The relation between the two readings that every sensor keeps. */
  predicate Consistent(s: DistanceSensor)
  {
    s.value == s.range * (1.0 - s.normalizedValue)
  }

  /** `new DistanceSensor(position, angle, range)`: nothing seen yet. */
  function NewDistanceSensor(position: Vec2, angle: real, range: real): (s: DistanceSensor)
    ensures s.position == position && s.angle == angle && s.range == range
    ensures s.value == range && s.normalizedValue == 0.0
    ensures Consistent(s)
  {
    DistanceSensor(position, angle, range, range, 0.0)
  }

  /** `new DistanceSensor(position, angle)`: the range defaults to
      `DefaultRange`. */
  function NewDefaultDistanceSensor(position: Vec2, angle: real): (s: DistanceSensor)
    ensures s.position == position && s.angle == angle && s.range == DefaultRange
    ensures s.value == DefaultRange && s.normalizedValue == 0.0
    ensures Consistent(s)
  {
    NewDistanceSensor(position, angle, DefaultRange)
  }

  /** The ray's direction and length: (0, range) turned by the owner's and
      the sensor's angle. The zero vector without an owner. */
  function SensorVector(t: Trig, s: DistanceSensor, owner: Option<Pose>): Vec2
  {
    match owner
    case None => Vec2(0.0, 0.0)
    case Some(pose) => Rotate(t, Vec2(0.0, s.range), pose.angle + s.angle)
  }

  /** Where the ray starts: the sensor's mounting point turned with the
      owner. The origin without an owner. */
  function StartPoint(t: Trig, s: DistanceSensor, owner: Option<Pose>): Vec2
  {
    match owner
    case None => Vec2(0.0, 0.0)
    case Some(pose) => pose.position.Plus(Rotate(t, s.position, pose.angle))
  }

  /** Where the ray ends. */
  function EndPoint(t: Trig, s: DistanceSensor, owner: Option<Pose>): Vec2
  {
    match owner
    case None => Vec2(0.0, 0.0)
    case Some(pose) => pose.position.Plus(Rotate(t, s.position, pose.angle)).Plus(SensorVector(t, s, owner))
  }

  /** The end point is the start point moved by the sensor vector, with or
      without an owner. */
  lemma EndIsStartPlusVector(t: Trig, s: DistanceSensor, owner: Option<Pose>)
    ensures EndPoint(t, s, owner) == StartPoint(t, s, owner).Plus(SensorVector(t, s, owner))
  {
  }

  /** The readings after a scan that found the hit positions `positions`
      (each a fraction of the ray): the nearest one decides; no hit reads
      as the full range. */
  function Sense(s: DistanceSensor, positions: seq<real>): (r: DistanceSensor)
    ensures r.position == s.position && r.angle == s.angle && r.range == s.range
    ensures |positions| == 0 ==> r.normalizedValue == 0.0 && r.value == s.range
    ensures |positions| > 0 ==>
      && r.normalizedValue + SeqMin(positions) == 1.0
      && r.value == s.range * SeqMin(positions)
      && (forall k :: 0 <= k < |positions| ==> r.normalizedValue >= 1.0 - positions[k])
      && (exists k :: 0 <= k < |positions| && r.normalizedValue == 1.0 - positions[k])
    ensures Consistent(r)
  {
    if |positions| > 0 then
      var closest := SeqMin(positions);
      s.(normalizedValue := 1.0 - closest, value := s.range * closest)
    else
      s.(normalizedValue := 0.0, value := s.range)
  }

  /** Every position in [0, 1] gives a normalised value in [0, 1] (inside
      the documented [-1, 1] of sensors) and a distance within the range. */
  lemma SenseInRange(s: DistanceSensor, positions: seq<real>)
    requires forall k :: 0 <= k < |positions| ==> InUnit(positions[k])
    requires s.range >= 0.0
    ensures InUnit(Sense(s, positions).normalizedValue)
    ensures 0.0 <= Sense(s, positions).value <= s.range
  {
    if |positions| > 0 {
      var m := SeqMin(positions);
      assert InUnit(m);
      ScaleWithinUnit(s.range, m);
    }
  }

  /** Where each hit lies along the ray, in order. */
  function Positions(hits: seq<Hit>): (r: seq<real>)
    ensures |r| == |hits| && forall k :: 0 <= k < |r| ==> r[k] == hits[k].position
  {
    if |hits| == 0 then []
    else [hits[0].position] + Positions(hits[1..])
  }

  /** A scan of the hit list `hits` reads the nearest of them: the
      normalised value is at least 1 − p for every hit at position p and
      equals 1 − p for one of them; with no hit it reads the full range.
      The distance is range·(1 − normalised value) either way, so it is
      range·p for the nearest hit. */
  lemma SenseNearestHit(sensor: DistanceSensor, hits: seq<Hit>)
    ensures var r := Sense(sensor, Positions(hits));
      && (forall h :: h in hits ==> r.normalizedValue >= 1.0 - h.position)
      && ((exists h :: h in hits && r.normalizedValue == 1.0 - h.position)
          || (|hits| == 0 && r.normalizedValue == 0.0 && r.value == sensor.range))
      && Consistent(r)
  {
    NearestBound(sensor, hits);
    if |hits| > 0 {
      var h := NearestWitness(sensor, hits);
    } else {
      assert Positions(hits) == [];
    }
  }

  /** No hit reads nearer than the scan. */
  lemma NearestBound(sensor: DistanceSensor, hits: seq<Hit>)
    ensures forall h :: h in hits ==> Sense(sensor, Positions(hits)).normalizedValue >= 1.0 - h.position
  {
    var positions := Positions(hits);
    forall h | h in hits
      ensures Sense(sensor, positions).normalizedValue >= 1.0 - h.position
    {
      var q :| 0 <= q < |hits| && hits[q] == h;
      assert positions[q] == h.position;
    }
  }

  /** Some hit is the one the scan reads. */
  lemma NearestWitness(sensor: DistanceSensor, hits: seq<Hit>) returns (h: Hit)
    requires |hits| > 0
    ensures var r := Sense(sensor, Positions(hits));
      h in hits && r.normalizedValue == 1.0 - h.position
  {
    var positions := Positions(hits);
    var r := Sense(sensor, positions);
    var q :| 0 <= q < |positions| && r.normalizedValue == 1.0 - positions[q];
    h := hits[q];
    assert positions[q] == h.position;
  }

  /** The sensor step: no owner, or an owner outside any graph, changes
      nothing; otherwise the scan's hit positions decide. */
  function SensorStep(s: DistanceSensor, ownerInGraph: bool, positions: seq<real>): (r: DistanceSensor)
    ensures !ownerInGraph ==> r == s
    ensures ownerInGraph ==> r == Sense(s, positions)
  {
    if ownerInGraph then Sense(s, positions) else s
  }
}

=== FILE: simulation.dfy ===
/** One simulation pass over the entities of a graph (`Entity.Simulate` for
    each entity in order): every sensor of an entity, in order, then every
    controller, in order. Components see the world as the components before
    them left it. The only fault a step can raise is the car collider's
    `First()` on an empty polygon list, which stops the pass with the
    earlier changes in place. */
module Simulation {
  import opened Collections
  import opened Geometry
  import opened Physics
  import opened Controllers
  import opened Sensors
  import opened Colliders
  import opened Entities

  /** What the world offers a frame besides the entities: the
      trigonometric functions and the keys currently down (the keyboard
      callback, read once per frame). */
  datatype Env = Env(trig: Trig, keys: KeyState)

  /** `InvalidOperationException` from `First()` on an empty sequence. */
  datatype Fault = SequenceContainsNoElements

  /** A component's `Simulate` was entered with these time arguments. */
  datatype Event =
    | SensorRan(entity: nat, sensor: nat, time: real, delta: real)
    | ControllerRan(entity: nat, controller: nat, time: real, delta: real)

  type World = seq<Entity>

  /** A world after a pass or part of one, the components entered, and the
      fault that stopped it, if any. */
  datatype Outcome = Outcome(world: World, trace: seq<Event>, fault: Option<Fault>)

  // ---------------------------------------------------------------------
  // What steps may change: component values and poses, never the lists'
  // lengths, the controllers' kinds, the parameters, colliders or graph
  // membership.

  predicate SameKind(a: Controller, b: Controller)
  {
    && a.RoadControl? == b.RoadControl?
    && a.CruiseControl? == b.CruiseControl?
    && a.KeyboardInput? == b.KeyboardInput?
    && a.NetworkInput? == b.NetworkInput?
    && a.PhysicsControl? == b.PhysicsControl?
  }

  predicate SameEntityLayout(a: Entity, b: Entity)
  {
    && a.inGraph == b.inGraph
    && a.parameters == b.parameters
    && a.colliders == b.colliders
    && |a.sensors| == |b.sensors|
    && |a.controllers| == |b.controllers|
    && forall k :: 0 <= k < |a.controllers| ==> SameKind(a.controllers[k], b.controllers[k])
  }

  predicate SameLayout(a: World, b: World)
  {
    |a| == |b| && forall j :: 0 <= j < |a| ==> SameEntityLayout(a[j], b[j])
  }

  /** Only entity i may have changed. */
  predicate OnlyChanged(a: World, b: World, i: nat)
  {
    |a| == |b| && forall j :: 0 <= j < |a| && j != i ==> a[j] == b[j]
  }

  /** Nothing after entity f has changed. */
  predicate UntouchedAfter(a: World, b: World, f: nat)
  {
    |a| == |b| && forall j :: f < j < |a| ==> a[j] == b[j]
  }

  /** Replacing entity i by one of the same layout changes only entity i
      and keeps the layout. */
  lemma ReplaceEntity(world: World, i: nat, e: Entity)
    requires i < |world| && SameEntityLayout(world[i], e)
    ensures OnlyChanged(world, world[i := e], i) && SameLayout(world, world[i := e])
  {
  }

  /** Replacing one controller by one of the same kind keeps the layout. */
  lemma ReplaceController(e: Entity, c: nat, x: Controller)
    requires c < |e.controllers| && SameKind(e.controllers[c], x)
    ensures SameEntityLayout(e, e.(controllers := e.controllers[c := x]))
  {
  }

  lemma LayoutTransitive(a: World, b: World, c: World, i: nat)
    requires OnlyChanged(a, b, i) && SameLayout(a, b)
    requires OnlyChanged(b, c, i) && SameLayout(b, c)
    ensures OnlyChanged(a, c, i) && SameLayout(a, c)
  {
  }

  // ---------------------------------------------------------------------
  // Sensors.

  /** The collision points of one entity's colliders from collider
      `from` on, collider by collider. */
  function EntityHits(t: Trig, e: Entity, from: nat, start: Vec2, end: Vec2): (hits: seq<Hit>)
    requires from <= |e.colliders|
    ensures forall k :: 0 <= k < |hits| ==> OnRay(start, end, hits[k])
    decreases |e.colliders| - from
  {
    if from == |e.colliders| then []
    else
      CollisionPoints(ShapeOf(t, e.colliders[from], Some(OwnerView(e))), start, end)
        + EntityHits(t, e, from + 1, start, end)
  }

  /** The entities other than entity i, in order. */
  function Others(world: World, i: nat): (r: World)
    requires i < |world|
    ensures |r| == |world| - 1
    ensures forall j :: 0 <= j < i ==> r[j] == world[j]
    ensures forall j :: i < j < |world| ==> r[j - 1] == world[j]
  {
    world[..i] + world[i + 1..]
  }

  /** The collision points of the colliders of entities `from` onwards,
      entity by entity. */
  function SceneHits(t: Trig, entities: World, from: nat, start: Vec2, end: Vec2): (hits: seq<Hit>)
    requires from <= |entities|
    ensures forall k :: 0 <= k < |hits| ==> OnRay(start, end, hits[k])
    decreases |entities| - from
  {
    if from == |entities| then []
    else EntityHits(t, entities[from], 0, start, end) + SceneHits(t, entities, from + 1, start, end)
  }

  /** The collision points a sensor of entity i sees: those of the
      colliders of every other entity, in entity order. */
  function OtherHits(t: Trig, world: World, i: nat, start: Vec2, end: Vec2): (hits: seq<Hit>)
    requires i < |world|
    ensures forall k :: 0 <= k < |hits| ==> OnRay(start, end, hits[k])
  {
    SceneHits(t, Others(world, i), 0, start, end)
  }

  /** What sensor s of entity i reads after a scan: unchanged outside a
      graph, otherwise the nearest hit on the colliders of the other
      entities decides. */
  function Reading(env: Env, world: World, i: nat, s: nat): (r: DistanceSensor)
    requires i < |world| && s < |world[i].sensors|
    ensures !world[i].inGraph ==> r == world[i].sensors[s]
    ensures world[i].inGraph ==>
      var sensor := world[i].sensors[s];
      var owner := Some(world[i].Pose());
      r == Sense(sensor, Positions(OtherHits(env.trig, world, i,
        StartPoint(env.trig, sensor, owner), EndPoint(env.trig, sensor, owner))))
  {
    var sensor := world[i].sensors[s];
    var owner := Some(world[i].Pose());
    var hits := OtherHits(env.trig, world, i, StartPoint(env.trig, sensor, owner), EndPoint(env.trig, sensor, owner));
    SensorStep(sensor, world[i].inGraph, Positions(hits))
  }

  /** `DistanceSensor.Simulate` for sensor s of entity i. */
  function SensorUpdate(env: Env, world: World, i: nat, s: nat): (r: World)
    requires i < |world| && s < |world[i].sensors|
    ensures OnlyChanged(world, r, i) && SameLayout(world, r)
    ensures r[i] == world[i].(sensors := r[i].sensors)
    ensures r[i].sensors == world[i].sensors[s := r[i].sensors[s]]
    ensures !world[i].inGraph ==> r == world
    ensures r[i].sensors[s] == Reading(env, world, i, s)
  {
    var e := world[i];
    var sensed := Reading(env, world, i, s);
    var e' := e.(sensors := e.sensors[s := sensed]);
    ReplaceEntity(world, i, e');
    assert !e.inGraph ==> e' == e;
    world[i := e']
  }

  /** A sensor with a non-negative range reads a normalised value in [0, 1]
      and a distance within its range after every scan: every hit lies on
      the finite ray. */
  lemma SensorUpdateInRange(env: Env, world: World, i: nat, s: nat)
    requires i < |world| && s < |world[i].sensors|
    requires world[i].sensors[s].range >= 0.0
    requires world[i].inGraph
    ensures InUnit(SensorUpdate(env, world, i, s)[i].sensors[s].normalizedValue)
    ensures 0.0 <= SensorUpdate(env, world, i, s)[i].sensors[s].value <= world[i].sensors[s].range
    ensures Consistent(SensorUpdate(env, world, i, s)[i].sensors[s])
  {
    var e := world[i];
    var sensor := e.sensors[s];
    var owner := Some(e.Pose());
    var hits := OtherHits(env.trig, world, i, StartPoint(env.trig, sensor, owner), EndPoint(env.trig, sensor, owner));
    SenseInRange(sensor, Positions(hits));
  }

  /** The scan does not depend on the scanning entity's own colliders (nor
      on anything else about the scanning entity besides its pose): any
      replacement entity at the same pose sees the same hits. */
  lemma OwnCollidersIgnored(t: Trig, world: World, i: nat, other: Entity, start: Vec2, end: Vec2)
    requires i < |world|
    ensures OtherHits(t, world[i := other], i, start, end) == OtherHits(t, world, i, start, end)
  {
    OthersIgnoreEntity(world, i, other);
  }

  /** Replacing entity i leaves the other entities as they were. */
  lemma OthersIgnoreEntity(world: World, i: nat, other: Entity)
    requires i < |world|
    ensures Others(world[i := other], i) == Others(world, i)
  {
    assert world[i := other][..i] == world[..i];
    assert world[i := other][i + 1..] == world[i + 1..];
  }

  // Where the hits a sensor sees come from: exactly the collision points
  // of the colliders of the other entities.

  /** Hit h is a collision point of collider k of entity e. */
  predicate ColliderHit(t: Trig, e: Entity, k: nat, start: Vec2, end: Vec2, h: Hit)
    requires k < |e.colliders|
  {
    h in CollisionPoints(ShapeOf(t, e.colliders[k], Some(OwnerView(e))), start, end)
  }

  /** Hit h is a collision point of some collider of entity e. */
  predicate EntityHit(t: Trig, e: Entity, start: Vec2, end: Vec2, h: Hit)
  {
    exists k :: 0 <= k < |e.colliders| && ColliderHit(t, e, k, start, end, h)
  }

  /** Hit h is a collision point of collider k of entity j, which is not
      entity i. */
  predicate SeenBy(t: Trig, world: World, i: nat, j: nat, k: nat, start: Vec2, end: Vec2, h: Hit)
  {
    && 0 <= j < |world| && j != i && 0 <= k < |world[j].colliders|
    && h in CollisionPoints(ColliderShape(t, world, j, k), start, end)
  }

  /** An entity's hits from collider `from` on are exactly the collision
      points of those colliders. */
  lemma {:induction false} EntityHitsAreColliderHits(t: Trig, e: Entity, from: nat, start: Vec2, end: Vec2, h: Hit)
    requires from <= |e.colliders|
    ensures h in EntityHits(t, e, from, start, end) <==>
      exists k :: from <= k < |e.colliders| && ColliderHit(t, e, k, start, end, h)
    decreases |e.colliders| - from
  {
    if from < |e.colliders| {
      EntityHitsAreColliderHits(t, e, from + 1, start, end, h);
      var here := CollisionPoints(ShapeOf(t, e.colliders[from], Some(OwnerView(e))), start, end);
      var rest := EntityHits(t, e, from + 1, start, end);
      assert EntityHits(t, e, from, start, end) == here + rest;
      if h in here {
        assert ColliderHit(t, e, from, start, end, h);
      } else if h in rest {
        var k :| from + 1 <= k < |e.colliders| && ColliderHit(t, e, k, start, end, h);
        assert from <= k;
      } else {
        forall k | from <= k < |e.colliders| && ColliderHit(t, e, k, start, end, h)
          ensures false
        {
          if k == from {
          }
        }
      }
    } else {
      assert EntityHits(t, e, from, start, end) == [];
    }
  }

  /** The hits of entities `from` on are exactly their entity hits. */
  lemma {:induction false} SceneHitsAreEntityHits(t: Trig, entities: World, from: nat, start: Vec2, end: Vec2, h: Hit)
    requires from <= |entities|
    ensures h in SceneHits(t, entities, from, start, end) <==>
      exists j :: from <= j < |entities| && EntityHit(t, entities[j], start, end, h)
    decreases |entities| - from
  {
    if from < |entities| {
      SceneHitsAreEntityHits(t, entities, from + 1, start, end, h);
      EntityHitsAreColliderHits(t, entities[from], 0, start, end, h);
      var here := EntityHits(t, entities[from], 0, start, end);
      var rest := SceneHits(t, entities, from + 1, start, end);
      assert SceneHits(t, entities, from, start, end) == here + rest;
      assert h in here <==> EntityHit(t, entities[from], start, end, h);
      if h in here {
        assert EntityHit(t, entities[from], start, end, h);
      } else if h in rest {
        var j :| from + 1 <= j < |entities| && EntityHit(t, entities[j], start, end, h);
        assert from <= j;
      } else {
        forall j | from <= j < |entities| && EntityHit(t, entities[j], start, end, h)
          ensures false
        {
          if j == from {
          }
        }
      }
    } else {
      assert SceneHits(t, entities, from, start, end) == [];
    }
  }

  /** The hits a sensor of entity i sees are exactly the collision points
      of the colliders of the other entities: none is missed and none is
      made up. */
  lemma OtherHitsAreOthersColliderHits(t: Trig, world: World, i: nat, start: Vec2, end: Vec2, h: Hit)
    requires i < |world|
    ensures h in OtherHits(t, world, i, start, end) <==>
      exists j, k :: SeenBy(t, world, i, j, k, start, end, h)
  {
    if h in OtherHits(t, world, i, start, end) {
      OtherHitsSound(t, world, i, start, end, h);
    }
    if exists j, k :: SeenBy(t, world, i, j, k, start, end, h) {
      var j, k :| SeenBy(t, world, i, j, k, start, end, h);
      OtherHitsComplete(t, world, i, j, k, start, end, h);
    }
  }

  /** Every hit a sensor sees is a collision point of another entity's
      collider. */
  lemma OtherHitsSound(t: Trig, world: World, i: nat, start: Vec2, end: Vec2, h: Hit)
    requires i < |world|
    ensures h in OtherHits(t, world, i, start, end) ==> exists j, k :: SeenBy(t, world, i, j, k, start, end, h)
  {
    if h in OtherHits(t, world, i, start, end) {
      var others := Others(world, i);
      SceneHitsAreEntityHits(t, others, 0, start, end, h);
      var q :| 0 <= q < |others| && EntityHit(t, others[q], start, end, h);
      var j := if q < i then q else q + 1;
      assert others[q] == world[j];
      var k :| 0 <= k < |world[j].colliders| && ColliderHit(t, world[j], k, start, end, h);
      SeenByIsColliderHit(t, world, i, j, k, start, end, h);
    }
  }

  /** Every collision point of another entity's collider is seen. */
  lemma OtherHitsComplete(t: Trig, world: World, i: nat, j: nat, k: nat, start: Vec2, end: Vec2, h: Hit)
    requires i < |world| && SeenBy(t, world, i, j, k, start, end, h)
    ensures h in OtherHits(t, world, i, start, end)
  {
    var others := Others(world, i);
    SeenByIsColliderHit(t, world, i, j, k, start, end, h);
    var q := if j < i then j else j - 1;
    assert others[q] == world[j];
    assert EntityHit(t, others[q], start, end, h);
    SceneHitsAreEntityHits(t, others, 0, start, end, h);
  }

  /** `SeenBy` is `ColliderHit` on entity j. */
  lemma SeenByIsColliderHit(t: Trig, world: World, i: nat, j: nat, k: nat, start: Vec2, end: Vec2, h: Hit)
    requires j < |world| && j != i && k < |world[j].colliders|
    ensures SeenBy(t, world, i, j, k, start, end, h) <==> ColliderHit(t, world[j], k, start, end, h)
  {
  }

  /** What a sensor reads is decided by the nearest collision point on the
      colliders of the other entities: its normalised value is at least
      1 − p for every such point at position p and it is 1 − p for one of
      them; with no such point it reads the full range. The distance is
      range·(1 − normalised value) either way. */
  lemma ReadingSeesNearest(env: Env, world: World, i: nat, s: nat)
    requires i < |world| && s < |world[i].sensors| && world[i].inGraph
    ensures var sensor := world[i].sensors[s];
      var start := StartPoint(env.trig, sensor, Some(world[i].Pose()));
      var end := EndPoint(env.trig, sensor, Some(world[i].Pose()));
      var r := Reading(env, world, i, s);
      && (forall j, k, h :: SeenBy(env.trig, world, i, j, k, start, end, h) ==> r.normalizedValue >= 1.0 - h.position)
      && ((exists j, k, h ::
            && SeenBy(env.trig, world, i, j, k, start, end, h)
            && r.normalizedValue == 1.0 - h.position)
          || ((forall j, k, h :: !SeenBy(env.trig, world, i, j, k, start, end, h))
              && r.normalizedValue == 0.0 && r.value == sensor.range))
      && Consistent(r)
  {
    var sensor := world[i].sensors[s];
    var start := StartPoint(env.trig, sensor, Some(world[i].Pose()));
    var end := EndPoint(env.trig, sensor, Some(world[i].Pose()));
    var hits := OtherHits(env.trig, world, i, start, end);
    var r := Reading(env, world, i, s);
    assert r == Sense(sensor, Positions(hits));
    SenseNearestHit(sensor, hits);
    forall j, k, h | SeenBy(env.trig, world, i, j, k, start, end, h)
      ensures h in hits
    {
      OtherHitsComplete(env.trig, world, i, j, k, start, end, h);
    }
    if |hits| > 0 {
      var h :| h in hits && r.normalizedValue == 1.0 - h.position;
      OtherHitsSound(env.trig, world, i, start, end, h);
    }
  }

  // ---------------------------------------------------------------------
  // The physics controller and the collision check.

  predicate IsCarCollider(c: Collider) { c.CarCollider? }

  predicate IsPhysicsController(c: Controller) { c.PhysicsControl? }

  /** The first input controller's offer, if the entity has one. */
  function InputFor(e: Entity): (r: Option<DriverInput>)
    ensures r.None? <==> forall k :: 0 <= k < |e.controllers| ==> !IsInputController(e.controllers[k])
    ensures r.Some? ==>
      exists k ::
        && 0 <= k < |e.controllers| && IsInputController(e.controllers[k])
        && r.value == InputOf(e.controllers[k])
        && forall j :: 0 <= j < k ==> !IsInputController(e.controllers[j])
  {
    match GetController(e, IsInputController)
    case None => None
    case Some(c) => Some(InputOf(c))
  }

  /** Entity j is another entity with no physics controller. */
  predicate IsCandidate(world: World, i: nat, j: nat)
    requires j < |world|
  {
    j != i && GetController(world[j], IsPhysicsController).None?
  }

  /** The geometry of collider k of entity j, for that entity. */
  function ColliderShape(t: Trig, world: World, j: nat, k: nat): Shape
    requires j < |world| && k < |world[j].colliders|
  {
    ShapeOf(t, world[j].colliders[k], Some(OwnerView(world[j])))
  }

  /** Some other entity without a physics controller has a collider: the
      candidates the car can crash into are not all absent. */
  predicate HasCandidate(world: World, i: nat)
  {
    exists j :: 0 <= j < |world| && IsCandidate(world, i, j) && |world[j].colliders| > 0
  }

  /** The car polygon of entity i hits some collider of a candidate. The
      order in which the candidates are tried does not matter for the
      answer, so it is not modelled. */
  predicate Crashed(t: Trig, world: World, i: nat)
    requires i < |world|
  {
    var polygons := CarPolygons(t, Some(OwnerView(world[i])));
    && |polygons| > 0
    && exists j, k ::
      && 0 <= j < |world| && IsCandidate(world, i, j) && 0 <= k < |world[j].colliders|
      && Collides(ColliderShape(t, world, j, k), polygons[0])
  }

  /** Physics controller c of entity i marks the car dead at `time`. */
  function Kill(world: World, i: nat, c: nat, time: real): (r: World)
    requires i < |world| && c < |world[i].controllers| && world[i].controllers[c].PhysicsControl?
    ensures OnlyChanged(world, r, i) && SameLayout(world, r)
    ensures r[i] == world[i].(controllers := r[i].controllers)
    ensures r[i].controllers == world[i].controllers[c := r[i].controllers[c]]
    ensures r[i].controllers[c].PhysicsControl?
    ensures var before := world[i].controllers[c].physics;
      r[i].controllers[c].physics == before.(isDead := true, timeOfDeath := time)
  {
    var e := world[i];
    var p := e.controllers[c].physics;
    var x := PhysicsControl(p.(isDead := true, timeOfDeath := time));
    ReplaceController(e, c, x);
    ReplaceEntity(world, i, e.(controllers := e.controllers[c := x]));
    world[i := e.(controllers := e.controllers[c := x])]
  }

  /** The car has a car collider and at least one candidate to hit. */
  predicate Exposed(world: World, i: nat)
    requires i < |world|
  {
    GetCollider(world[i], IsCarCollider).Some? && HasCandidate(world, i)
  }

  /** The collision check: with a car collider and at least one candidate,
      the car polygon is needed (a fault when there is none) and any hit
      kills the car at `time`. */
  function Collide(t: Trig, world: World, i: nat, c: nat, time: real): (r: Outcome)
    requires i < |world| && c < |world[i].controllers| && world[i].controllers[c].PhysicsControl?
    ensures r.trace == [] && OnlyChanged(world, r.world, i) && SameLayout(world, r.world)
    ensures r.fault.Some? <==> Exposed(world, i) && |CarPolygons(t, Some(OwnerView(world[i])))| == 0
    ensures Exposed(world, i) && Crashed(t, world, i) ==> r.world == Kill(world, i, c, time)
    ensures !(Exposed(world, i) && Crashed(t, world, i)) ==> r.world == world
  {
    var e := world[i];
    var polygons := CarPolygons(t, Some(OwnerView(e)));
    if !Exposed(world, i) then
      Outcome(world, [], None)
    else if |polygons| == 0 then
      Outcome(world, [], Some(SequenceContainsNoElements))
    else if Crashed(t, world, i) then
      Outcome(Kill(world, i, c, time), [], None)
    else
      Outcome(world, [], None)
  }

  /** The world after the kinematic step of physics controller c of entity
      i: the entity's pose and that controller's state. */
  function Drive(t: Trig, world: World, i: nat, c: nat, time: real, timeDelta: real): (r: World)
    requires i < |world| && c < |world[i].controllers| && world[i].controllers[c].PhysicsControl?
    ensures OnlyChanged(world, r, i) && SameLayout(world, r)
    ensures var m := Step(world[i].controllers[c].physics, InputFor(world[i]), world[i].Pose(), time, timeDelta, t);
      && r[i].Pose() == m.pose
      && r[i].controllers == world[i].controllers[c := PhysicsControl(m.physics)]
      && r[i].controllers[c].PhysicsControl?
      && r[i].sensors == world[i].sensors
  {
    var e := world[i];
    var m := Step(e.controllers[c].physics, InputFor(e), e.Pose(), time, timeDelta, t);
    var x := PhysicsControl(m.physics);
    ReplaceController(e, c, x);
    var e' := e.(position := m.pose.position, angle := m.pose.angle, controllers := e.controllers[c := x]);
    ReplaceEntity(world, i, e');
    world[i := e']
  }

  /** `CarPhysicsController.Simulate`: nothing for a dead car or one outside
      a graph; otherwise the kinematic step, then the collision check on the
      moved car. */
  function PhysicsUpdate(t: Trig, world: World, i: nat, c: nat, time: real, timeDelta: real): (r: Outcome)
    requires i < |world| && c < |world[i].controllers| && world[i].controllers[c].PhysicsControl?
    ensures OnlyChanged(world, r.world, i) && SameLayout(world, r.world) && r.trace == []
    ensures world[i].controllers[c].physics.isDead || !world[i].inGraph ==> r == Outcome(world, [], None)
    ensures !(world[i].controllers[c].physics.isDead || !world[i].inGraph) ==>
      r == Collide(t, Drive(t, world, i, c, time, timeDelta), i, c, time)
  {
    if world[i].controllers[c].physics.isDead || !world[i].inGraph then
      Outcome(world, [], None)
    else
      var moved := Drive(t, world, i, c, time, timeDelta);
      var r := Collide(t, moved, i, c, time);
      LayoutTransitive(world, moved, r.world, i);
      r
  }

  /** Death is one-way and has a single cause: a dead car's state never
      changes, and a car that was alive dies only when its moved polygon
      hits a candidate collider, with the time of death set to the current
      simulation time. */
  lemma DeathIsFinalAndCaused(t: Trig, world: World, i: nat, c: nat, time: real, timeDelta: real)
    requires i < |world| && c < |world[i].controllers| && world[i].controllers[c].PhysicsControl?
    ensures var r := PhysicsUpdate(t, world, i, c, time, timeDelta);
      world[i].controllers[c].physics.isDead ==> r.world == world
    ensures var r := PhysicsUpdate(t, world, i, c, time, timeDelta);
      var after := r.world[i].controllers[c].physics;
      !world[i].controllers[c].physics.isDead && after.isDead ==>
        && after.timeOfDeath == time
        && Crashed(t, Drive(t, world, i, c, time, timeDelta), i)
        && GetCollider(world[i], IsCarCollider).Some?
  {
  }

  /** The physics step faults exactly when a live car in a graph, after
      moving, is exposed to a candidate collider and its own collider has
      no polygon; a fault leaves the moved car in place, because the pose
      was updated before the polygon was needed. */
  lemma FaultAfterMove(t: Trig, world: World, i: nat, c: nat, time: real, timeDelta: real)
    requires i < |world| && c < |world[i].controllers| && world[i].controllers[c].PhysicsControl?
    ensures var r := PhysicsUpdate(t, world, i, c, time, timeDelta);
      var moved := Drive(t, world, i, c, time, timeDelta);
      r.fault.Some? <==>
        && world[i].inGraph && !world[i].controllers[c].physics.isDead
        && Exposed(moved, i) && |CarPolygons(t, Some(OwnerView(moved[i])))| == 0
    ensures var r := PhysicsUpdate(t, world, i, c, time, timeDelta);
      r.fault.Some? ==> r.world == Drive(t, world, i, c, time, timeDelta) && GetCollider(world[i], IsCarCollider).Some?
  {
  }

  /** The entity has a car parameter set, so its car collider has a
      polygon. */
  predicate HasCarParameters(e: Entity)
  {
    exists k :: 0 <= k < |e.parameters| && e.parameters[k].CarParameters?
  }

  /** The collision check of entity i would fault: it is in a graph,
      exposed, and has no car parameter set. None of this changes while
      the entities run: it depends on membership, parameters, colliders and
      controller kinds only. */
  predicate CheckWouldFault(world: World, i: nat)
    requires i < |world|
  {
    world[i].inGraph && Exposed(world, i) && !HasCarParameters(world[i])
  }

  /** Entity i has a live physics controller from controller `from` on. */
  predicate LiveCarFrom(e: Entity, from: nat)
  {
    exists k :: from <= k < |e.controllers| && e.controllers[k].PhysicsControl? && !e.controllers[k].physics.isDead
  }

  /** Entity i's step faults: its collision check would fault and some
      physics controller of it is alive to run the check. */
  predicate EntityFaults(world: World, i: nat)
    requires i < |world|
  {
    CheckWouldFault(world, i) && LiveCarFrom(world[i], 0)
  }

  /** The car polygon is missing exactly when there is no car parameter
      set. */
  lemma NoPolygonWithoutParameters(t: Trig, e: Entity)
    ensures |CarPolygons(t, Some(OwnerView(e)))| == 0 <==> !HasCarParameters(e)
  {
  }

  /** Whether an entity has a physics controller depends on the kinds of
      its controllers only. */
  lemma PhysicsFreeFollowsLayout(a: Entity, b: Entity)
    requires SameEntityLayout(a, b)
    ensures GetController(a, IsPhysicsController).None? <==> GetController(b, IsPhysicsController).None?
  {
    assert forall k :: 0 <= k < |a.controllers| ==> SameKind(a.controllers[k], b.controllers[k]);
  }

  /** Exposure depends on the layout only. */
  lemma ExposedFollowsLayout(a: World, b: World, i: nat)
    requires SameLayout(a, b) && i < |a|
    ensures Exposed(a, i) <==> Exposed(b, i)
  {
    assert a[i].colliders == b[i].colliders;
    forall j | 0 <= j < |a|
      ensures IsCandidate(a, i, j) <==> IsCandidate(b, i, j)
      ensures |a[j].colliders| == |b[j].colliders|
    {
      PhysicsFreeFollowsLayout(a[j], b[j]);
    }
    if HasCandidate(a, i) {
      var j :| 0 <= j < |a| && IsCandidate(a, i, j) && |a[j].colliders| > 0;
      assert IsCandidate(b, i, j) && |b[j].colliders| > 0;
    }
    if HasCandidate(b, i) {
      var j :| 0 <= j < |b| && IsCandidate(b, i, j) && |b[j].colliders| > 0;
      assert IsCandidate(a, i, j) && |a[j].colliders| > 0;
    }
  }

  /** Whether the collision check would fault depends on the layout only. */
  lemma CheckFollowsLayout(a: World, b: World, i: nat)
    requires SameLayout(a, b) && i < |a|
    ensures CheckWouldFault(a, i) <==> CheckWouldFault(b, i)
  {
    ExposedFollowsLayout(a, b, i);
    assert SameEntityLayout(a[i], b[i]);
  }

  /** The physics step of controller c touches that controller and the
      pose only, and faults exactly when the car is alive and the
      collision check would fault. */
  lemma PhysicsUpdateScope(t: Trig, world: World, i: nat, c: nat, time: real, timeDelta: real)
    requires i < |world| && c < |world[i].controllers| && world[i].controllers[c].PhysicsControl?
    ensures var r := PhysicsUpdate(t, world, i, c, time, timeDelta);
      && r.world[i].sensors == world[i].sensors
      && (forall k :: 0 <= k < |world[i].controllers| && k != c ==> r.world[i].controllers[k] == world[i].controllers[k])
      && (r.fault.Some? <==> !world[i].controllers[c].physics.isDead && CheckWouldFault(world, i))
  {
    if !(world[i].controllers[c].physics.isDead || !world[i].inGraph) {
      var moved := Drive(t, world, i, c, time, timeDelta);
      FaultAfterMove(t, world, i, c, time, timeDelta);
      ExposedFollowsLayout(world, moved, i);
      NoPolygonWithoutParameters(t, moved[i]);
      assert SameEntityLayout(world[i], moved[i]);
      if Exposed(moved, i) && Crashed(t, moved, i) {
        assert Kill(moved, i, c, time)[i].sensors == moved[i].sensors;
      }
    }
  }

  // ---------------------------------------------------------------------
  // The other controllers.

  /** The owner's sensors' normalised values, in insertion order. */
  function SensorValues(e: Entity): (values: seq<real>)
    ensures |values| == |e.sensors|
    ensures forall k :: 0 <= k < |values| ==> values[k] == e.sensors[k].normalizedValue
  {
    NormalizedValues(e.sensors)
  }

  function NormalizedValues(sensors: seq<DistanceSensor>): (values: seq<real>)
    ensures |values| == |sensors|
    ensures forall k :: 0 <= k < |values| ==> values[k] == sensors[k].normalizedValue
  {
    if |sensors| == 0 then [] else [sensors[0].normalizedValue] + NormalizedValues(sensors[1..])
  }

  /** `Simulate` of controller c of entity i. Every controller runs with
      its owner present, since attaching sets the owner. */
  function ControllerUpdate(env: Env, world: World, i: nat, c: nat, time: real, timeDelta: real): (r: Outcome)
    requires i < |world| && c < |world[i].controllers|
    ensures OnlyChanged(world, r.world, i) && SameLayout(world, r.world) && r.trace == []
    ensures r.fault.Some? ==> world[i].controllers[c].PhysicsControl?
    ensures world[i].controllers[c].RoadControl? ==> r == Outcome(world, [], None)
    ensures world[i].controllers[c].CruiseControl? ==>
      r.world[i] == world[i].(position := r.world[i].position)
      && Some(r.world[i].Pose()) == Cruise(world[i].controllers[c].cruise, Some(world[i].Pose()), timeDelta)
    ensures world[i].controllers[c].KeyboardInput? ==>
      r.world[i] == world[i].(controllers := world[i].controllers[c :=
        KeyboardInput(KeyboardStep(world[i].controllers[c].keyboard, env.keys))])
    ensures world[i].controllers[c].NetworkInput? ==>
      r.world[i] == world[i].(controllers := world[i].controllers[c :=
        NetworkInput(NetworkStep(world[i].controllers[c].network, Some(SensorValues(world[i]))))])
    ensures world[i].controllers[c].PhysicsControl? ==> r == PhysicsUpdate(env.trig, world, i, c, time, timeDelta)
  {
    var e := world[i];
    match e.controllers[c]
    case RoadControl(_) => Outcome(world, [], None)
    case CruiseControl(cruise) =>
      var pose := Cruise(cruise, Some(e.Pose()), timeDelta).value;
      var e' := e.(position := pose.position, angle := pose.angle);
      ReplaceEntity(world, i, e');
      Outcome(world[i := e'], [], None)
    case KeyboardInput(k) =>
      var x := KeyboardInput(KeyboardStep(k, env.keys));
      ReplaceController(e, c, x);
      ReplaceEntity(world, i, e.(controllers := e.controllers[c := x]));
      Outcome(world[i := e.(controllers := e.controllers[c := x])], [], None)
    case NetworkInput(n) =>
      var x := NetworkInput(NetworkStep(n, Some(SensorValues(e))));
      ReplaceController(e, c, x);
      ReplaceEntity(world, i, e.(controllers := e.controllers[c := x]));
      Outcome(world[i := e.(controllers := e.controllers[c := x])], [], None)
    case PhysicsControl(_) => PhysicsUpdate(env.trig, world, i, c, time, timeDelta)
  }

  // ---------------------------------------------------------------------
  // `Entity.Simulate` and the pass over all entities.

  /** `ControllerUpdate` seen from the entity's loop: it changes only
      entity i, none of its sensors and none of its other controllers, and
      faults exactly at a live physics controller whose collision check
      would fault. `ControllerStepIsUpdate` states that it is that
      update. */
  function ControllerStep(env: Env, world: World, i: nat, c: nat, time: real, timeDelta: real): (r: Outcome)
    requires i < |world| && c < |world[i].controllers|
    ensures OnlyChanged(world, r.world, i) && SameLayout(world, r.world) && r.trace == []
    ensures r.world[i].sensors == world[i].sensors
    ensures forall k :: 0 <= k < |world[i].controllers| && k != c ==> r.world[i].controllers[k] == world[i].controllers[k]
    ensures r.fault.Some? <==>
      && world[i].controllers[c].PhysicsControl?
      && !world[i].controllers[c].physics.isDead
      && CheckWouldFault(world, i)
  {
    if world[i].controllers[c].PhysicsControl? then
      PhysicsUpdateScope(env.trig, world, i, c, time, timeDelta);
      ControllerUpdate(env, world, i, c, time, timeDelta)
    else
      ControllerUpdate(env, world, i, c, time, timeDelta)
  }

  /** The step of controller c is that controller's `Simulate`: what it
      does to controller c and to the pose is `ControllerUpdate`'s (for a
      physics controller, `PhysicsUpdate`'s). */
  lemma ControllerStepIsUpdate(env: Env, world: World, i: nat, c: nat, time: real, timeDelta: real)
    requires i < |world| && c < |world[i].controllers|
    ensures ControllerStep(env, world, i, c, time, timeDelta) == ControllerUpdate(env, world, i, c, time, timeDelta)
    ensures world[i].controllers[c].PhysicsControl? ==>
      ControllerStep(env, world, i, c, time, timeDelta) == PhysicsUpdate(env.trig, world, i, c, time, timeDelta)
  {
  }

  function SensorEvents(i: nat, from: nat, until: nat, time: real, timeDelta: real): (r: seq<Event>)
    requires from <= until
    ensures |r| == until - from
    ensures forall k :: 0 <= k < |r| ==> r[k] == SensorRan(i, from + k, time, timeDelta)
    decreases until - from
  {
    if from == until then [] else [SensorRan(i, from, time, timeDelta)] + SensorEvents(i, from + 1, until, time, timeDelta)
  }

  function ControllerEvents(i: nat, from: nat, until: nat, time: real, timeDelta: real): (r: seq<Event>)
    requires from <= until
    ensures |r| == until - from
    ensures forall k :: 0 <= k < |r| ==> r[k] == ControllerRan(i, from + k, time, timeDelta)
    decreases until - from
  {
    if from == until then [] else [ControllerRan(i, from, time, timeDelta)] + ControllerEvents(i, from + 1, until, time, timeDelta)
  }

  /** The first event of a run of sensor events, and the rest. */
  lemma SensorEventsCons(i: nat, from: nat, to: nat, time: real, timeDelta: real)
    requires from < to
    ensures SensorEvents(i, from, to, time, timeDelta)
      == [SensorRan(i, from, time, timeDelta)] + SensorEvents(i, from + 1, to, time, timeDelta)
  {
  }

  /** The first event of a run of controller events, and the rest. */
  lemma ControllerEventsCons(i: nat, from: nat, to: nat, time: real, timeDelta: real)
    requires from < to
    ensures ControllerEvents(i, from, to, time, timeDelta)
      == [ControllerRan(i, from, time, timeDelta)] + ControllerEvents(i, from + 1, to, time, timeDelta)
  {
  }

  /** Sensors `from` onwards of entity i, in order. */
  function RunSensors(env: Env, world: World, i: nat, from: nat, time: real, timeDelta: real): (r: Outcome)
    requires i < |world| && from <= |world[i].sensors|
    ensures OnlyChanged(world, r.world, i) && SameLayout(world, r.world)
    ensures r.fault.None?
    ensures r.trace == SensorEvents(i, from, |world[i].sensors|, time, timeDelta)
    ensures r.world[i] == world[i].(sensors := r.world[i].sensors)
    ensures forall s :: 0 <= s < from ==> r.world[i].sensors[s] == world[i].sensors[s]
    ensures forall s :: from <= s < |world[i].sensors| ==> r.world[i].sensors[s] == Reading(env, world, i, s)
    decreases |world[i].sensors| - from
  {
    if from == |world[i].sensors| then Outcome(world, [], None)
    else
      var next := SensorUpdate(env, world, i, from);
      assert SameEntityLayout(world[i], next[i]);
      var rest := RunSensors(env, next, i, from + 1, time, timeDelta);
      LayoutTransitive(world, next, rest.world, i);
      LaterReadingsUnchanged(env, world, i, from, next[i]);
      SensorEventsCons(i, from, |world[i].sensors|, time, timeDelta);
      Outcome(rest.world, [SensorRan(i, from, time, timeDelta)] + rest.trace, None)
  }

  /** Sensor `from`'s scan changes no later sensor's reading: a reading
      depends on the other entities, the entity's pose and membership, and
      the sensor itself. */
  lemma LaterReadingsUnchanged(env: Env, world: World, i: nat, from: nat, e: Entity)
    requires i < |world| && from < |world[i].sensors|
    requires e == world[i].(sensors := e.sensors) && |e.sensors| == |world[i].sensors|
    requires forall s :: from < s < |e.sensors| ==> e.sensors[s] == world[i].sensors[s]
    ensures forall s :: from < s < |world[i].sensors| ==> Reading(env, world[i := e], i, s) == Reading(env, world, i, s)
  {
    forall s | from < s < |world[i].sensors|
      ensures Reading(env, world[i := e], i, s) == Reading(env, world, i, s)
    {
      var sensor := world[i].sensors[s];
      var owner := Some(world[i].Pose());
      OwnCollidersIgnored(env.trig, world, i, e, StartPoint(env.trig, sensor, owner), EndPoint(env.trig, sensor, owner));
    }
  }

  /** Controllers `from` onwards of entity i, in order, stopping at a
      fault. */
  function RunControllers(env: Env, world: World, i: nat, from: nat, time: real, timeDelta: real): (r: Outcome)
    requires i < |world| && from <= |world[i].controllers|
    ensures OnlyChanged(world, r.world, i) && SameLayout(world, r.world)
    ensures r.fault.None? ==> r.trace == ControllerEvents(i, from, |world[i].controllers|, time, timeDelta)
    ensures r.fault.Some? ==>
      exists k ::
        && from <= k < |world[i].controllers|
        && world[i].controllers[k].PhysicsControl?
        && r.trace == ControllerEvents(i, from, k + 1, time, timeDelta)
    decreases |world[i].controllers| - from
  {
    if from == |world[i].controllers| then Outcome(world, [], None)
    else
      var step := ControllerStep(env, world, i, from, time, timeDelta);
      var event := ControllerRan(i, from, time, timeDelta);
      assert SameEntityLayout(world[i], step.world[i]);
      assert |step.world[i].controllers| == |world[i].controllers|;
      if step.fault.Some? then
        assert world[i].controllers[from].PhysicsControl?;
        assert ControllerEvents(i, from, from + 1, time, timeDelta) == [event];
        Outcome(step.world, [event], step.fault)
      else
        var rest := RunControllers(env, step.world, i, from + 1, time, timeDelta);
        LayoutTransitive(world, step.world, rest.world, i);
        ControllerEventsCons(i, from, |world[i].controllers|, time, timeDelta);
        RunControllersFault(world, step.world, rest, i, from, time, timeDelta);
        Outcome(rest.world, [event] + rest.trace, rest.fault)
  }

  /** The controllers run one after another: controller `from` steps
      first and, unless it faults, the rest run on the world it left. */
  lemma ControllersBeginWithStep(env: Env, world: World, i: nat, from: nat, time: real, timeDelta: real)
    requires i < |world| && from < |world[i].controllers|
    ensures var step := ControllerStep(env, world, i, from, time, timeDelta);
      var r := RunControllers(env, world, i, from, time, timeDelta);
      var event := ControllerRan(i, from, time, timeDelta);
      && (step.fault.Some? ==> r == Outcome(step.world, [event], step.fault))
      && (step.fault.None? ==>
            var rest := RunControllers(env, step.world, i, from + 1, time, timeDelta);
            r == Outcome(rest.world, [event] + rest.trace, rest.fault))
  {
  }

  /** A fault in the controllers after `from` is a fault after `from`'s
      event. */
  lemma RunControllersFault(world: World, next: World, rest: Outcome, i: nat, from: nat, time: real, timeDelta: real)
    requires i < |world| && from < |world[i].controllers| && SameLayout(world, next)
    requires rest.fault.Some? ==>
      exists k ::
        && from + 1 <= k < |next[i].controllers|
        && next[i].controllers[k].PhysicsControl?
        && rest.trace == ControllerEvents(i, from + 1, k + 1, time, timeDelta)
    ensures rest.fault.Some? ==>
      exists k ::
        && from <= k < |world[i].controllers|
        && world[i].controllers[k].PhysicsControl?
        && [ControllerRan(i, from, time, timeDelta)] + rest.trace == ControllerEvents(i, from, k + 1, time, timeDelta)
  {
    if rest.fault.Some? {
      var k :| from + 1 <= k < |next[i].controllers| && next[i].controllers[k].PhysicsControl?
        && rest.trace == ControllerEvents(i, from + 1, k + 1, time, timeDelta);
      assert SameEntityLayout(world[i], next[i]);
      assert SameKind(world[i].controllers[k], next[i].controllers[k]);
      ControllerEventsCons(i, from, k + 1, time, timeDelta);
    }
  }

  /** The controllers fault exactly when the collision check would fault
      and a live physics controller is among them: the first such
      controller reaches the check, since no earlier controller faults or
      changes it. */
  lemma {:induction false} RunControllersCause(env: Env, world: World, i: nat, from: nat, time: real, timeDelta: real)
    requires i < |world| && from <= |world[i].controllers|
    ensures RunControllers(env, world, i, from, time, timeDelta).fault.Some? <==>
      CheckWouldFault(world, i) && LiveCarFrom(world[i], from)
    decreases |world[i].controllers| - from
  {
    if from < |world[i].controllers| {
      var step := ControllerStep(env, world, i, from, time, timeDelta);
      RunControllersCause(env, step.world, i, from + 1, time, timeDelta);
      RunControllersCauseStep(env, world, i, from, time, timeDelta);
    } else {
      ControllersEndClean(env, world, i, from, time, timeDelta);
    }
  }

  /** Past the last controller nothing runs and nothing faults. */
  lemma ControllersEndClean(env: Env, world: World, i: nat, from: nat, time: real, timeDelta: real)
    requires i < |world| && from == |world[i].controllers|
    ensures RunControllers(env, world, i, from, time, timeDelta) == Outcome(world, [], None)
    ensures !LiveCarFrom(world[i], from)
  {
  }

  /** The induction step of `RunControllersCause`. */
  lemma RunControllersCauseStep(env: Env, world: World, i: nat, from: nat, time: real, timeDelta: real)
    requires i < |world| && from < |world[i].controllers|
    requires var step := ControllerStep(env, world, i, from, time, timeDelta);
      RunControllers(env, step.world, i, from + 1, time, timeDelta).fault.Some? <==>
        CheckWouldFault(step.world, i) && LiveCarFrom(step.world[i], from + 1)
    ensures RunControllers(env, world, i, from, time, timeDelta).fault.Some? <==>
      CheckWouldFault(world, i) && LiveCarFrom(world[i], from)
  {
    var r := RunControllers(env, world, i, from, time, timeDelta);
    var step := ControllerStep(env, world, i, from, time, timeDelta);
    var rest := RunControllers(env, step.world, i, from + 1, time, timeDelta);
    var here := world[i].controllers[from].PhysicsControl? && !world[i].controllers[from].physics.isDead;
    assert SameEntityLayout(world[i], step.world[i]);
    LiveCarAfterStep(world[i], step.world[i], from);
    CheckFollowsLayout(world, step.world, i);
    assert step.fault.None? ==> r.fault == rest.fault;
    FaultCombines(r.fault.Some?, step.fault.Some?, rest.fault.Some?, CheckWouldFault(world, i), here,
      LiveCarFrom(world[i], from + 1), LiveCarFrom(world[i], from));
  }

  /** The propositional step of the induction above. */
  lemma FaultCombines(fault: bool, stepFault: bool, restFault: bool, check: bool, here: bool, liveRest: bool, live: bool)
    requires stepFault <==> here && check
    requires stepFault ==> fault
    requires !stepFault ==> (fault <==> restFault)
    requires restFault <==> check && liveRest
    requires live <==> liveRest || here
    ensures fault <==> check && live
  {
  }

  /** The controllers leave the sensors alone. */
  lemma {:induction false} RunControllersKeepSensors(env: Env, world: World, i: nat, from: nat, time: real, timeDelta: real)
    requires i < |world| && from <= |world[i].controllers|
    ensures RunControllers(env, world, i, from, time, timeDelta).world[i].sensors == world[i].sensors
    decreases |world[i].controllers| - from
  {
    if from < |world[i].controllers| {
      var step := ControllerStep(env, world, i, from, time, timeDelta);
      assert SameEntityLayout(world[i], step.world[i]);
      if step.fault.None? {
        RunControllersKeepSensors(env, step.world, i, from + 1, time, timeDelta);
      }
    }
  }

  /** A step of controller `from` keeps the later controllers, so it keeps
      whether one of them is a live car. */
  lemma LiveCarAfterStep(before: Entity, after: Entity, from: nat)
    requires from < |before.controllers| && |after.controllers| == |before.controllers|
    requires forall k :: 0 <= k < |before.controllers| && k != from ==> after.controllers[k] == before.controllers[k]
    ensures LiveCarFrom(after, from + 1) <==> LiveCarFrom(before, from + 1)
    ensures LiveCarFrom(before, from) <==>
      LiveCarFrom(before, from + 1) || (before.controllers[from].PhysicsControl? && !before.controllers[from].physics.isDead)
  {
    if LiveCarFrom(after, from + 1) {
      var k :| from + 1 <= k < |after.controllers| && after.controllers[k].PhysicsControl? && !after.controllers[k].physics.isDead;
      assert before.controllers[k] == after.controllers[k];
    }
    if LiveCarFrom(before, from + 1) {
      var k :| from + 1 <= k < |before.controllers| && before.controllers[k].PhysicsControl? && !before.controllers[k].physics.isDead;
      assert before.controllers[k] == after.controllers[k];
    }
  }

  /** The events of a complete `Entity.Simulate` of entity i: each sensor,
      then each controller. */
  function EntityEvents(i: nat, e: Entity, time: real, timeDelta: real): seq<Event>
  {
    SensorEvents(i, 0, |e.sensors|, time, timeDelta) + ControllerEvents(i, 0, |e.controllers|, time, timeDelta)
  }

  /** `Entity.Simulate` for entity i: all sensors before any controller,
      every component with the same time arguments; a fault comes from a
      physics controller and ends the entity's step there. */
  function SimulateEntity(env: Env, world: World, i: nat, time: real, timeDelta: real): (r: Outcome)
    requires i < |world|
    ensures OnlyChanged(world, r.world, i) && SameLayout(world, r.world)
    ensures r.fault.None? ==> r.trace == EntityEvents(i, world[i], time, timeDelta)
    ensures r.fault.Some? ==>
      exists k ::
        && 0 <= k < |world[i].controllers|
        && world[i].controllers[k].PhysicsControl?
        && r.trace == SensorEvents(i, 0, |world[i].sensors|, time, timeDelta) + ControllerEvents(i, 0, k + 1, time, timeDelta)
  {
    var sensed := RunSensors(env, world, i, 0, time, timeDelta);
    var driven := RunControllers(env, sensed.world, i, 0, time, timeDelta);
    LayoutTransitive(world, sensed.world, driven.world, i);
    SensedKeepsControllers(world[i], sensed.world[i], driven, i, time, timeDelta);
    Outcome(driven.world, sensed.trace + driven.trace, driven.fault)
  }

  /** The controller events after the sensors are those of the entity as it
      was before them: sensing keeps the controllers' number and kinds. */
  lemma SensedKeepsControllers(before: Entity, sensed: Entity, driven: Outcome, i: nat, time: real, timeDelta: real)
    requires SameEntityLayout(before, sensed)
    requires driven.fault.Some? ==>
      exists k ::
        && 0 <= k < |sensed.controllers|
        && sensed.controllers[k].PhysicsControl?
        && driven.trace == ControllerEvents(i, 0, k + 1, time, timeDelta)
    ensures driven.fault.Some? ==>
      exists k ::
        && 0 <= k < |before.controllers|
        && before.controllers[k].PhysicsControl?
        && driven.trace == ControllerEvents(i, 0, k + 1, time, timeDelta)
  {
    if driven.fault.Some? {
      var k :| 0 <= k < |sensed.controllers| && sensed.controllers[k].PhysicsControl?
        && driven.trace == ControllerEvents(i, 0, k + 1, time, timeDelta);
      assert SameKind(before.controllers[k], sensed.controllers[k]);
    }
  }

  /** An entity's step is the run of its sensors followed by the run of
      its controllers on the world the sensors left. */
  lemma EntitySensesThenDrives(env: Env, world: World, i: nat, time: real, timeDelta: real)
    requires i < |world|
    ensures var sensed := RunSensors(env, world, i, 0, time, timeDelta);
      var driven := RunControllers(env, sensed.world, i, 0, time, timeDelta);
      SimulateEntity(env, world, i, time, timeDelta) == Outcome(driven.world, sensed.trace + driven.trace, driven.fault)
  {
  }

  /** A live car in a graph whose only controller is its physics
      controller, with nothing to crash into, ends its step where the
      physics step (with no driver input) puts it, holding that step's
      state, with its sensors read before the move and without a fault;
      no other entity changes. */
  lemma LoneCarDrives(env: Env, world: World, i: nat, time: real, timeDelta: real)
    requires i < |world| && world[i].inGraph && !Exposed(world, i)
    requires |world[i].controllers| == 1 && world[i].controllers[0].PhysicsControl?
    requires !world[i].controllers[0].physics.isDead
    ensures var r := SimulateEntity(env, world, i, time, timeDelta);
      var m := Step(world[i].controllers[0].physics, None, world[i].Pose(), time, timeDelta, env.trig);
      && r.fault.None?
      && r.world[i].Pose() == m.pose
      && r.world[i].controllers == [PhysicsControl(m.physics)]
      && (forall s :: 0 <= s < |world[i].sensors| ==> r.world[i].sensors[s] == Reading(env, world, i, s))
      && (forall j :: 0 <= j < |world| && j != i ==> r.world[j] == world[j])
  {
    var sensed := RunSensors(env, world, i, 0, time, timeDelta);
    EntitySensesThenDrives(env, world, i, time, timeDelta);
    ExposedFollowsLayout(world, sensed.world, i);
    assert sensed.world[i].controllers == world[i].controllers;
    assert sensed.world[i].Pose() == world[i].Pose();
    LoneCarControllers(env, sensed.world, i, time, timeDelta);
  }

  /** The controller run of `LoneCarDrives`, on the sensed world. */
  lemma LoneCarControllers(env: Env, world: World, i: nat, time: real, timeDelta: real)
    requires i < |world| && world[i].inGraph && !Exposed(world, i)
    requires |world[i].controllers| == 1 && world[i].controllers[0].PhysicsControl?
    requires !world[i].controllers[0].physics.isDead
    ensures var r := RunControllers(env, world, i, 0, time, timeDelta);
      var m := Step(world[i].controllers[0].physics, None, world[i].Pose(), time, timeDelta, env.trig);
      && r.fault.None?
      && r.world[i].Pose() == m.pose
      && r.world[i].controllers == [PhysicsControl(m.physics)]
      && r.world[i].sensors == world[i].sensors
      && (forall j :: 0 <= j < |world| && j != i ==> r.world[j] == world[j])
  {
    var moved := Drive(env.trig, world, i, 0, time, timeDelta);
    assert InputFor(world[i]).None?;
    ExposedFollowsLayout(world, moved, i);
    var step := ControllerStep(env, world, i, 0, time, timeDelta);
    ControllerStepIsUpdate(env, world, i, 0, time, timeDelta);
    assert step == Outcome(moved, [], None);
    ControllersBeginWithStep(env, world, i, 0, time, timeDelta);
    ControllersEndClean(env, moved, i, 1, time, timeDelta);
  }

  /** An entity's step faults exactly when its collision check would
      fault and it has a live physics controller. */
  lemma EntityFaultCause(env: Env, world: World, i: nat, time: real, timeDelta: real)
    requires i < |world|
    ensures SimulateEntity(env, world, i, time, timeDelta).fault.Some? <==> EntityFaults(world, i)
  {
    var sensed := RunSensors(env, world, i, 0, time, timeDelta);
    RunControllersCause(env, sensed.world, i, 0, time, timeDelta);
    CheckFollowsLayout(world, sensed.world, i);
    assert sensed.world[i].controllers == world[i].controllers;
  }

  /** Every sensor of the entity reads the world as it was before the
      entity's step: sensors run before any controller moves the car, a
      scan ignores the other sensors, and controllers leave the sensors
      alone. */
  lemma SensorsReadBeforeMoving(env: Env, world: World, i: nat, time: real, timeDelta: real)
    requires i < |world|
    ensures var r := SimulateEntity(env, world, i, time, timeDelta);
      forall s :: 0 <= s < |world[i].sensors| ==> r.world[i].sensors[s] == Reading(env, world, i, s)
  {
    var sensed := RunSensors(env, world, i, 0, time, timeDelta);
    RunControllersKeepSensors(env, sensed.world, i, 0, time, timeDelta);
  }

  /** The events of a complete pass from entity `from` on. */
  function PassEvents(world: World, from: nat, time: real, timeDelta: real): seq<Event>
    requires from <= |world|
    decreases |world| - from
  {
    if from == |world| then [] else EntityEvents(from, world[from], time, timeDelta) + PassEvents(world, from + 1, time, timeDelta)
  }

  /** The complete-pass events depend only on the layout. */
  lemma {:induction false} PassEventsFollowLayout(a: World, b: World, from: nat, time: real, timeDelta: real)
    requires SameLayout(a, b) && from <= |a|
    ensures PassEvents(a, from, time, timeDelta) == PassEvents(b, from, time, timeDelta)
    decreases |a| - from
  {
    if from < |a| {
      assert SameEntityLayout(a[from], b[from]);
      PassEventsFollowLayout(a, b, from + 1, time, timeDelta);
    }
  }

  /** The entities from `from` on, in insertion order, stopping at the
      first fault; the entities before `from` are not touched, and on a
      fault the entities after the faulting one are not touched either. */
  function SimulateEntities(env: Env, world: World, from: nat, time: real, timeDelta: real): (r: Outcome)
    requires from <= |world|
    ensures SameLayout(world, r.world)
    ensures forall j :: 0 <= j < from ==> r.world[j] == world[j]
    ensures r.trace <= PassEvents(world, from, time, timeDelta)
    ensures r.fault.None? ==> r.trace == PassEvents(world, from, time, timeDelta)
    ensures r.fault.Some? ==> exists f :: from <= f < |world| && UntouchedAfter(r.world, world, f)
    ensures from < |world| ==>
      var step := SimulateEntity(env, world, from, time, timeDelta);
      && (step.fault.Some? ==> r == step)
      && (step.fault.None? ==> r.world[from] == step.world[from])
    decreases |world| - from
  {
    if from == |world| then Outcome(world, [], None)
    else
      SimulateEntitiesStep(env, world, from, time, timeDelta)
  }

  /** The pass from `from` begins with entity `from`'s step: it ends there
      when that step faults, and otherwise the rest of the pass runs from
      `from + 1` on the world that step left, and its world, events and
      fault are the pass's. */
  lemma PassBeginsWithEntity(env: Env, world: World, from: nat, time: real, timeDelta: real)
    requires from < |world|
    ensures var step := SimulateEntity(env, world, from, time, timeDelta);
      var r := SimulateEntities(env, world, from, time, timeDelta);
      && (step.fault.Some? ==> r == step)
      && (step.fault.None? ==> r.world[from] == step.world[from])
      && (step.fault.None? ==> r.fault == SimulateEntities(env, step.world, from + 1, time, timeDelta).fault)
      && (step.fault.None? ==>
            var rest := SimulateEntities(env, step.world, from + 1, time, timeDelta);
            r == Outcome(rest.world, step.trace + rest.trace, rest.fault))
  {
    var step := SimulateEntity(env, world, from, time, timeDelta);
    if step.fault.None? {
      var rest := SimulateEntities(env, step.world, from + 1, time, timeDelta);
      assert rest.world[from] == step.world[from];
    }
  }

  /** Entity `from`, then the rest of the pass unless it faulted. */
  function SimulateEntitiesStep(env: Env, world: World, from: nat, time: real, timeDelta: real): (r: Outcome)
    requires from < |world|
    ensures SameLayout(world, r.world)
    ensures forall j :: 0 <= j < from ==> r.world[j] == world[j]
    ensures r.trace <= PassEvents(world, from, time, timeDelta)
    ensures r.fault.None? ==> r.trace == PassEvents(world, from, time, timeDelta)
    ensures r.fault.Some? ==> exists f :: from <= f < |world| && UntouchedAfter(r.world, world, f)
    decreases |world| - from, 0
  {
    var step := SimulateEntity(env, world, from, time, timeDelta);
    if step.fault.Some? then
      FaultTraceIsPrefix(step, world, from, time, timeDelta);
      assert UntouchedAfter(step.world, world, from);
      Outcome(step.world, step.trace, step.fault)
    else
      var rest := SimulateEntities(env, step.world, from + 1, time, timeDelta);
      PassEventsFollowLayout(world, step.world, from + 1, time, timeDelta);
      ContinuedPass(world, step, rest, from, time, timeDelta);
      Outcome(rest.world, step.trace + rest.trace, rest.fault)
  }

  /** A faulting entity's events begin the complete pass's events. */
  lemma FaultTraceIsPrefix(step: Outcome, world: World, from: nat, time: real, timeDelta: real)
    requires from < |world|
    requires step.fault.Some? ==>
      exists k ::
        && 0 <= k < |world[from].controllers|
        && world[from].controllers[k].PhysicsControl?
        && step.trace == SensorEvents(from, 0, |world[from].sensors|, time, timeDelta)
           + ControllerEvents(from, 0, k + 1, time, timeDelta)
    ensures step.fault.Some? ==> step.trace <= PassEvents(world, from, time, timeDelta)
  {
    if step.fault.Some? {
      var k :| 0 <= k < |world[from].controllers| && world[from].controllers[k].PhysicsControl?
        && step.trace == SensorEvents(from, 0, |world[from].sensors|, time, timeDelta)
           + ControllerEvents(from, 0, k + 1, time, timeDelta);
      var sensors := SensorEvents(from, 0, |world[from].sensors|, time, timeDelta);
      var all := ControllerEvents(from, 0, |world[from].controllers|, time, timeDelta);
      var part := ControllerEvents(from, 0, k + 1, time, timeDelta);
      assert part == all[..k + 1];
      var pass := PassEvents(world, from, time, timeDelta);
      assert pass == sensors + all + PassEvents(world, from + 1, time, timeDelta);
      assert pass[..|step.trace|] == step.trace;
    }
  }

  /** Entity `from` completed and the pass went on from `from + 1`. */
  lemma ContinuedPass(world: World, step: Outcome, rest: Outcome, from: nat, time: real, timeDelta: real)
    requires from < |world|
    requires OnlyChanged(world, step.world, from) && SameLayout(world, step.world)
    requires step.trace == EntityEvents(from, world[from], time, timeDelta)
    requires SameLayout(step.world, rest.world)
    requires forall j :: 0 <= j < from + 1 ==> rest.world[j] == step.world[j]
    requires rest.trace <= PassEvents(step.world, from + 1, time, timeDelta)
    requires rest.fault.None? ==> rest.trace == PassEvents(step.world, from + 1, time, timeDelta)
    requires rest.fault.Some? ==> exists f :: from + 1 <= f < |world| && UntouchedAfter(rest.world, step.world, f)
    requires PassEvents(step.world, from + 1, time, timeDelta) == PassEvents(world, from + 1, time, timeDelta)
    ensures SameLayout(world, rest.world)
    ensures forall j :: 0 <= j < from ==> rest.world[j] == world[j]
    ensures step.trace + rest.trace <= PassEvents(world, from, time, timeDelta)
    ensures rest.fault.None? ==> step.trace + rest.trace == PassEvents(world, from, time, timeDelta)
    ensures rest.fault.Some? ==> exists f :: from <= f < |world| && UntouchedAfter(rest.world, world, f)
  {
    forall j | 0 <= j < |world|
      ensures SameEntityLayout(world[j], rest.world[j])
    {
      assert SameEntityLayout(world[j], step.world[j]);
      assert SameEntityLayout(step.world[j], rest.world[j]);
    }
    var pass := PassEvents(world, from, time, timeDelta);
    assert pass == step.trace + PassEvents(world, from + 1, time, timeDelta);
    assert pass[..|step.trace + rest.trace|] == step.trace + rest.trace;
    if rest.fault.Some? {
      var f :| from + 1 <= f < |world| && UntouchedAfter(rest.world, step.world, f);
      assert UntouchedAfter(rest.world, world, f);
    }
  }

  /** Entities other than `from` keep whether their step would fault
      when entity `from` has run: it changes only itself, and the checks
      depend on the layout. */
  lemma OthersKeepFaults(world: World, next: World, from: nat)
    requires from < |world| && OnlyChanged(world, next, from) && SameLayout(world, next)
    ensures forall f :: 0 <= f < |world| && f != from ==> (EntityFaults(next, f) <==> EntityFaults(world, f))
  {
    forall f | 0 <= f < |world| && f != from
      ensures EntityFaults(next, f) <==> EntityFaults(world, f)
    {
      CheckFollowsLayout(world, next, f);
    }
  }

  /** Some entity from `from` on would fault. */
  predicate SomeFaultFrom(world: World, from: nat)
  {
    exists f :: from <= f < |world| && EntityFaults(world, f)
  }

  /** After a clean step of entity `from`, some later entity would fault
      exactly when some entity from `from` on would have at the start. */
  lemma SomeFaultShift(world: World, next: World, from: nat)
    requires from < |world| && OnlyChanged(world, next, from) && SameLayout(world, next)
    requires !EntityFaults(world, from)
    ensures SomeFaultFrom(next, from + 1) <==> SomeFaultFrom(world, from)
  {
    OthersKeepFaults(world, next, from);
    if SomeFaultFrom(world, from) {
      var f :| from <= f < |world| && EntityFaults(world, f);
      assert EntityFaults(next, f);
    }
    if SomeFaultFrom(next, from + 1) {
      var f :| from + 1 <= f < |next| && EntityFaults(next, f);
      assert EntityFaults(world, f);
    }
  }

  /** The pass from `from` on faults exactly when the step of some entity
      from `from` on would fault on the world as it was at the start: no
      entity's step changes whether another's faults. */
  lemma {:induction false} PassFaultCause(env: Env, world: World, from: nat, time: real, timeDelta: real)
    requires from <= |world|
    ensures SimulateEntities(env, world, from, time, timeDelta).fault.Some? <==> SomeFaultFrom(world, from)
    decreases |world| - from
  {
    if from < |world| {
      PassFaultCause(env, SimulateEntity(env, world, from, time, timeDelta).world, from + 1, time, timeDelta);
      PassFaultCauseStep(env, world, from, time, timeDelta);
    } else {
      PassEndsClean(env, world, from, time, timeDelta);
    }
  }

  /** An empty remainder of the pass does nothing and cannot fault. */
  lemma PassEndsClean(env: Env, world: World, from: nat, time: real, timeDelta: real)
    requires from == |world|
    ensures SimulateEntities(env, world, from, time, timeDelta) == Outcome(world, [], None)
    ensures !SomeFaultFrom(world, from)
  {
  }

  /** The induction step of `PassFaultCause`. */
  lemma PassFaultCauseStep(env: Env, world: World, from: nat, time: real, timeDelta: real)
    requires from < |world|
    requires var step := SimulateEntity(env, world, from, time, timeDelta);
      SimulateEntities(env, step.world, from + 1, time, timeDelta).fault.Some? <==> SomeFaultFrom(step.world, from + 1)
    ensures SimulateEntities(env, world, from, time, timeDelta).fault.Some? <==> SomeFaultFrom(world, from)
  {
    var step := SimulateEntity(env, world, from, time, timeDelta);
    EntityFaultCause(env, world, from, time, timeDelta);
    PassBeginsWithEntity(env, world, from, time, timeDelta);
    if step.fault.None? {
      SomeFaultShift(world, step.world, from);
    } else {
      assert EntityFaults(world, from);
    }
  }
}
